=== FILE: README.md ===
# Sales call video review: transcript, frame index and call analysis in Dafny

This project models the two processing stages of a tool that prepares a
recorded sales call for review.

The first stage, `video_processor.py`, reads the call's transcript:
- It accepts WebVTT, SRT or timestamped plain text.
- It gives each named speaker an id.
- It groups consecutive segments of one speaker into turns and computes
  per-speaker talk metrics.
- It merges and thins the video's baseline and scene-change frames.
- It writes an index that shows, for every kept frame, the transcript text
  active at that moment.

The second stage, `call_analyzer.py`, reads that index:
- It scans each distinct transcript text against four tables of cue phrases:
  pain points, objections, buying signals and action items.
- It classifies questions.
- It assembles a call review with totals, per-type question counts and
  call-type-specific health indicators.

The model is a set of pure functions over immutable datatypes, one module per
concern:

| module | file | models |
|---|---|---|
| `Timestamps` | timestamps.dfy | `parse_timestamp`, `seconds_to_timestamp` |
| `Text` | text.dfy | `strip`, `split`, `' '.join`, `lower`, `str.split()` word counts |
| `LineSyntax` | line_syntax.dfy | the shared line regexes: the `-->` timing line, tag removal, `Name: text` |
| `CueTiming` | cue_timing.dfy | rendered timing lines, and the cues both subtitle round trips start from |
| `Vtt` | vtt.dfy | `extract_speaker_from_vtt_line`, `parse_vtt` |
| `Srt` | srt.dfy | `parse_srt` |
| `PlainText` | plain_text.dfy | `parse_plain_text` |
| `Speakers` | speakers.dfy | `TranscriptSegment` and the `speaker_N` registry all three parsers share |
| `Dispatch` | dispatch.dfy | `parse_transcript` |
| `Metrics` | metrics.dfy | `compute_speaker_metrics` |
| `Rounding` | rounding.dfy | Python's `round(x, n)` |
| `Sorting` | sorting.dfy | Python's stable `list.sort` |
| `Frames` | frames.dfy | `merge_frames`, downsampling to `target_frames` |
| `Alignment` | alignment.dfy | `find_transcript_segment`, one index frame entry |
| `Video` | video.dfy | `process_video`'s index |
| `Cues` | cues.dfy | the cue tables, `detect_patterns` |
| `Questions` | questions.dfy | the question patterns, `classify_question` |
| `Analysis` | analysis.dfy | `analyze_transcript` |
| `Review` | review.dfy | `generate_call_review`, `generate_health_indicators` |
| `Seqs`, `Wrappers` | seqs.dfy, wrappers.dfy | sequence helpers; `Option` and the `Outcome` of a run that can raise |

**Times.** Every transcript and frame time is an integer number of
milliseconds. Every timestamp form the parser reads has millisecond
precision, so nothing is lost for those forms.

**Speaker ids.** One shared pass, `Speakers.AssignIds`, gives out the ids
for all three parsers. Each parser produces raw segments (time, text, name)
and this pass assigns `speaker_1`, `speaker_2`, … in the order names first
appear. This is equivalent to the parsers' in-loop registry because in each
parser an id is assigned exactly when a segment is appended. A name counts
as present under Python's truthiness: `Some` and non-empty.

**Regular expressions.** Each regular expression is written out as a
deterministic matcher, with its backtracking worked out by hand:
- `\d{1,2}:` prefers two digits.
- The plain-text `ts_dash` pattern tries the longest timestamp run first
  and then shorter ones.
- `<v\s+([^>]+)>(.*)` ends the name at the first `>`.
- `re.split(r'\n\s*\n')` splits into groups of non-blank lines.
- A cue pattern `\b(a|b|…)\b` finds the leftmost position where some
  alternative sits between word boundaries. At that position it takes the
  first alternative in the list.
- A classification pattern `^(a|b|…)` is a prefix test and `(a|b|…)` is a
  substring test.

## Model

| member | source | states |
|---|---|---|
| Timestamps.ParseTimestamp | video_processor.py:67-99 | the parse never fails and never yields a negative time |
| Timestamps.ParseHms | video_processor.py:72-81 | a token `H:MM:SS` or `HH:MM:SS`, optionally followed by `,mmm` or `.mmm`, reads as h·3600 + m·60 + s seconds plus mmm milliseconds |
| Timestamps.CommaEqualsPeriod | video_processor.py:72 | the comma and the period are interchangeable as the sub-second separator |
| Timestamps.NoFormIsZero | video_processor.py:72-99 | a token that no `M:SS` colon form reads and that is not a number reads as 0 rather than failing |
| Timestamps.ParseWithoutDigitsIsZero | video_processor.py:95-99 | a token without any digit reads as 0 |
| Timestamps.SecondsToTimestamp | video_processor.py:102-107 | below 100 hours the text is `HH:MM:SS` with two-digit fields, minutes and seconds below 60, and fields that add up to the whole seconds of the time |
| Timestamps.RoundTrip | video_processor.py:67-107 | parsing the rendering of any time below 100 hours gives back the time truncated to the second |
| Timestamps.RoundTripSeconds | video_processor.py:67-107 | whole seconds below 100 hours survive render-then-parse exactly |
| Timestamps.RoundTripEndsAtHundredHours | video_processor.py:72-107 | example: at 100 hours the rendering `100:00:00` no longer parses back (the hour field takes at most two digits), so the round trip's bound is tight |
| Text.Strip | video_processor.py:69 | the result has no whitespace at either end, holds only characters of the input, and is empty exactly when the input is blank |
| Text.StripIdempotent | video_processor.py:69 | stripping twice is stripping once |
| Text.Lower | call_analyzer.py:147 | lower-casing keeps the length and lowers each character in place |
| Text.Split | video_processor.py:137 | `split('\n')` yields at least one part and no part contains the separator |
| Text.JoinSplit | video_processor.py:137 | joining the parts of a split with the separator restores the input |
| Text.SplitJoin | video_processor.py:137 | splitting a join of separator-free parts restores the parts |
| Text.WordCountJoin | video_processor.py:376-383 | the word count of texts joined by spaces is the sum of their word counts |
| Text.NatToStringInjective | video_processor.py:316 | distinct numbers render as distinct decimal strings, so distinct `speaker_N` ids stay distinct |
| LineSyntax.Arrow | video_processor.py:150 | a timing line yields two non-empty time tokens, the first of them at the start of the line |
| LineSyntax.RemoveTagsTagFree | video_processor.py:118 | after tag removal no `<…>` tag remains |
| LineSyntax.TagFreeUnchanged | video_processor.py:118 | removing tags from a tag-free text changes nothing |
| LineSyntax.RemoveTagsIdempotent | video_processor.py:118 | removing tags twice is removing them once |
| LineSyntax.ColonSplit | video_processor.py:122 | `^([^:]+):\s*(.+)$` splits a line at its first colon into a non-empty colon-free head and a non-empty rest, and fails only when there is no colon or the colon is first or last |
| CueTiming.TimingLineRoundTrip | video_processor.py:150-153 | a rendered `start --> end` line is read back as its two times |
| Vtt.ExtractSpeakerSpec | video_processor.py:110-131 | a voice tag always yields a stripped speaker and tag-free text; otherwise a speaker comes only from a colon line whose head looks like a name; without a speaker the text is the line with its tags removed |
| Vtt.VoiceCaseSpec | video_processor.py:113-119 | the voice-tag branch returns the stripped name and the stripped, tag-free text |
| Vtt.ColonCaseSpec | video_processor.py:121-127 | the colon branch returns the stripped head and the stripped rest when the head passes the name heuristic |
| Vtt.NoMarkerNoSpeaker | video_processor.py:129-131 | a line with neither a voice tag nor a colon yields no speaker and its text with tags removed |
| Vtt.VoiceLineRoundTrip | video_processor.py:110-119 | a line `<v name>text` written from a speaker and a text is read back as exactly that speaker and text |
| Vtt.ColonLineRoundTrip | video_processor.py:121-127 | a line `name: text` whose name passes the heuristic is read back as exactly that name and text |
| Vtt.DropHeader | video_processor.py:140-142 | the header skip drops exactly the lines before the first line that opens with `\d{2}:\d{2}` |
| Vtt.NoTimingNoCues | video_processor.py:146-190 | lines without a timing line yield no segment |
| Vtt.ParseViews | video_processor.py:146-190 | every segment has non-empty text, and there are never more segments than lines |
| Vtt.RenderParse | video_processor.py:134-190 | parsing a WebVTT document written from any well-formed cues gives back one segment per cue, with its times, text and speaker |
| Srt.BlockSpeaker | video_processor.py:212-229 | a block's speaker is the first line's name that is non-empty; there is none exactly when no line offers one |
| Srt.SplitBlocksOfJoin | video_processor.py:196 | splitting blocks joined by blank lines gives back the blocks |
| Srt.ParseRenderedBlock | video_processor.py:199-246 | a block `n`, `start --> end`, `name: text` parses to that cue's segment |
| Srt.RenderParse | video_processor.py:193-248 | parsing an SRT document written from any well-formed cues gives back one segment per cue, with its times, text and speaker |
| PlainText.SpeakerInText | video_processor.py:290-300 | a `Speaker: text` prefix is taken only when the speaker is non-empty with at most four words; otherwise the text is kept whole |
| PlainText.ReadLineOpening | video_processor.py:262-303 | a line is read only when, after stripping, it opens with a letter, a bracket or a timestamp character |
| PlainText.UnreadLineSkipped | video_processor.py:271-303 | a line no pattern reads adds nothing and leaves the other lines' items unchanged |
| PlainText.BlankLineUnread | video_processor.py:272-274 | blank lines are skipped |
| PlainText.LetterLine | video_processor.py:263-282 | a line opening with a letter is read by the `Speaker [ts]: text` pattern alone |
| PlainText.BracketLine | video_processor.py:264-300 | a line opening with a bracket is read as `[ts] Speaker: text` if that matches, else as `[ts] text`, which reads every bracketed timestamp followed by text |
| PlainText.StampLine | video_processor.py:266-300 | a line opening with a timestamp character is read by the `ts - text` pattern alone |
| PlainText.EndsChain | video_processor.py:305-310 | each segment ends where the next one starts, and the last ends 10 seconds after its start |
| PlainText.RemarkLineParses | video_processor.py:263-282 | a line `Name [ts]: text` is read as that name, time and text |
| PlainText.RenderParse | video_processor.py:251-327 | parsing a document of `Name [ts]: text` lines gives back one segment per line, each ending where the next starts |
| Speakers.AssignIdsSpec | video_processor.py:312-325 | times, text and name pass through; an unnamed segment gets no id; a named one gets `speaker_k`, where k is the rank of its name by first appearance |
| Speakers.SameNameSameId | video_processor.py:314-317 | two named segments share an id exactly when they share a name |
| Speakers.SpeakerIdInjective | video_processor.py:177 | distinct counters give distinct ids |
| Dispatch.ExtensionDecides | video_processor.py:335-340 | a `.vtt` or `.srt` extension, in any letter case, decides the format whatever the content |
| Dispatch.ContentDecides | video_processor.py:341-348 | otherwise the content decides: WebVTT exactly when the stripped content starts with `WEBVTT`, SRT exactly when not and the SRT sniff matches, plain text exactly when neither |
| Dispatch.SrtRenderDetected | video_processor.py:339-346 | a rendered SRT document is detected as SRT unless the extension says `.vtt` |
| Dispatch.VttRenderDetected | video_processor.py:337-344 | a rendered WebVTT document is detected as WebVTT unless the extension says `.srt` |
| Dispatch.PlainRenderDetected | video_processor.py:341-348 | a rendered plain-text document whose first name does not start with `WEBVTT` falls through to the plain-text parser |
| Dispatch.WebVttNameMisread | video_processor.py:343-344 | example: a plain-text document whose first speaker's name starts with `WEBVTT` is sent to the WebVTT parser |
| Metrics.Runs | video_processor.py:362-406 | the turns are the maximal runs of consecutive segments with one speaker key (`speaker_id or "unknown"`), and the first run starts with the first segment |
| Metrics.RunsUnique | video_processor.py:362-406 | the maximal runs of a transcript are unique |
| Metrics.TurnOf | video_processor.py:376-406 | a turn runs from its first segment's start to its last segment's end, and its word count is the sum of its texts' word counts |
| Metrics.TurnsAlternate | video_processor.py:373-394 | no two adjacent turns share a speaker, and every segment of a run belongs to its turn's speaker |
| Metrics.TalliesSpec | video_processor.py:409-422 | one tally per speaker in order of first turn, each holding the speaker's own turns, words, talk time and first name |
| Metrics.TalliesTotals | video_processor.py:424-426 | the tallies' turn counts add up to the number of turns and their talk times to the total turn duration |
| Metrics.MetricsOf | video_processor.py:429-444 | a speaker's id, name, words and turns are carried over; the percentage is 0 when there is no talk time, and so is the pace when the speaker has none |
| Metrics.ComputeSpeakerMetrics | video_processor.py:351-449 | no segments give `([], [], 0)`; the turn total is the number of turns; the speakers are sorted by descending rounded talk time, one per distinct speaker |
| Metrics.MetricsPerSpeaker | video_processor.py:409-444 | every listed speaker's turns, words, first name, rounded talk time, rounded share of the total, rounded words per minute and rounded average turn length are those of the speaker's own turns |
| Metrics.MetricsSpeakers | video_processor.py:409-449 | the speakers listed are exactly the speakers of the turns |
| Metrics.MetricsTieOrder | video_processor.py:447 | speakers with equal rounded talk time keep their first-turn order |
| Metrics.TurnSpeakers | video_processor.py:370 | the turns' speakers are exactly the speaker keys of the segments |
| Rounding.RoundHalfEven | video_processor.py:438-443 | `round` to an integer lies within one half of its argument and breaks ties to even |
| Rounding.RoundHalfEvenUnique | video_processor.py:438-443 | only one integer has those two properties |
| Rounding.Round | video_processor.py:438-443 | `round(x, n)` lies within half a unit of the n-th decimal place of x |
| Rounding.RoundHalfEvenMonotone | video_processor.py:438-443 | rounding preserves order |
| Sorting.SortBySorted | video_processor.py:447 | the sort's result is ordered by the key and is a permutation of its input |
| Sorting.SortByStable | video_processor.py:447 | the sort is stable: items with one key keep their relative order |
| Frames.TimeOrder | video_processor.py:547 | ordered by the time key means non-decreasing in time |
| Frames.MergeFramesSpec | video_processor.py:542-557 | the merged frames are a sub-multiset of the baseline and scene-change frames, ordered by time, start no earlier than 0 and lie at least the 2-second gap apart; every input frame at or after 0 lies less than the gap after some kept frame, so a frame is dropped only for crowding; each kept frame is the earliest of `baseline + scenes` at its time |
| Frames.MergeKeepsFirst | video_processor.py:547-555 | of the input frames sharing a time, only the one first in `baseline + scenes` can be kept, because the sort by time is stable |
| Frames.BaselineWins | video_processor.py:547 | when a baseline frame and a scene-change frame share a time, the kept frame is a baseline frame |
| Frames.ThinSubMultiset | video_processor.py:549-555 | thinning only drops frames |
| Frames.ThinSorted | video_processor.py:549-555 | thinning keeps time order |
| Frames.DownsampleSpec | video_processor.py:637-640 | more frames than the target yield exactly `target` frames, picked at strictly increasing indices `⌊i·n/target⌋`, starting with the first frame and never reaching the last |
| Frames.LastFrameDropped | video_processor.py:639-640 | when thinning happens, the last pick is at most the second-to-last frame |
| Frames.FiveToTwo | video_processor.py:639-640 | example: five frames thinned to two keep the first and the third |
| Frames.DownsampleEdges | video_processor.py:637-640 | at most `target` frames pass unchanged; a zero target with frames raises (division by zero); a negative target yields none |
| Frames.DownsampleKeeps | video_processor.py:637-640 | every kept frame is an input frame, and a non-negative target bounds the count |
| Alignment.FirstCovering | video_processor.py:566-568 | the first segment whose closed interval contains the time, or none when no segment does |
| Alignment.Nearest | video_processor.py:571-578 | the segment whose start is nearest the time, earliest on ties |
| Alignment.AlignCases | video_processor.py:560-583 | the first containing segment is shown; failing that, the nearest start if under 10 seconds away; failing that, `[No transcript available]` with no speaker |
| Alignment.FindTranscriptSegment | video_processor.py:560-583 | the loop version computes the same triple as that case analysis |
| Alignment.RecordOf | video_processor.py:648-662 | a frame entry carries the frame's rendered time, its time rounded to within half a hundredth of a second, its file and the aligned text; each speaker field is written exactly when the aligned value is non-empty, and then equals it |
| Alignment.RecordTimestampReads | video_processor.py:651-652 | below 100 hours, an entry's `timestamp` reads back as the frame's time truncated to the whole second |
| Video.Records | video_processor.py:648-662 | one entry per kept frame, in frame order |
| Video.ProcessVideoSpec | video_processor.py:586-711 | the index counts what it lists: frames, never more than a non-negative target; one entry per speaker; the turn total; each entry shows what some merged frame aligns to |
| Video.ZeroTargetRaises | video_processor.py:637-640 | a zero frame target with frames to thin makes the run fail |
| Cues.FirstAltFrom | call_analyzer.py:150 | at one position, the first alternative that sits there between word boundaries, or none |
| Cues.SearchSpec | call_analyzer.py:150 | a word-bounded alternation of phrases matches exactly when some alternative occurs as a whole word; the match is at the leftmost such position, with the first alternative that fits there |
| Cues.NoMatchInsideWords | call_analyzer.py:51-110 | example: `\b` keeps cues from matching inside longer words: "cost" is not found in "costume", nor "hack" in "hackathon" |
| Cues.Phrase | call_analyzer.py:160 | the matched phrase is the alternative, as it occurs in the lower-cased text |
| Cues.FirstCueFrom | call_analyzer.py:149-151 | the first table entry whose pattern matches, and no earlier entry matches |
| Cues.DetectPatterns | call_analyzer.py:142-164 | at most one detection per category; none exactly when no table entry matches the lower-cased text; the detection carries the category, text, time and speaker it was given |
| Cues.DetectPatternsSpec | call_analyzer.py:149-162 | the detection reports the first matching entry's tier and the phrase found at that entry's leftmost match |
| Questions.ClassifyQuestion | call_analyzer.py:167-188 | no type exactly when the text has no `?`; a reported type's patterns match the lower-cased, stripped text |
| Questions.ClassifyPrecedence | call_analyzer.py:175-188 | the type reported is the first of clarifying, open discovery, closed confirmation, rhetorical whose patterns match, and only that one |
| Questions.ClarifyingFirst | call_analyzer.py:175-182 | example: "what do you mean …?" also opens like a discovery question but is classified clarifying |
| Analysis.Firsts | call_analyzer.py:199-209 | the frames whose text is analysed are among the frames, and never more than given |
| Analysis.FirstsSpec | call_analyzer.py:199-209 | the texts analysed are distinct and analysable (non-empty, not the placeholder); each one is analysed at the first frame showing it; every analysable text shown is analysed |
| Analysis.AnalyzeTranscript | call_analyzer.py:191-254 | the loop with its `seen_texts` set computes the lists of analysing each distinct text once, at its first frame |
| Analysis.DetectFacts | call_analyzer.py:216-234 | a frame gives at most one detection per category, exactly when the category's table matches its text, carrying the frame's data |
| Analysis.CollectSpec | call_analyzer.py:201-234 | a category's detections come from the frames analysed, mention exactly the texts that match its table, and mention each text once |
| Analysis.AnalyzeReports | call_analyzer.py:191-254 | a category's detections mention exactly the analysable texts shown that match its table, each once, with the data of the first frame that shows it |
| Analysis.QuestionsOfFacts | call_analyzer.py:236-246 | a frame gives a question exactly when its text has a `?`, with the classifier's type |
| Analysis.AnalyzeQuestions | call_analyzer.py:191-254 | the questions are classified, and ask exactly the analysable texts shown that contain `?` |
| Review.ByTypeSpec | call_analyzer.py:269-272 | the per-type question counts have distinct types, count each type's questions exactly, and add up to the number of questions |
| Review.TopPct | call_analyzer.py:342-343 | the top speaker's percentage is the largest one listed |
| Review.TalkRatioSpec | call_analyzer.py:339-362 | a talk-ratio indicator exists exactly for discovery and demo calls with two or more speakers; it needs attention exactly for a discovery call where every speaker is below 40 %; a demo is always good |
| Review.RatioBelow | call_analyzer.py:370-371 | an open ratio below 0.4 means five times the open questions are fewer than twice all questions |
| Review.QuestionQualitySpec | call_analyzer.py:364-380 | a question-quality indicator exists exactly when there are questions; it needs attention exactly for a discovery call whose open share is below 0.4 |
| Review.OtherIndicatorsSpec | call_analyzer.py:382-429 | pain discovery is rated only for discovery calls: no pain points need attention, one is moderate, two or more are good; objections and buying signals get an indicator exactly when present; next steps are good exactly when there are action items |
| Review.ReviewCounts | call_analyzer.py:257-331 | every total is the length of its details; high-confidence counts never exceed totals; the per-type counts add up to the question total; the key metrics repeat the totals and the index's speaker figures; the frame count is the index's |
| Review.ReviewQuestions | call_analyzer.py:266-288 | the review's questions are classified, tallied by type, and ask exactly the analysable texts of the index that contain `?` |

## Left out

- Timestamps.ParseTimestamp: the `float(ts)` fallback is modelled only for plain ASCII digit strings.
  - Such a string is read as whole seconds.
  - Every other spelling `float` accepts reads as 0 in the model, where the source returns its value. This includes `12.5`, which the `[\d:,.]+` capture can deliver, as well as signs, exponents, underscores, `inf` and `nan`.
  - This is also why the model's result is never negative.
- Timestamps.ParseTimestamp: times are integer milliseconds, not binary floats. Every colon form has millisecond precision, so those forms are exact.
- LineSyntax.LooksLikeName: the name heuristic's `str.isdigit` test accepts ASCII digits only. Python also accepts every Unicode decimal digit, so a name such as "Agent ٣" passes the heuristic in the model and not in the source. This affects Vtt.ExtractSpeakerSpec and Srt.BlockSpeaker.
- Timestamps.ParseTimestamp: `\d` matches ASCII digits only, here and in Vtt.DropHeader (`\d{2}:\d{2}`), the WebVTT cue-identifier test `^\d+$` in Vtt.IsCueIdentifier, the timing line's `[\d:,.]`, the plain-text patterns and the SRT sniff in Dispatch.ContentDecides. Python's `\d` also matches other Unicode decimal digits.
- Cues.SearchSpec: `\b` uses ASCII word characters (`[A-Za-z0-9_]`), whereas Python's `\w` is Unicode-aware.
- Cues.SearchSpec: the search matches the lower-cased text literally. The non-ASCII case equivalences of `re.IGNORECASE` (call_analyzer.py:150), such as `ſ` with `s` and `ı` with `i`, are not modelled, so "the coſt is too high" raises a cue in the source and none here.
- Text.Lower: `str.lower()` is ASCII-only in the model; the cue tables and question patterns are all ASCII.
- Rounding.Round: rounds the exact real value half-to-even. Python rounds the nearest binary double, which can differ at exact decimal halves such as `round(2.675, 2)`.
- Frames.DownsampleSpec: uses the exact index `⌊i·n/target⌋`. The source computes `int(i * step)` with `step = n / target` in floating point, which can land one lower when `i·n/target` is an integer.
- Metrics.MetricsOf: talk percentages, paces and averages are exact reals rounded by `Rounding.Round`, not float arithmetic.
- Review.QuestionQualitySpec: the real-number comparison `open / total < 0.4` is modelled exactly. For realistic question counts the double division is at least as close as 0.4's own representation, so the source agrees; the model does not prove that.
- Video.ProcessVideo: the run's I/O is not modelled:
  - ffmpeg and ffprobe are external tools. Baseline frames, scene-change frames and the duration are parameters, so `get_video_duration` (452), `extract_baseline_frames` (464) and `detect_scene_changes` (498) are not modelled.
  - File reading and writing, JSON serialisation, directory creation and console output are I/O. The transcript arrives as its content and extension: `Path.suffix` is taken as given.
  - The index's `video_file`, `transcript_file`, `frame_interval_seconds` and `scene_detection_threshold` fields only echo inputs.
- Alignment.RecordOf: frame times are whole milliseconds, whereas ffmpeg's `pts_time` (video_processor.py:514-516) can carry finer digits.
- Alignment.RecordOf: `timestamp_seconds`, like every other `round`, is the exact-real half-to-even rounding, so it can differ from the source at decimal halves: a frame at 2675 ms gives 2.68 here and `round(2.675, 2) = 2.67` in Python (see Rounding.Round).
- Review.GenerateCallReview: the review reads the model's index directly rather than parsed JSON.
  - The `.get(key, default)` fallbacks for missing keys never apply, because the index always carries every field.
  - The metadata's `video_file` and `analysis_version`, the constant empty `visual_analysis` lists, and the JSON writing are left out.
- Review.HealthIndicators: the indicators' messages (formatted strings) are left out; each indicator keeps only its status.
- The `main` functions of both programs (argument parsing, printing, exit codes) are left out as command-line plumbing. The call type is the three-valued enum the argument parser allows.

## Design and code

The model follows the code where the written design of the tool says
otherwise:

- **Downsampling.** The design retains the first and last frames. The code's `all_frames[int(i * step)]` never picks the last one; `Frames.LastFrameDropped` proves this.
- **Frame merging.** The design collapses candidates within 1 second and prefers scene changes. The code keeps a frame only when it is at least 2 seconds after the previously kept one, whichever list it came from; on a tie in time the baseline frame comes first and is the one kept (`Frames.BaselineWins`).
- **Alignment.** The design uses a half-open interval and falls back to the nearest preceding segment. The code tests the closed interval `[start, end]`. Its fallback is the segment whose start is nearest in either direction, only when under 10 seconds away, and otherwise the `[No transcript available]` placeholder.
- **Talk-ratio rating.** The design calls a discovery call's talk ratio good when the top speaker is at or below 40 %. The code rates it as needing attention exactly when the top speaker is below 40 %, and good otherwise.
- **Question quality.** The design wants an open share of 50 %. The code's threshold is 0.4.
- **Detection granularity.** The design reports one detection per (category, phrase). The code reports at most one per category per text: the first table entry that matches.
- **Turn duration.** The design sums the durations of a turn's segments. The code takes the last segment's end minus the first segment's start.
- **Question detection.** The design also treats interrogative lead words without a question mark as questions. The code requires a `?` in the text.
- **Empty transcripts.** The design fails on a transcript that yields no segments. The code warns and carries on with an empty speaker analysis.

=== FILE: alignment.dfy ===
/** `find_transcript_segment` and the frame records of `process_video`: a
    frame shows the first segment whose span holds its time, otherwise the
    segment starting nearest to it when that is less than ten seconds away,
    otherwise a placeholder. Times are milliseconds. */
module Alignment {
  import opened Wrappers
  import opened Speakers
  import opened Timestamps
  import opened Rounding
  import opened Frames

  const NoTranscript := "[No transcript available]"

  /** The `min_diff < 10` window, in milliseconds. */
  const NearbyMs := 10000

  /** `segment.start_seconds <= timestamp <= segment.end_seconds`. */
  predicate Covers(s: Segment, t: int) {
    s.start <= t <= s.end
  }

  /** `abs(segment.start_seconds - timestamp)`. */
  function Distance(s: Segment, t: int): nat {
    if s.start >= t then s.start - t else t - s.start
  }

  /** The first segment whose span holds `t`. */
  function FirstCovering(segs: seq<Segment>, t: int): (r: Option<nat>)
    ensures r.Some? ==> r.value < |segs| && Covers(segs[r.value], t)
    ensures r.Some? ==> forall k :: 0 <= k < r.value ==> !Covers(segs[k], t)
    ensures r.None? ==> forall k :: 0 <= k < |segs| ==> !Covers(segs[k], t)
    decreases |segs|
  {
    if segs == [] then None
    else if Covers(segs[0], t) then Some(0)
    else
      match FirstCovering(segs[1..], t)
      case Some(k) => Some(k + 1)
      case None => None
  }

  /** The first segment among those starting nearest to `t`: the scan
      replaces its candidate only on a strictly smaller distance. */
  function Nearest(segs: seq<Segment>, t: int): (r: nat)
    requires segs != []
    ensures r < |segs|
    ensures forall k :: 0 <= k < |segs| ==> Distance(segs[r], t) <= Distance(segs[k], t)
    ensures forall k :: 0 <= k < r ==> Distance(segs[k], t) > Distance(segs[r], t)
    decreases |segs|
  {
    var n := |segs| - 1;
    if n == 0 then 0
    else
      var p := Nearest(segs[..n], t);
      assert forall k :: 0 <= k < n ==> segs[..n][k] == segs[k];
      if Distance(segs[n], t) < Distance(segs[p], t) then n else p
  }

  /** `(text, speaker_id, speaker_name)`. */
  datatype Aligned = Aligned(text: string, speakerId: Option<string>, speakerName: Option<string>)

  function Shown(s: Segment): Aligned {
    Aligned(s.text, s.speakerId, s.speakerName)
  }

  /** What a frame at `t` shows. */
  function Align(t: int, segs: seq<Segment>): Aligned {
    match FirstCovering(segs, t)
    case Some(k) => Shown(segs[k])
    case None =>
      if segs != [] && Distance(segs[Nearest(segs, t)], t) < NearbyMs then Shown(segs[Nearest(segs, t)])
      else Aligned(NoTranscript, None, None)
  }

  /** The two scans of `find_transcript_segment`. */
  method FindTranscriptSegment(t: int, segs: seq<Segment>) returns (r: Aligned)
    ensures r == Align(t, segs)
  {
    var i := 0;
    while i < |segs|
      invariant 0 <= i <= |segs|
      invariant forall k :: 0 <= k < i ==> !Covers(segs[k], t)
    {
      if segs[i].start <= t <= segs[i].end {
        CoveringFound(segs, t, i);
        return Shown(segs[i]);
      }
      i := i + 1;
    }
    var closest: Option<nat> := None;
    var minDiff := 0;
    i := 0;
    while i < |segs|
      invariant 0 <= i <= |segs|
      invariant closest.None? <==> i == 0
      invariant closest.Some? ==> closest.value == Nearest(segs[..i], t) && minDiff == Distance(segs[closest.value], t)
    {
      var diff := if segs[i].start >= t then segs[i].start - t else t - segs[i].start;
      assert segs[..i + 1][..i] == segs[..i];
      if closest.None? || diff < minDiff {
        minDiff := diff;
        closest := Some(i);
      }
      i := i + 1;
    }
    assert segs[..|segs|] == segs;
    if closest.Some? && minDiff < NearbyMs {
      r := Shown(segs[closest.value]);
    } else {
      r := Aligned(NoTranscript, None, None);
    }
  }

  lemma CoveringFound(segs: seq<Segment>, t: int, i: nat)
    requires i < |segs| && Covers(segs[i], t)
    requires forall k :: 0 <= k < i ==> !Covers(segs[k], t)
    ensures Align(t, segs) == Shown(segs[i])
  {
    var r := FirstCovering(segs, t);
    assert r.Some?;
  }

  /** `k` is the first segment whose span holds `t`. */
  predicate FirstCover(segs: seq<Segment>, t: int, k: nat) {
    k < |segs| && Covers(segs[k], t) && forall j :: 0 <= j < k ==> !Covers(segs[j], t)
  }

  /** `k` starts nearest to `t`, and every segment before it is farther. */
  predicate FirstNearest(segs: seq<Segment>, t: int, k: nat) {
    && k < |segs|
    && (forall j :: 0 <= j < |segs| ==> Distance(segs[k], t) <= Distance(segs[j], t))
    && (forall j :: 0 <= j < k ==> Distance(segs[j], t) > Distance(segs[k], t))
  }

  /** The three outcomes: the first segment spanning the time; failing that,
      the first of the nearest-starting segments when it starts less than ten
      seconds away; failing that, the placeholder with no speaker. */
  lemma AlignCases(t: int, segs: seq<Segment>)
    ensures forall k: nat :: FirstCover(segs, t, k) ==> Align(t, segs) == Shown(segs[k])
    ensures (forall k :: 0 <= k < |segs| ==> !Covers(segs[k], t)) ==>
      (forall k: nat :: FirstNearest(segs, t, k) && Distance(segs[k], t) < NearbyMs ==> Align(t, segs) == Shown(segs[k]))
    ensures (forall k :: 0 <= k < |segs| ==> !Covers(segs[k], t) && Distance(segs[k], t) >= NearbyMs) ==>
      Align(t, segs) == Aligned(NoTranscript, None, None)
  {
    forall k: nat | FirstCover(segs, t, k) ensures Align(t, segs) == Shown(segs[k]) {
      CoveringFound(segs, t, k);
    }
    if segs != [] {
      var p := Nearest(segs, t);
      assert forall k: nat :: FirstNearest(segs, t, k) ==> k == p;
    }
  }

  // ---------------------------------------------------------------------------
  // Frame records

  /** One entry of the index's `frames`: the speaker fields are present only
      when the shown segment's id or name is non-empty. */
  datatype FrameRecord = FrameRecord(
    timestamp: string,
    seconds: real,
    screenshot: string,
    transcript: string,
    speakerId: Option<string>,
    speakerName: Option<string>)

  function Truthy(o: Option<string>): Option<string> {
    if Named(o) then o else None
  }

  /** A frame's entry: its time rendered and rounded to the hundredth of a
      second, its file, the aligned text, and each speaker field exactly when
      the aligned value is non-empty. */
  function RecordOf(segs: seq<Segment>, f: Frame): (r: FrameRecord)
    ensures r.screenshot == f.file && r.transcript == Align(f.time, segs).text
    ensures r.timestamp == SecondsToTimestamp(f.time)
    ensures -0.5 <= (r.seconds - f.time as real / 1000.0) * 100.0 <= 0.5
    ensures r.speakerId.Some? <==> Named(Align(f.time, segs).speakerId)
    ensures r.speakerName.Some? <==> Named(Align(f.time, segs).speakerName)
    ensures r.speakerId.Some? ==> r.speakerId.value != [] && r.speakerId == Align(f.time, segs).speakerId
    ensures r.speakerName.Some? ==> r.speakerName.value != [] && r.speakerName == Align(f.time, segs).speakerName
  {
    var a := Align(f.time, segs);
    var x := f.time as real / 1000.0;
    HundredthClose(x);
    FrameRecord(SecondsToTimestamp(f.time), Round(x, 2), f.file, a.text, Truthy(a.speakerId), Truthy(a.speakerName))
  }

  /** `round(x, 2)` is within half a hundredth of `x`. */
  lemma HundredthClose(x: real)
    ensures -0.5 <= (Round(x, 2) - x) * 100.0 <= 0.5
  {
  }

  /** The entry's `timestamp` reads back as the frame's time truncated to
      the whole second, for every time below 100 hours. */
  lemma RecordTimestampReads(segs: seq<Segment>, f: Frame)
    requires 0 <= f.time < 100 * MsPerHour
    ensures ParseTimestamp(RecordOf(segs, f).timestamp) == (f.time / MsPerSecond) * MsPerSecond
  {
    RoundTrip(f.time);
  }
}

=== FILE: analysis.dfy ===
/** `analyze_transcript`: runs the cue tables and the question classifier
    over the transcript texts of the index's frames, each distinct text
    once, at the first frame that shows it. */
module Analysis {
  import opened Wrappers
  import opened Cues
  import opened Questions
  import Alignment
  import Seqs

  type FrameRecord = Alignment.FrameRecord

  /** One classified `Question`. */
  datatype Question = Question(
    text: string,
    seconds: real,
    timestamp: string,
    speakerId: Option<string>,
    speakerName: Option<string>,
    questionType: QuestionType)

  /** The five lists `analyze_transcript` returns. */
  datatype Analysis = Analysis(
    painPoints: seq<Detected>,
    objections: seq<Detected>,
    buyingSignals: seq<Detected>,
    actionItems: seq<Detected>,
    questions: seq<Question>)

  /** The list of one category. */
  function Of(a: Analysis, c: Category): seq<Detected> {
    match c
    case PainPoint => a.painPoints
    case Objection => a.objections
    case BuyingSignal => a.buyingSignals
    case ActionItem => a.actionItems
  }

  /** A text worth analysing: neither empty nor the placeholder alignment
      writes for a frame without transcript. */
  predicate Analysable(text: string) {
    text != "" && text != Alignment.NoTranscript
  }

  /** Some frame of `fs` shows `text`. */
  predicate ShownIn(fs: seq<FrameRecord>, text: string) {
    exists j :: 0 <= j < |fs| && fs[j].transcript == text
  }

  /** The frames the analyzer actually looks at: those with an analysable
      text that no earlier frame showed. */
  function Firsts(frames: seq<FrameRecord>): (r: seq<FrameRecord>)
    ensures |r| <= |frames|
    ensures forall x :: x in r ==> x in frames
  {
    if frames == [] then []
    else
      var init := frames[..|frames| - 1];
      var f := frames[|frames| - 1];
      if Analysable(f.transcript) && !ShownIn(init, f.transcript) then Firsts(init) + [f] else Firsts(init)
  }

  /** The cues of one category found in a frame's text. */
  function Detect(f: FrameRecord, c: Category): seq<Detected> {
    DetectPatterns(f.transcript, Table(c), c, f.seconds, f.speakerId, f.speakerName)
  }

  /** The question a frame's text poses, if any. */
  function QuestionsOf(f: FrameRecord): seq<Question> {
    match ClassifyQuestion(f.transcript)
    case None => []
    case Some(t) => [Question(f.transcript, f.seconds, Clock(f.seconds), f.speakerId, f.speakerName, t)]
  }

  /** The lists after one more frame has been analysed. */
  function Step(a: Analysis, f: FrameRecord): Analysis {
    Analysis(
      a.painPoints + Detect(f, PainPoint),
      a.objections + Detect(f, Objection),
      a.buyingSignals + Detect(f, BuyingSignal),
      a.actionItems + Detect(f, ActionItem),
      a.questions + QuestionsOf(f))
  }

  const Empty := Analysis([], [], [], [], [])

  /** The lists for analysing the given frames in order. */
  function Collect(kept: seq<FrameRecord>): Analysis {
    if kept == [] then Empty else Step(Collect(kept[..|kept| - 1]), kept[|kept| - 1])
  }

  /** `analyze_transcript`: one pass with a set of texts already seen. */
  method AnalyzeTranscript(frames: seq<FrameRecord>) returns (r: Analysis)
    ensures r == Collect(Firsts(frames))
  {
    r := Empty;
    var seen: set<string> := {};
    for i := 0 to |frames|
      invariant r == Collect(Firsts(frames[..i]))
      invariant SeenExactly(seen, frames[..i])
    {
      var f := frames[i];
      Seqs.TakeSnoc(frames, i);
      FirstsSnoc(frames[..i], f);
      SeenSnoc(seen, frames[..i], f);
      if Analysable(f.transcript) && f.transcript !in seen {
        CollectSnoc(Firsts(frames[..i]), f);
        seen := seen + {f.transcript};
        r := Step(r, f);
      }
    }
    assert frames[..|frames|] == frames;
  }

  /** `seen` holds exactly the analysable texts the frames show. */
  ghost predicate SeenExactly(seen: set<string>, fs: seq<FrameRecord>) {
    forall t :: t in seen <==> Analysable(t) && ShownIn(fs, t)
  }

  lemma SeenSnoc(seen: set<string>, fs: seq<FrameRecord>, f: FrameRecord)
    requires SeenExactly(seen, fs)
    ensures f.transcript in seen <==> Analysable(f.transcript) && ShownIn(fs, f.transcript)
    ensures Analysable(f.transcript) && f.transcript !in seen ==> SeenExactly(seen + {f.transcript}, fs + [f])
    ensures !(Analysable(f.transcript) && f.transcript !in seen) ==> SeenExactly(seen, fs + [f])
  {
    ShownInSnoc(fs, f);
  }

  lemma FirstsSnoc(fs: seq<FrameRecord>, f: FrameRecord)
    ensures Firsts(fs + [f]) == if Analysable(f.transcript) && !ShownIn(fs, f.transcript) then Firsts(fs) + [f] else Firsts(fs)
  {
    assert (fs + [f])[..|fs|] == fs;
  }

  lemma CollectSnoc(kept: seq<FrameRecord>, f: FrameRecord)
    ensures Collect(kept + [f]) == Step(Collect(kept), f)
  {
    assert (kept + [f])[..|kept|] == kept;
  }

  lemma ShownInSnoc(fs: seq<FrameRecord>, f: FrameRecord)
    ensures forall t :: ShownIn(fs + [f], t) <==> ShownIn(fs, t) || f.transcript == t
  {
    forall t | ShownIn(fs + [f], t) && !ShownIn(fs, t) ensures f.transcript == t {
      var j :| 0 <= j < |fs + [f]| && (fs + [f])[j].transcript == t;
      assert j == |fs|;
    }
    forall t | ShownIn(fs, t) ensures ShownIn(fs + [f], t) {
      var j :| 0 <= j < |fs| && fs[j].transcript == t;
      assert (fs + [f])[j].transcript == t;
    }
    assert (fs + [f])[|fs|] == f;
  }

  // ---------------------------------------------------------------------------
  // Which frames are analysed

  /** No two frames of `fs` show the same text. */
  predicate DistinctTexts(fs: seq<FrameRecord>) {
    forall a, b :: 0 <= a < b < |fs| ==> fs[a].transcript != fs[b].transcript
  }

  /** `f` is the first frame of `frames` that shows its text. */
  predicate FirstShowing(frames: seq<FrameRecord>, f: FrameRecord) {
    exists i :: 0 <= i < |frames| && frames[i] == f && !ShownIn(frames[..i], f.transcript)
  }

  /** Each distinct analysable text is analysed exactly once, at the first
      frame that shows it; nothing else is analysed. */
  lemma FirstsSpec(frames: seq<FrameRecord>)
    ensures DistinctTexts(Firsts(frames))
    ensures forall k :: 0 <= k < |Firsts(frames)| ==>
      Analysable(Firsts(frames)[k].transcript) && FirstShowing(frames, Firsts(frames)[k])
    ensures forall t :: Analysable(t) ==> (ShownIn(Firsts(frames), t) <==> ShownIn(frames, t))
  {
    FirstsDistinct(frames);
    FirstsAtFirstShowing(frames);
    FirstsCover(frames);
  }

  /** The analysed frames show exactly the analysable texts the frames show. */
  lemma {:induction false} FirstsCover(frames: seq<FrameRecord>)
    ensures forall t :: Analysable(t) ==> (ShownIn(Firsts(frames), t) <==> ShownIn(frames, t))
  {
    if frames != [] {
      var init := frames[..|frames| - 1];
      var f := frames[|frames| - 1];
      FirstsCover(init);
      assert frames == init + [f];
      ShownInSnoc(init, f);
      ShownInSnoc(Firsts(init), f);
    }
  }

  /** No two analysed frames show the same text. */
  lemma {:induction false} FirstsDistinct(frames: seq<FrameRecord>)
    ensures DistinctTexts(Firsts(frames))
  {
    if frames != [] {
      var init := frames[..|frames| - 1];
      var f := frames[|frames| - 1];
      FirstsDistinct(init);
      FirstsCover(init);
      var p := Firsts(init);
      if Analysable(f.transcript) && !ShownIn(init, f.transcript) {
        var q := p + [f];
        forall a, b | 0 <= a < b < |q| ensures q[a].transcript != q[b].transcript {
          assert q[a] == p[a];
          if b == |p| {
            assert q[b] == f;
            assert ShownIn(p, p[a].transcript);
          } else {
            assert q[b] == p[b];
          }
        }
      }
    }
  }

  /** Each analysed frame has an analysable text and is the first frame
      showing it. */
  lemma {:induction false} FirstsAtFirstShowing(frames: seq<FrameRecord>)
    ensures forall k :: 0 <= k < |Firsts(frames)| ==>
      Analysable(Firsts(frames)[k].transcript) && FirstShowing(frames, Firsts(frames)[k])
  {
    if frames != [] {
      var init := frames[..|frames| - 1];
      var f := frames[|frames| - 1];
      FirstsAtFirstShowing(init);
      var p := Firsts(init);
      forall k | 0 <= k < |p| ensures FirstShowing(frames, p[k]) {
        var i :| 0 <= i < |init| && init[i] == p[k] && !ShownIn(init[..i], p[k].transcript);
        assert frames[..i] == init[..i];
        assert frames[i] == p[k];
      }
      if Analysable(f.transcript) && !ShownIn(init, f.transcript) {
        var q := p + [f];
        assert frames[..|frames| - 1] == init;
        forall k | 0 <= k < |q| ensures Analysable(q[k].transcript) && FirstShowing(frames, q[k]) {
          if k < |p| {
            assert q[k] == p[k];
          } else {
            assert q[k] == f;
          }
        }
      }
    }
  }

  // ---------------------------------------------------------------------------
  // What the analysis reports

  /** Some detection in `ds` is about `text`. */
  predicate Mentions(ds: seq<Detected>, text: string) {
    exists j :: 0 <= j < |ds| && ds[j].text == text
  }

  /** Some entry of the table matches the lower-cased text. */
  predicate CueMatches(text: string, table: seq<Cue>) {
    exists j :: 0 <= j < |table| && Search(Text.Lower(text), table[j].alternatives).Some?
  }

  /** No two detections in `ds` are about the same text. */
  predicate OncePerText(ds: seq<Detected>) {
    forall a, b :: 0 <= a < b < |ds| ==> ds[a].text != ds[b].text
  }

  /** Each detection comes from a frame of `kept` with that text, carrying
      that frame's time and speaker. */
  predicate FromFrames(ds: seq<Detected>, kept: seq<FrameRecord>, c: Category) {
    forall j :: 0 <= j < |ds| ==> ds[j].category == c && exists k :: 0 <= k < |kept| && Carries(ds[j], kept[k])
  }

  /** `d` is about `f`'s text, at `f`'s time, from `f`'s speaker. */
  predicate Carries(d: Detected, f: FrameRecord) {
    d.text == f.transcript && d.seconds == f.seconds && d.speakerId == f.speakerId && d.speakerName == f.speakerName
  }

  lemma DetectFacts(f: FrameRecord, c: Category)
    ensures |Detect(f, c)| <= 1
    ensures Detect(f, c) != [] <==> CueMatches(f.transcript, Table(c))
    ensures Detect(f, c) != [] ==> Detect(f, c)[0].category == c && Carries(Detect(f, c)[0], f)
  {
  }

  /** Over a list of frames, a category's detections are one per matching
      frame: about the frames' texts, with their times and speakers, and
      never two about one text when the frames' texts are distinct. */
  lemma {:induction false} CollectSpec(kept: seq<FrameRecord>, c: Category)
    ensures |Of(Collect(kept), c)| <= |kept|
    ensures FromFrames(Of(Collect(kept), c), kept, c)
    ensures forall t :: Mentions(Of(Collect(kept), c), t) <==> ShownIn(kept, t) && CueMatches(t, Table(c))
    ensures DistinctTexts(kept) ==> OncePerText(Of(Collect(kept), c))
  {
    if kept != [] {
      var init := kept[..|kept| - 1];
      var f := kept[|kept| - 1];
      assert kept == init + [f];
      CollectSpec(init, c);
      DetectFacts(f, c);
      ShownInSnoc(init, f);
      var ds: seq<Detected> := Of(Collect(init), c);
      var more: seq<Detected> := Detect(f, c);
      assert Of(Collect(kept), c) == ds + more;
      FromFramesSnoc(ds, more, init, f, c);
      MentionsSnoc(ds, more);
      if DistinctTexts(kept) {
        DistinctSnoc(init, f);
        OnceSnoc(ds, more, init, f, c);
      }
    }
  }

  lemma FromFramesSnoc(ds: seq<Detected>, more: seq<Detected>, init: seq<FrameRecord>, f: FrameRecord, c: Category)
    requires FromFrames(ds, init, c)
    requires |more| <= 1 && (more != [] ==> more[0].category == c && Carries(more[0], f))
    ensures FromFrames(ds + more, init + [f], c)
  {
    var kept := init + [f];
    forall j | 0 <= j < |ds + more| ensures (ds + more)[j].category == c && exists k :: 0 <= k < |kept| && Carries((ds + more)[j], kept[k]) {
      if j < |ds| {
        var k :| 0 <= k < |init| && Carries(ds[j], init[k]);
        assert kept[k] == init[k];
      } else {
        assert kept[|init|] == f;
      }
    }
  }

  lemma MentionsSnoc(ds: seq<Detected>, more: seq<Detected>)
    requires |more| <= 1
    ensures forall t :: Mentions(ds + more, t) <==> Mentions(ds, t) || (more != [] && more[0].text == t)
  {
    forall t ensures Mentions(ds + more, t) <==> Mentions(ds, t) || (more != [] && more[0].text == t) {
      if Mentions(ds, t) {
        var j :| 0 <= j < |ds| && ds[j].text == t;
        assert (ds + more)[j].text == t;
      }
      if more != [] && more[0].text == t {
        assert (ds + more)[|ds|].text == t;
      }
    }
  }

  lemma DistinctSnoc(init: seq<FrameRecord>, f: FrameRecord)
    requires DistinctTexts(init + [f])
    ensures DistinctTexts(init) && !ShownIn(init, f.transcript)
  {
    var kept := init + [f];
    forall a, b | 0 <= a < b < |init| ensures init[a].transcript != init[b].transcript {
      assert kept[a] == init[a] && kept[b] == init[b];
    }
    forall j | 0 <= j < |init| ensures init[j].transcript != f.transcript {
      assert kept[j] == init[j] && kept[|init|] == f;
    }
  }

  lemma OnceSnoc(ds: seq<Detected>, more: seq<Detected>, init: seq<FrameRecord>, f: FrameRecord, c: Category)
    requires OncePerText(ds) && FromFrames(ds, init, c) && !ShownIn(init, f.transcript)
    requires |more| <= 1 && (more != [] ==> Carries(more[0], f))
    ensures OncePerText(ds + more)
  {
    forall a, b | 0 <= a < b < |ds + more| ensures (ds + more)[a].text != (ds + more)[b].text {
      if b >= |ds| {
        var k :| 0 <= k < |init| && Carries(ds[a], init[k]);
      }
    }
  }

  /** `analyze_transcript` reports a cue of a category for a text exactly when
      some frame shows that text, the text is analysable, and some entry of
      the category's table matches it; it reports it once, with the time and
      speaker of the first frame that shows the text. */
  lemma AnalyzeReports(frames: seq<FrameRecord>, c: Category)
    ensures var ds := Of(Collect(Firsts(frames)), c);
      && (forall t :: Mentions(ds, t) <==> Analysable(t) && ShownIn(frames, t) && CueMatches(t, Table(c)))
      && OncePerText(ds)
      && forall j :: 0 <= j < |ds| ==> FirstCarried(frames, ds[j])
  {
    var kept := Firsts(frames);
    FirstsSpec(frames);
    CollectSpec(kept, c);
    var ds := Of(Collect(kept), c);
    KeptAnalysable(kept);
    forall j | 0 <= j < |ds| ensures FirstCarried(frames, ds[j]) {
      var k :| 0 <= k < |kept| && Carries(ds[j], kept[k]);
      assert FirstShowing(frames, kept[k]);
    }
  }

  /** `d` carries the first frame of `frames` that shows its text. */
  predicate FirstCarried(frames: seq<FrameRecord>, d: Detected) {
    exists i :: 0 <= i < |frames| && Carries(d, frames[i]) && !ShownIn(frames[..i], d.text)
  }

  lemma KeptAnalysable(kept: seq<FrameRecord>)
    requires forall k :: 0 <= k < |kept| ==> Analysable(kept[k].transcript)
    ensures forall t :: ShownIn(kept, t) ==> Analysable(t)
  {
  }

  // ---------------------------------------------------------------------------
  // Questions

  /** Some question in `qs` is the text `t`. */
  predicate Asks(qs: seq<Question>, t: string) {
    exists j :: 0 <= j < |qs| && qs[j].text == t
  }

  /** Each question carries its text's classification. */
  predicate Classified(qs: seq<Question>) {
    forall j :: 0 <= j < |qs| ==> Labelled(qs[j])
  }

  /** The question's type is what the classifier says of its text. */
  predicate Labelled(q: Question) {
    ClassifyQuestion(q.text) == Some(q.questionType)
  }

  /** Over a list of frames, the questions are the frames' texts that hold a
      question mark, each with its classification. */
  lemma {:induction false} CollectQuestions(kept: seq<FrameRecord>)
    ensures |Collect(kept).questions| <= |kept|
    ensures Classified(Collect(kept).questions)
    ensures forall t :: Asks(Collect(kept).questions, t) <==> ShownIn(kept, t) && '?' in t
  {
    if kept != [] {
      var init := kept[..|kept| - 1];
      var f := kept[|kept| - 1];
      assert kept == init + [f];
      CollectQuestions(init);
      ShownInSnoc(init, f);
      var qs := Collect(init).questions;
      var more := QuestionsOf(f);
      assert Collect(kept).questions == qs + more;
      QuestionsOfFacts(f);
      Seqs.AllConcat(Labelled, qs, more);
      AsksSnoc(qs, more, f);
    }
  }

  lemma QuestionsOfFacts(f: FrameRecord)
    ensures |QuestionsOf(f)| <= 1
    ensures QuestionsOf(f) != [] <==> '?' in f.transcript
    ensures Classified(QuestionsOf(f))
    ensures QuestionsOf(f) != [] ==> QuestionsOf(f)[0].text == f.transcript
  {
  }

  lemma AsksSnoc(qs: seq<Question>, more: seq<Question>, f: FrameRecord)
    requires |more| <= 1 && (more != [] <==> '?' in f.transcript)
    requires more != [] ==> more[0].text == f.transcript
    ensures forall t :: Asks(qs + more, t) <==> Asks(qs, t) || (f.transcript == t && '?' in t)
  {
    forall t ensures Asks(qs + more, t) <==> Asks(qs, t) || (f.transcript == t && '?' in t) {
      if Asks(qs, t) {
        var j :| 0 <= j < |qs| && qs[j].text == t;
        assert (qs + more)[j].text == t;
      }
      if f.transcript == t && '?' in t {
        assert (qs + more)[|qs|].text == t;
      }
    }
  }

  /** `analyze_transcript` lists a question for a text exactly when some frame
      shows that text, it is analysable, and it holds a question mark; each
      listed question carries its text's classification. */
  lemma AnalyzeQuestions(frames: seq<FrameRecord>)
    ensures var qs := Collect(Firsts(frames)).questions;
      && Classified(qs)
      && forall t :: Asks(qs, t) <==> Analysable(t) && ShownIn(frames, t) && '?' in t
  {
    var kept := Firsts(frames);
    FirstsSpec(frames);
    CollectQuestions(kept);
    KeptAnalysable(kept);
  }
}

=== FILE: cue_timing.dfy ===
/** The timing line `start --> end` that both caption formats share, as a
    captioning tool writes it with `HH:MM:SS` stamps, and the facts the two
    readers need to read it back. */
module CueTiming {
  import opened Wrappers
  import opened Text
  import opened LineSyntax
  import opened Timestamps
  import opened Speakers

  /** Eight characters of the class `[\d:,.]`, opening and closing with a digit
      and with a clock `\d{2}:\d{2}` at the front. */
  predicate StampToken(s: string) {
    && |s| == 8
    && (forall j :: 0 <= j < 8 ==> IsStampChar(s[j]))
    && IsDigit(s[0]) && IsDigit(s[1]) && s[2] == ':' && IsDigit(s[3]) && IsDigit(s[4])
    && IsDigit(s[7])
  }

  /** A rendered time below 100 hours is such a token. */
  lemma RenderedStamp(ms: int)
    requires 0 <= ms < 100 * MsPerHour
    ensures StampToken(SecondsToTimestamp(ms))
  {
    var s := SecondsToTimestamp(ms);
    assert forall j :: 0 <= j < 2 ==> s[j] == s[0..2][j];
    assert forall j :: 3 <= j < 5 ==> s[j] == s[3..5][j - 3];
    assert forall j :: 6 <= j < 8 ==> s[j] == s[6..8][j - 6];
  }

  /** Twenty-one characters: a stamp token, ` --> `, a stamp token. */
  predicate ArrowShape(t: string) {
    && |t| == 21
    && (forall j :: 0 <= j < 8 ==> IsStampChar(t[j]))
    && (forall j :: 13 <= j < 21 ==> IsStampChar(t[j]))
    && t[8] == ' ' && t[9] == '-' && t[10] == '-' && t[11] == '>' && t[12] == ' '
    && IsDigit(t[0]) && IsDigit(t[20])
  }

  lemma ShapeOfStamps(t: string, a: string, b: string)
    requires StampToken(a) && StampToken(b)
    requires t == a + " --> " + b
    ensures ArrowShape(t) && t[..8] == a && t[13..] == b
  {
    assert forall j :: 0 <= j < 8 ==> t[j] == a[j];
    assert forall j :: 13 <= j < 21 ==> t[j] == b[j - 13];
  }

  lemma ArrowOfShape(t: string)
    requires ArrowShape(t)
    ensures Arrow(t) == Some((t[..8], t[13..]))
  {
    StampRunExact(t, 0, 8);
    SpaceRunExact(t, 8, 1);
    SpaceRunExact(t, 12, 1);
    StampRunExact(t, 13, 8);
    assert t[9..12] == "-->";
    assert t[13..13 + 8] == t[13..];
  }

  lemma BareShape(t: string)
    requires ArrowShape(t)
    ensures Strip(t) == t && '\n' !in t
  {
    StripUnchanged(t);
    assert forall j :: 0 <= j < |t| ==> t[j] != '\n' by {
      forall j | 0 <= j < |t| ensures t[j] != '\n' {
        if j < 8 || j >= 13 { assert IsStampChar(t[j]); }
      }
    }
  }

  /** `a --> b` for two stamp tokens: the arrow pattern finds both, and the
      line has no whitespace at either end and no newline. */
  lemma ArrowOfStamps(t: string, a: string, b: string)
    requires StampToken(a) && StampToken(b)
    requires t == a + " --> " + b
    ensures Strip(t) == t && '\n' !in t
    ensures Arrow(t) == Some((a, b))
  {
    ShapeOfStamps(t, a, b);
    ArrowOfShape(t);
    BareShape(t);
  }

  /** The timing line of a cue running from `start` to `end` whole seconds. */
  function TimingLine(start: nat, end: nat): string {
    SecondsToTimestamp(start * MsPerSecond) + " --> " + SecondsToTimestamp(end * MsPerSecond)
  }

  /** Reading a timing line back gives the two times, in milliseconds. */
  lemma TimingLineRoundTrip(start: nat, end: nat)
    requires start < 360000 && end < 360000
    ensures Strip(TimingLine(start, end)) == TimingLine(start, end)
    ensures '\n' !in TimingLine(start, end)
    ensures StampToken(TimingLine(start, end)[..8])
    ensures Arrow(TimingLine(start, end)).Some?
    ensures ParseTimestamp(Arrow(TimingLine(start, end)).value.0) == start * MsPerSecond
    ensures ParseTimestamp(Arrow(TimingLine(start, end)).value.1) == end * MsPerSecond
  {
    var a := SecondsToTimestamp(start * MsPerSecond);
    var b := SecondsToTimestamp(end * MsPerSecond);
    RenderedStamp(start * MsPerSecond);
    RenderedStamp(end * MsPerSecond);
    ArrowOfStamps(TimingLine(start, end), a, b);
    assert TimingLine(start, end)[..8] == a;
    RoundTripSeconds(start);
    RoundTripSeconds(end);
  }

  // ---------------------------------------------------------------------------
  // Cues as a captioning tool writes them

  /** A cue as a captioning tool writes it: whole-second times, a speaker and
      one line of text. */
  datatype Cue = Cue(start: nat, end: nat, name: string, text: string)

  /** Non-empty, without a newline and without whitespace at either end. */
  predicate Bare(s: string) {
    s != [] && !IsSpace(s[0]) && !IsSpace(s[|s| - 1]) && '\n' !in s
  }

  /** What reading rendered cues must give: each cue's times in milliseconds,
      its text and its speaker. */
  function Expected(cues: seq<Cue>): seq<RawSegment>
    decreases |cues|
  {
    if cues == [] then []
    else
      [RawSegment(cues[0].start * MsPerSecond, cues[0].end * MsPerSecond, cues[0].text, Some(cues[0].name))]
      + Expected(cues[1..])
  }

  /** The segment one cue must read back as. */
  function CueSegment(c: Cue): RawSegment {
    RawSegment(c.start * MsPerSecond, c.end * MsPerSecond, c.text, Some(c.name))
  }

  lemma {:induction false} ExpectedAt(cues: seq<Cue>, k: nat)
    requires k < |cues|
    ensures |Expected(cues)| == |cues|
    ensures Expected(cues)[k] == CueSegment(cues[k])
    decreases |cues|
  {
    if k > 0 {
      ExpectedAt(cues[1..], k - 1);
      assert cues[1..][k - 1] == cues[k];
    } else {
      ExpectedLength(cues);
    }
  }

  lemma {:induction false} ExpectedLength(cues: seq<Cue>)
    ensures |Expected(cues)| == |cues|
    decreases |cues|
  {
    if cues != [] {
      ExpectedLength(cues[1..]);
    }
  }
}

=== FILE: cues.dfy ===
/** The phrase tables of the call analyzer and `detect_patterns`.

    Every cue pattern has the shape `\b(a|b|...)\b` over literal
    alternatives, so a regex search reduces to: the leftmost position where
    some alternative sits between two word boundaries, taking at that
    position the first alternative, in table order, that fits. */
module Cues {
  import opened Wrappers
  import opened Text
  import Timestamps

  /** A table entry's tier. */
  datatype Confidence = High | Medium | Low

  /** The four kinds of cue the analyzer looks for. */
  datatype Category = PainPoint | Objection | BuyingSignal | ActionItem

  /** One table entry: the alternatives of its pattern and its tier. */
  datatype Cue = Cue(alternatives: seq<string>, tier: Confidence)

  /** `PAIN_POINT_PATTERNS`. */
  const PainPointCues: seq<Cue> := [
    Cue(["our biggest challenge", "our main challenge", "biggest problem"], High),
    Cue(["we struggle with", "we're struggling with", "struggling to"], High),
    Cue(["pain point", "frustrating", "frustration"], High),
    Cue(["taking too long", "takes too long", "too slow"], Medium),
    Cue(["difficult to", "hard to", "challenging to"], Medium),
    Cue(["can't", "cannot", "unable to"], Medium),
    Cue(["wasting time", "waste of time", "time consuming"], Medium),
    Cue(["inefficient", "inefficiency", "bottleneck"], Medium),
    Cue(["problem is", "issue is", "challenge is"], Medium),
    Cue(["keeps breaking", "breaks often", "unreliable"], Medium),
    Cue(["manual process", "manually", "by hand"], Low),
    Cue(["outdated", "legacy", "old system"], Low),
    Cue(["workaround", "hack", "band-aid"], Low)
  ]

  /** `OBJECTION_PATTERNS`. */
  const ObjectionCues: seq<Cue> := [
    Cue(["we've tried", "we tried", "tried before"], High),
    Cue(["budget", "too expensive", "cost too much", "can't afford"], High),
    Cue(["not sure if", "not convinced", "skeptical"], High),
    Cue(["need to think", "think about it", "consider it"], High),
    Cue(["talk to my", "check with my", "run it by"], High),
    Cue(["already have", "currently using", "existing solution"], Medium),
    Cue(["too complex", "too complicated", "learning curve"], Medium),
    Cue(["don't have time", "no bandwidth", "too busy"], Medium),
    Cue(["not a priority", "lower priority", "back burner"], Medium),
    Cue(["contract", "locked in", "commitment"], Medium),
    Cue(["security concerns", "compliance", "regulations"], Medium),
    Cue(["integration", "doesn't integrate", "compatibility"], Low),
    Cue(["not now", "maybe later", "down the road"], Low)
  ]

  /** `BUYING_SIGNAL_PATTERNS`. */
  const BuyingSignalCues: seq<Cue> := [
    Cue(["what's the next step", "next steps", "how do we proceed"], High),
    Cue(["how quickly", "how soon", "when can we", "timeline"], High),
    Cue(["what's the pricing", "how much", "cost", "investment"], High),
    Cue(["can you send", "send me", "share with me"], High),
    Cue(["implementation", "onboarding", "getting started"], High),
    Cue(["pilot", "trial", "proof of concept", "poc"], High),
    Cue(["decision maker", "who else", "stakeholder"], Medium),
    Cue(["exactly what we need", "perfect for", "solves our"], Medium),
    Cue(["impressive", "love that", "like that", "that's great"], Medium),
    Cue(["compared to", "versus", "vs", "better than"], Medium),
    Cue(["case study", "reference", "customer example"], Medium),
    Cue(["tell me more", "elaborate", "explain"], Low),
    Cue(["interesting", "intriguing", "curious"], Low)
  ]

  /** `ACTION_ITEM_PATTERNS`. */
  const ActionItemCues: seq<Cue> := [
    Cue(["i'll send", "i will send", "let me send"], High),
    Cue(["let's schedule", "schedule a", "set up a"], High),
    Cue(["by friday", "by monday", "by end of", "by next week"], High),
    Cue(["follow up", "following up", "reach out"], High),
    Cue(["action item", "to-do", "task"], High),
    Cue(["i'll check", "let me check", "look into"], Medium),
    Cue(["get back to you", "circle back", "touch base"], Medium),
    Cue(["put together", "prepare", "draft"], Medium),
    Cue(["introduce you to", "connect you with", "loop in"], Medium),
    Cue(["share with the team", "discuss internally", "talk to"], Low)
  ]

  /** The table the analyzer searches for each category. */
  function Table(c: Category): seq<Cue> {
    match c
    case PainPoint => PainPointCues
    case Objection => ObjectionCues
    case BuyingSignal => BuyingSignalCues
    case ActionItem => ActionItemCues
  }

  /** `\b` between positions `p - 1` and `p`: a word character on exactly one side. */
  predicate Boundary(s: string, p: int)
    requires 0 <= p <= |s|
  {
    (p > 0 && IsWordChar(s[p - 1])) != (p < |s| && IsWordChar(s[p]))
  }

  /** The literal `a` occurs at `p` with a word boundary on both sides. */
  predicate WordAt(s: string, a: string, p: int)
  {
    0 <= p && p + |a| <= |s| && s[p..p + |a|] == a && Boundary(s, p) && Boundary(s, p + |a|)
  }

  /** The alternative the regex engine settles on at `p`: the first one, at
      index `k` or later, that fits there. */
  function FirstAltFrom(s: string, alts: seq<string>, p: int, k: nat): (r: Option<nat>)
    requires k <= |alts|
    ensures r.Some? ==> k <= r.value < |alts| && WordAt(s, alts[r.value], p)
    ensures r.Some? ==> forall j :: k <= j < r.value ==> !WordAt(s, alts[j], p)
    ensures r.None? ==> forall j :: k <= j < |alts| ==> !WordAt(s, alts[j], p)
    decreases |alts| - k
  {
    if k == |alts| then None
    else if WordAt(s, alts[k], p) then Some(k)
    else FirstAltFrom(s, alts, p, k + 1)
  }

  /** Where `re.search` matches `\b(alts)\b` in `s`: a position and the index
      of the alternative taken there. */
  datatype Hit = Hit(at: nat, alt: nat)

  /** The scan of `re.search` from position `p` on: the first position with
      an alternative that fits, and that alternative. */
  function SearchFrom(s: string, alts: seq<string>, p: nat): (r: Option<Hit>)
    requires p <= |s|
    ensures r.Some? ==> p <= r.value.at <= |s| && FirstAltFrom(s, alts, r.value.at, 0) == Some(r.value.alt)
    decreases |s| - p
  {
    match FirstAltFrom(s, alts, p, 0)
    case Some(k) => Some(Hit(p, k))
    case None => if p == |s| then None else SearchFrom(s, alts, p + 1)
  }

  /** No alternative fits anywhere in `[from, to)`. */
  predicate NoneFits(s: string, alts: seq<string>, from: int, to: int) {
    forall q, j :: from <= q < to && 0 <= j < |alts| ==> !WordAt(s, alts[j], q)
  }

  /** The scan from `p` skips only positions where nothing fits, and finds
      nothing only when nothing fits from `p` to the end. */
  lemma {:induction false} SearchFromSpec(s: string, alts: seq<string>, p: nat)
    requires p <= |s|
    ensures SearchFrom(s, alts, p).Some? ==> NoneFits(s, alts, p, SearchFrom(s, alts, p).value.at)
    ensures SearchFrom(s, alts, p).None? ==> NoneFits(s, alts, p, |s| + 1)
    decreases |s| - p
  {
    if FirstAltFrom(s, alts, p, 0).None? && p < |s| {
      SearchFromSpec(s, alts, p + 1);
    }
  }

  /** `re.search(r'\b(a|b|...)\b', s)`. */
  function Search(s: string, alts: seq<string>): Option<Hit> {
    SearchFrom(s, alts, 0)
  }

  /** The search finds something exactly when some alternative occurs
      somewhere as a whole word; what it finds is the leftmost such
      occurrence, and at that position the earliest alternative that fits. */
  lemma SearchSpec(s: string, alts: seq<string>)
    ensures Search(s, alts).Some? <==> exists q, j :: 0 <= q <= |s| && 0 <= j < |alts| && WordAt(s, alts[j], q)
    ensures Search(s, alts).Some? ==>
      var h := Search(s, alts).value;
      && WordAt(s, alts[h.alt], h.at)
      && (forall q, j :: 0 <= q < h.at && 0 <= j < |alts| ==> !WordAt(s, alts[j], q))
      && (forall j :: 0 <= j < h.alt ==> !WordAt(s, alts[j], h.at))
  {
    SearchFromSpec(s, alts, 0);
  }

  /** The phrase a hit matched: `match.group(0)`. */
  function Phrase(s: string, alts: seq<string>, h: Hit): (r: string)
    requires h.alt < |alts| && WordAt(s, alts[h.alt], h.at)
    ensures r == alts[h.alt] && r == s[h.at..h.at + |r|]
  {
    alts[h.alt]
  }

  /** The index of the first entry, at `k` or later, whose pattern occurs. */
  function FirstCueFrom(s: string, table: seq<Cue>, k: nat): (r: Option<nat>)
    requires k <= |table|
    ensures r.Some? ==> k <= r.value < |table| && Search(s, table[r.value].alternatives).Some?
    ensures r.Some? ==> forall j :: k <= j < r.value ==> Search(s, table[j].alternatives).None?
    ensures r.None? ==> forall j :: k <= j < |table| ==> Search(s, table[j].alternatives).None?
    decreases |table| - k
  {
    if k == |table| then None
    else if Search(s, table[k].alternatives).Some? then Some(k)
    else FirstCueFrom(s, table, k + 1)
  }

  /** One `DetectedPattern`. */
  datatype Detected = Detected(
    category: Category,
    text: string,
    seconds: real,
    timestamp: string,
    speakerId: Option<string>,
    speakerName: Option<string>,
    confidence: Confidence,
    matchedPhrase: string)

  /** The call analyzer's `seconds_to_timestamp`: the fields come from the
      whole seconds, so it agrees with the transcript side's rendering of
      the floored time. */
  function Clock(seconds: real): string {
    Timestamps.SecondsToTimestamp(seconds.Floor * Timestamps.MsPerSecond)
  }

  /** `detect_patterns`: searches the lower-cased text against the table in
      order and reports the first entry that matches, once. */
  function DetectPatterns(text: string, table: seq<Cue>, category: Category, seconds: real,
                          speakerId: Option<string>, speakerName: Option<string>): (r: seq<Detected>)
    ensures |r| <= 1
    ensures r == [] <==> forall j :: 0 <= j < |table| ==> Search(Lower(text), table[j].alternatives).None?
    ensures r != [] ==>
      && r[0].category == category && r[0].text == text && r[0].seconds == seconds
      && r[0].speakerId == speakerId && r[0].speakerName == speakerName
  {
    var s := Lower(text);
    match FirstCueFrom(s, table, 0)
    case None => []
    case Some(k) =>
      var h := Search(s, table[k].alternatives).value;
      [Detected(category, text, seconds, Clock(seconds), speakerId, speakerName,
                table[k].tier, Phrase(s, table[k].alternatives, h))]
  }

  /** A detection names the first entry of the table that matches: its tier,
      and one of its phrases, which occurs in the lower-cased text as a whole
      word at the leftmost place any of that entry's phrases does. */
  lemma DetectPatternsSpec(text: string, table: seq<Cue>, category: Category, seconds: real,
                           speakerId: Option<string>, speakerName: Option<string>)
    ensures var r := DetectPatterns(text, table, category, seconds, speakerId, speakerName);
      r != [] ==> exists k :: 0 <= k < |table| && FirstMatch(Lower(text), table, k) && Reports(Lower(text), table[k], r[0])
  {
    var r := DetectPatterns(text, table, category, seconds, speakerId, speakerName);
    var s := Lower(text);
    if r != [] {
      var k := FirstCueFrom(s, table, 0).value;
      assert FirstMatch(s, table, k);
      SearchSpec(s, table[k].alternatives);
      assert Reports(s, table[k], r[0]);
    }
  }

  /** Entry `k` is the first of the table whose pattern occurs in `s`. */
  predicate FirstMatch(s: string, table: seq<Cue>, k: int)
    requires 0 <= k < |table|
  {
    Search(s, table[k].alternatives).Some?
    && forall j :: 0 <= j < k ==> Search(s, table[j].alternatives).None?
  }

  /** `d` reports what the search for `cue` finds in `s`. */
  predicate Reports(s: string, cue: Cue, d: Detected) {
    d.confidence == cue.tier
    && d.matchedPhrase in cue.alternatives
    && exists p :: 0 <= p <= |s| && WordAt(s, d.matchedPhrase, p)
         && forall q, j :: 0 <= q < p && 0 <= j < |cue.alternatives| ==> !WordAt(s, cue.alternatives[j], q)
  }

  /** The search respects word boundaries: "cost" does not fire inside
      "costume", nor "hack" inside "hackathon". */
  lemma NoMatchInsideWords()
    ensures Search("costume", ["cost"]).None?
    ensures Search("hackathon", ["hack"]).None?
  {
  }
}

=== FILE: dispatch.dfy ===
/** `parse_transcript` without the file read: the reader is chosen by the file
    extension, and for any other extension by sniffing the content. */
module Dispatch {
  import opened Wrappers
  import opened Text
  import opened LineSyntax
  import opened Timestamps
  import opened Speakers
  import opened CueTiming
  import Vtt
  import Srt
  import PlainText
  import opened Seqs

  datatype Format = VttFormat | SrtFormat | PlainFormat

  /** The class `[\d:,]` of an SRT timing token. */
  predicate IsClockChar(c: char) {
    IsDigit(c) || c == ':' || c == ','
  }

  /** Length of the maximal run of digits starting at `i`. */
  function DigitRun(s: string, i: nat): (n: nat)
    ensures i + n <= |s| || (i >= |s| && n == 0)
    ensures forall j :: i <= j < i + n ==> IsDigit(s[j])
    ensures i + n < |s| ==> !IsDigit(s[i + n])
    decreases |s| - i
  {
    if i < |s| && IsDigit(s[i]) then 1 + DigitRun(s, i + 1) else 0
  }

  /** Length of the maximal run of `[\d:,]` starting at `i`. */
  function ClockRun(s: string, i: nat): (n: nat)
    ensures i + n <= |s| || (i >= |s| && n == 0)
    ensures forall j :: i <= j < i + n ==> IsClockChar(s[j])
    ensures i + n < |s| ==> !IsClockChar(s[i + n])
    decreases |s| - i
  {
    if i < |s| && IsClockChar(s[i]) then 1 + ClockRun(s, i + 1) else 0
  }

  /** `\d+\s*\n[\d:,]+\s*-->` at `i`. Every run is maximal: what follows each
      cannot be taken by the next part of the pattern. The newline must close
      the whitespace run after the number, since a timing token follows it
      directly. */
  predicate SrtSniffAt(s: string, i: nat) {
    var d := DigitRun(s, i);
    var w := SpaceRun(s, i + d);
    var j := i + d + w;
    var c := ClockRun(s, j);
    var k := j + c + SpaceRun(s, j + c);
    d > 0 && w > 0 && s[j - 1] == '\n' && c > 0 && k + 3 <= |s| && s[k..k + 3] == "-->"
  }

  /** `^` under `re.MULTILINE`: the start, or just after a newline. */
  predicate LineStart(s: string, i: nat) {
    i == 0 || (i <= |s| && s[i - 1] == '\n')
  }

  /** `re.search(r'^\d+\s*\n[\d:,]+\s*-->', content, re.MULTILINE)`. */
  predicate SrtSniff(s: string) {
    exists i :: 0 <= i < |s| && LineStart(s, i) && SrtSniffAt(s, i)
  }

  /** The reader for a transcript: `.vtt` and `.srt` (in any letter case)
      decide by themselves; otherwise a `WEBVTT` opening means WebVTT, an SRT
      cue head at the start of any line means SRT, and anything else is plain
      text. */
  function DetectFormat(content: string, ext: string): Format {
    var e := Lower(ext);
    if e == ".vtt" then VttFormat
    else if e == ".srt" then SrtFormat
    else if StartsWith(Strip(content), "WEBVTT") then VttFormat
    else if SrtSniff(content) then SrtFormat
    else PlainFormat
  }

  /** `parse_transcript`, given the content and the file's extension. */
  function ParseTranscript(content: string, ext: string): seq<Segment> {
    match DetectFormat(content, ext)
    case VttFormat => Vtt.ParseVtt(content)
    case SrtFormat => Srt.ParseSrt(content)
    case PlainFormat => PlainText.ParsePlainText(content)
  }

  /** The extension decides alone when it names a caption format: the content
      is not looked at. */
  lemma ExtensionDecides(content: string, other: string, ext: string)
    requires Lower(ext) == ".vtt" || Lower(ext) == ".srt"
    ensures DetectFormat(content, ext) == DetectFormat(other, ext)
    ensures DetectFormat(content, ext) == (if Lower(ext) == ".vtt" then VttFormat else SrtFormat)
  {
  }

  /** With any other extension, the `WEBVTT` opening is looked at before the
      SRT sniff, and plain text is what is left. */
  lemma ContentDecides(content: string, ext: string)
    requires Lower(ext) != ".vtt" && Lower(ext) != ".srt"
    ensures DetectFormat(content, ext) == VttFormat <==> StartsWith(Strip(content), "WEBVTT")
    ensures DetectFormat(content, ext) == SrtFormat <==> !StartsWith(Strip(content), "WEBVTT") && SrtSniff(content)
    ensures DetectFormat(content, ext) == PlainFormat <==> !StartsWith(Strip(content), "WEBVTT") && !SrtSniff(content)
  {
  }

  // ---------------------------------------------------------------------------
  // Each writer's documents are recognised

  lemma DigitRunExact(s: string, i: nat, n: nat)
    requires i + n <= |s|
    requires forall j :: i <= j < i + n ==> IsDigit(s[j])
    requires i + n == |s| || !IsDigit(s[i + n])
    ensures DigitRun(s, i) == n
    decreases n
  {
    if n > 0 {
      DigitRunExact(s, i + 1, n - 1);
    }
  }

  lemma ClockRunExact(s: string, i: nat, n: nat)
    requires i + n <= |s|
    requires forall j :: i <= j < i + n ==> IsClockChar(s[j])
    requires i + n == |s| || !IsClockChar(s[i + n])
    ensures ClockRun(s, i) == n
    decreases n
  {
    if n > 0 {
      ClockRunExact(s, i + 1, n - 1);
    }
  }

  /** A document opening with a one-digit number line and a timing line is
      sniffed as SRT at its start. */
  lemma SniffNumberThenTiming(s: string)
    requires |s| >= 14 && IsDigit(s[0]) && s[1] == '\n'
    requires forall j :: 2 <= j < 10 ==> IsClockChar(s[j])
    requires IsDigit(s[2]) && s[10] == ' ' && s[11..14] == "-->"
    ensures SrtSniffAt(s, 0)
  {
    DigitRunExact(s, 0, 1);
    SpaceRunExact(s, 1, 1);
    ClockRunExact(s, 2, 8);
    SpaceRunExact(s, 10, 1);
  }

  /** The first 23 characters of a rendered SRT document: `1`, a newline and
      the first cue's timing line. */
  lemma SrtRenderHead(cues: seq<Cue>)
    requires cues != [] && Srt.SrtCue(cues[0])
    ensures |Srt.Render(cues)| >= 23
    ensures Srt.Render(cues)[..23] == "1\n" + TimingLine(cues[0].start, cues[0].end)
  {
    var c := cues[0];
    var t := TimingLine(c.start, c.end);
    var blocks := Srt.RenderBlocks(cues, 1);
    var b := blocks[0];
    assert b == Srt.RenderBlock(1, c);
    assert NatToString(1) == "1";
    JoinThree("1", t, Srt.ColonLine(c), "\n");
    TimingLineLength(c.start, c.end);
    BlockHead(b, t, Srt.ColonLine(c));
    JoinPrefix(blocks, "\n\n");
    PrefixOfPrefix(Srt.Render(cues), b, 23);
  }

  lemma TimingLineLength(start: nat, end: nat)
    requires start < 360000 && end < 360000
    ensures |TimingLine(start, end)| == 21
  {
    RenderedStamp(start * MsPerSecond);
    RenderedStamp(end * MsPerSecond);
  }

  lemma BlockHead(b: string, t: string, v: string)
    requires |t| == 21 && b == "1" + "\n" + t + "\n" + v
    ensures |b| >= 23 && b[..23] == "1\n" + t
  {
  }

  lemma PrefixOfPrefix(s: string, b: string, n: nat)
    requires |s| >= |b| >= n && s[..|b|] == b
    ensures |s| >= n && s[..n] == b[..n]
  {
  }

  /** The first eight characters of a timing line are a clock opening with a
      digit, followed by ` -->`. */
  lemma TimingHead(start: nat, end: nat)
    requires start < 360000 && end < 360000
    ensures |TimingLine(start, end)| == 21
    ensures forall j :: 0 <= j < 8 ==> IsClockChar(TimingLine(start, end)[j])
    ensures IsDigit(TimingLine(start, end)[0])
    ensures TimingLine(start, end)[8] == ' ' && TimingLine(start, end)[9..12] == "-->"
  {
    var a := SecondsToTimestamp(start * MsPerSecond);
    TimingLineLength(start, end);
    RenderedHms(start * MsPerSecond);
    ClockOfHms(a);
    var t := TimingLine(start, end);
    assert forall j :: 0 <= j < 8 ==> t[j] == a[j];
  }

  lemma ClockOfHms(a: string)
    requires HmsShape(a, 2, false)
    ensures forall j :: 0 <= j < 8 ==> IsClockChar(a[j])
    ensures IsDigit(a[0])
  {
    assert forall j :: 0 <= j < 2 ==> a[j] == a[0..2][j];
    assert forall j :: 3 <= j < 5 ==> a[j] == a[3..5][j - 3];
    assert forall j :: 6 <= j < 8 ==> a[j] == a[6..8][j - 6];
  }

  lemma HeadChars(s: string, t: string)
    requires |s| >= 23 && |t| == 21 && s[..23] == "1\n" + t
    requires forall j :: 0 <= j < 8 ==> IsClockChar(t[j])
    requires IsDigit(t[0]) && t[8] == ' ' && t[9..12] == "-->"
    ensures |s| >= 14 && s[0] == '1' && s[1] == '\n'
    ensures forall j :: 2 <= j < 10 ==> IsClockChar(s[j])
    ensures IsDigit(s[2]) && s[10] == ' ' && s[11..14] == "-->"
  {
    assert forall j :: 2 <= j < 23 ==> s[j] == t[j - 2];
  }

  /** A document sniffed as SRT at its start, opening with a digit, is read
      as SRT unless the extension says WebVTT. */
  lemma DetectSniffed(s: string, ext: string)
    requires s != [] && IsDigit(s[0]) && SrtSniffAt(s, 0)
    requires Lower(ext) != ".vtt"
    ensures DetectFormat(s, ext) == SrtFormat
  {
    SniffedAtStart(s);
    DigitOpeningNotVtt(s);
  }

  lemma SniffedAtStart(s: string)
    requires s != [] && SrtSniffAt(s, 0)
    ensures SrtSniff(s)
  {
    assert LineStart(s, 0);
  }

  lemma DigitOpeningNotVtt(s: string)
    requires s != [] && IsDigit(s[0])
    ensures !StartsWith(Strip(s), "WEBVTT")
  {
    StripHead(s);
  }

  /** A rendered SRT document is read as SRT, whatever its extension, unless
      that extension says WebVTT. */
  lemma SrtRenderDetected(cues: seq<Cue>, ext: string)
    requires cues != [] && forall k :: 0 <= k < |cues| ==> Srt.SrtCue(cues[k])
    requires Lower(ext) != ".vtt"
    ensures DetectFormat(Srt.Render(cues), ext) == SrtFormat
    ensures ParseTranscript(Srt.Render(cues), ext) == Srt.ParseSrt(Srt.Render(cues))
  {
    SrtRenderHead(cues);
    SrtHeadDetected(Srt.Render(cues), cues[0].start, cues[0].end, ext);
  }

  /** A document opening with cue number 1 and a timing line is read as
      SRT. */
  lemma SrtHeadDetected(s: string, start: nat, end: nat, ext: string)
    requires start < 360000 && end < 360000
    requires |s| >= 23 && s[..23] == "1\n" + TimingLine(start, end)
    requires Lower(ext) != ".vtt"
    ensures DetectFormat(s, ext) == SrtFormat
    ensures ParseTranscript(s, ext) == Srt.ParseSrt(s)
  {
    TimingHead(start, end);
    HeadChars(s, TimingLine(start, end));
    SniffNumberThenTiming(s);
    DetectSniffed(s, ext);
  }

  /** A rendered WebVTT document is read as WebVTT unless the extension says
      SRT. */
  lemma VttRenderDetected(cues: seq<Cue>, ext: string)
    requires forall k :: 0 <= k < |cues| ==> Vtt.WellFormed(cues[k])
    requires Lower(ext) != ".srt"
    ensures DetectFormat(Vtt.Render(cues), ext) == VttFormat
    ensures ParseTranscript(Vtt.Render(cues), ext) == Vtt.ParseVtt(Vtt.Render(cues))
  {
    Vtt.RenderStripped(cues);
    WebVttOpening(Vtt.Render(cues), Vtt.CueBlocks(cues));
  }

  lemma WebVttOpening(s: string, rest: string)
    requires s == "WEBVTT" + rest
    ensures StartsWith(s, "WEBVTT")
  {
    assert s[..6] == "WEBVTT";
  }

  /** Lines that each open with a letter and hold no newline. */
  predicate LetterLines(ls: seq<string>) {
    forall k :: 0 <= k < |ls| ==> ls[k] != [] && '\n' !in ls[k] && IsAsciiLetter(ls[k][0])
  }

  /** In a newline join of such lines, every line start holds a letter. */
  lemma {:induction false} LineStartsHoldLetters(ls: seq<string>, s: string)
    requires ls != [] && LetterLines(ls) && s == Join(ls, "\n")
    ensures forall i :: 0 <= i < |s| && LineStart(s, i) ==> IsAsciiLetter(s[i])
    decreases |ls|
  {
    var a := ls[0];
    if |ls| == 1 {
      assert '\n' !in s;
    } else {
      var rest := Join(ls[1..], "\n");
      LineStartsHoldLetters(ls[1..], rest);
      JoinEnds(ls[1..], "\n");
      assert s == a + "\n" + rest;
      assert forall j :: 0 <= j < |a| ==> s[j] == a[j];
      forall i | 0 <= i < |s| && LineStart(s, i) ensures IsAsciiLetter(s[i]) {
        if i > |a| + 1 {
          assert s[i] == rest[i - |a| - 1] && s[i - 1] == rest[i - |a| - 2];
          assert LineStart(rest, i - |a| - 1);
        } else if i == |a| + 1 {
          assert s[i] == rest[0];
        }
      }
    }
  }

  /** No SRT cue head can start where every line opens with a letter. */
  lemma LetterStartsNotSniffed(s: string)
    requires forall i :: 0 <= i < |s| && LineStart(s, i) ==> IsAsciiLetter(s[i])
    ensures !SrtSniff(s)
  {
    forall i | 0 <= i < |s| && LineStart(s, i) ensures !SrtSniffAt(s, i) {
      assert !IsDigit(s[i]);
      assert DigitRun(s, i) == 0;
    }
  }

  /** A text that opens with a name and a space opens with `WEBVTT` only when
      the name does. */
  lemma NameOpeningNotVtt(s: string, name: string)
    requires |s| > |name| && s[..|name|] == name && s[|name|] == ' '
    requires !StartsWith(name, "WEBVTT")
    ensures !StartsWith(s, "WEBVTT")
  {
    if |name| >= 6 {
      assert s[..6] == name[..6];
    } else {
      assert s[|name|] != "WEBVTT"[|name|];
    }
  }

  /** The plain-text writer's lines open with the speaker's name. */
  lemma RenderedLetterLines(rs: seq<PlainText.Remark>)
    requires forall k :: 0 <= k < |rs| ==> PlainText.Writable(rs[k])
    ensures LetterLines(Map(PlainText.RemarkLine, rs))
  {
    var ls := Map(PlainText.RemarkLine, rs);
    forall k | 0 <= k < |ls| ensures ls[k] != [] && '\n' !in ls[k] && IsAsciiLetter(ls[k][0]) {
      PlainText.RemarkLineBare(rs[k]);
      assert ls[k][0] == rs[k].name[0];
    }
  }

  /** A document the plain-text writer produced is read as plain text, unless
      its extension names a caption format or its first speaker's name opens
      with `WEBVTT`. */
  lemma PlainRenderDetected(rs: seq<PlainText.Remark>, ext: string)
    requires forall k :: 0 <= k < |rs| ==> PlainText.Writable(rs[k])
    requires rs != [] ==> !StartsWith(rs[0].name, "WEBVTT")
    requires Lower(ext) != ".vtt" && Lower(ext) != ".srt"
    ensures DetectFormat(PlainText.RenderPlain(rs), ext) == PlainFormat
    ensures ParseTranscript(PlainText.RenderPlain(rs), ext) == PlainText.ParsePlainText(PlainText.RenderPlain(rs))
  {
    var s := PlainText.RenderPlain(rs);
    if rs == [] {
      assert s == [];
    } else {
      var ls := Map(PlainText.RemarkLine, rs);
      RenderedLetterLines(rs);
      LineStartsHoldLetters(ls, s);
      LetterStartsNotSniffed(s);
      PlainNotVtt(rs, ls, s);
    }
  }

  lemma PlainNotVtt(rs: seq<PlainText.Remark>, ls: seq<string>, s: string)
    requires rs != [] && forall k :: 0 <= k < |rs| ==> PlainText.Writable(rs[k])
    requires !StartsWith(rs[0].name, "WEBVTT")
    requires ls == Map(PlainText.RemarkLine, rs) && s == Join(ls, "\n")
    ensures !StartsWith(Strip(s), "WEBVTT")
  {
    RenderedStripped(rs, ls, s);
    JoinPrefix(ls, "\n");
    var r := rs[0];
    assert ls[0] == r.name + " [" + SecondsToTimestamp(r.start * MsPerSecond) + "]: " + r.text;
    assert s[..|r.name|] == ls[0][..|r.name|] == r.name;
    assert s[|r.name|] == ls[0][|r.name|] == ' ';
    NameOpeningNotVtt(s, r.name);
  }

  lemma RenderedStripped(rs: seq<PlainText.Remark>, ls: seq<string>, s: string)
    requires rs != [] && forall k :: 0 <= k < |rs| ==> PlainText.Writable(rs[k])
    requires ls == Map(PlainText.RemarkLine, rs) && s == Join(ls, "\n")
    ensures Strip(s) == s
  {
    forall k | 0 <= k < |ls| ensures Bare(ls[k]) {
      PlainText.RemarkLineBare(rs[k]);
    }
    JoinEnds(ls, "\n");
    StripUnchanged(s);
  }

  /** The sniff reads a plain transcript whose first speaker's name opens with
      `WEBVTT` as WebVTT: the opening is all it looks at. */
  lemma WebVttNameMisread(rs: seq<PlainText.Remark>, ext: string)
    requires rs != [] && forall k :: 0 <= k < |rs| ==> PlainText.Writable(rs[k])
    requires StartsWith(rs[0].name, "WEBVTT")
    requires Lower(ext) != ".srt"
    ensures DetectFormat(PlainText.RenderPlain(rs), ext) == VttFormat
  {
    var ls := Map(PlainText.RemarkLine, rs);
    var s := PlainText.RenderPlain(rs);
    RenderedStripped(rs, ls, s);
    JoinPrefix(ls, "\n");
    var r := rs[0];
    assert ls[0] == r.name + " [" + SecondsToTimestamp(r.start * MsPerSecond) + "]: " + r.text;
    assert s[..6] == ls[0][..6] == r.name[..6];
  }
}

=== FILE: frames.dfy ===
/** `merge_frames` and the downsampling step of `process_video`: baseline
    and scene-change frames are merged in time order, frames closer than the
    minimum gap to the last kept one are dropped, and when more frames
    remain than the target, an evenly spaced selection is taken. Times are
    milliseconds. */
module Frames {
  import opened Wrappers
  import Sorting

  /** `(timestamp, filename)`. */
  datatype Frame = Frame(time: int, file: string)

  /** The default `min_gap` of 2 seconds. */
  const MinGapMs := 2000

  function Time(f: Frame): int { f.time }

  /** The frame at `i` comes at least `gap` after the one before it. */
  predicate GapBefore(r: seq<Frame>, i: nat, gap: int)
    requires 0 < i < |r|
  {
    r[i].time - r[i - 1].time >= gap
  }

  predicate InTimeOrder(s: seq<Frame>) {
    forall i, j :: 0 <= i < j < |s| ==> s[i].time <= s[j].time
  }

  lemma TimeOrder(s: seq<Frame>)
    ensures Sorting.SortedBy(Time, s) <==> InTimeOrder(s)
  {
  }

  /** The merge loop run from `last_time = last`: a frame is kept when it
      comes at least `gap` after the last kept frame. The kept frames are
      frames of the input, each at least `gap` after its predecessor. */
  function Thin(frames: seq<Frame>, last: int, gap: int): (r: seq<Frame>)
    ensures forall x :: x in r ==> x in frames
    ensures r != [] ==> r[0].time - last >= gap
    ensures forall i :: 0 < i < |r| ==> GapBefore(r, i, gap)
    decreases |frames|
  {
    if frames == [] then []
    else
      assert frames == [frames[0]] + frames[1..];
      if frames[0].time - last >= gap then
        var rest := Thin(frames[1..], frames[0].time, gap);
        KeepGaps(frames[0], rest, gap);
        [frames[0]] + rest
      else Thin(frames[1..], last, gap)
  }

  /** The kept frames are taken from the input without repetition. */
  lemma {:induction false} ThinSubMultiset(frames: seq<Frame>, last: int, gap: int)
    ensures multiset(Thin(frames, last, gap)) <= multiset(frames)
    decreases |frames|
  {
    if frames != [] {
      assert frames == [frames[0]] + frames[1..];
      ThinSubMultiset(frames[1..], frames[0].time, gap);
      ThinSubMultiset(frames[1..], last, gap);
    }
  }

  lemma KeepGaps(f: Frame, rest: seq<Frame>, gap: int)
    requires forall i :: 0 < i < |rest| ==> GapBefore(rest, i, gap)
    requires rest != [] ==> rest[0].time - f.time >= gap
    ensures forall i :: 0 < i < |[f] + rest| ==> GapBefore([f] + rest, i, gap)
  {
    var r := [f] + rest;
    forall i | 0 < i < |r| ensures GapBefore(r, i, gap) {
      if i > 1 {
        assert GapBefore(rest, i - 1, gap);
        assert r[i] == rest[i - 1] && r[i - 1] == rest[i - 2];
      }
    }
  }

  /** `merge_frames(baseline, scene_changes, min_gap)`: a stable sort of the
      concatenation by time, then the loop from `last_time = -min_gap`. */
  function MergeFrames(baseline: seq<Frame>, scenes: seq<Frame>, gap: int): seq<Frame> {
    Thin(Sorting.SortBy(Time, baseline + scenes), -gap, gap)
  }

  /** The thinned frames of a time-ordered input are in time order. */
  lemma {:induction false} ThinSorted(frames: seq<Frame>, last: int, gap: int)
    requires InTimeOrder(frames)
    ensures InTimeOrder(Thin(frames, last, gap))
    decreases |frames|
  {
    if frames != [] {
      var rest := frames[1..];
      assert InTimeOrder(rest);
      if frames[0].time - last >= gap {
        var t := Thin(rest, frames[0].time, gap);
        ThinSorted(rest, frames[0].time, gap);
        assert forall x :: x in t ==> x in rest;
        assert Thin(frames, last, gap) == [frames[0]] + t;
      } else {
        ThinSorted(rest, last, gap);
      }
    }
  }

  /** Some frame of `r` was kept at most `gap` before `t`. */
  predicate Covered(r: seq<Frame>, t: int, gap: int) {
    exists j :: 0 <= j < |r| && r[j].time <= t < r[j].time + gap
  }

  /** Every input frame at least `gap` after `last` is covered by `r`. */
  predicate CoversFrom(frames: seq<Frame>, r: seq<Frame>, last: int, gap: int) {
    forall k :: 0 <= k < |frames| && frames[k].time - last >= gap ==> Covered(r, frames[k].time, gap)
  }

  /** Greedy coverage: on a time-ordered input, every frame at least `gap`
      after `last` lies within `gap` after some kept frame, so a frame is
      dropped only for crowding the one kept before it. */
  lemma {:induction false} ThinCovers(frames: seq<Frame>, last: int, gap: int)
    requires InTimeOrder(frames) && gap > 0
    ensures CoversFrom(frames, Thin(frames, last, gap), last, gap)
    decreases |frames|
  {
    if frames != [] {
      var f := frames[0];
      var rest := frames[1..];
      assert InTimeOrder(rest);
      if f.time - last >= gap {
        ThinCovers(rest, f.time, gap);
        KeptCovers(frames, last, gap);
      } else {
        ThinCovers(rest, last, gap);
        assert Thin(frames, last, gap) == Thin(rest, last, gap);
        assert forall k :: 0 < k < |frames| ==> frames[k] == rest[k - 1];
      }
    }
  }

  lemma KeptCovers(frames: seq<Frame>, last: int, gap: int)
    requires frames != [] && InTimeOrder(frames) && gap > 0
    requires frames[0].time - last >= gap
    requires CoversFrom(frames[1..], Thin(frames[1..], frames[0].time, gap), frames[0].time, gap)
    ensures CoversFrom(frames, Thin(frames, last, gap), last, gap)
  {
    var f := frames[0];
    var rest := frames[1..];
    var t := Thin(rest, f.time, gap);
    var r := Thin(frames, last, gap);
    assert r == [f] + t;
    forall k | 0 <= k < |frames| && frames[k].time - last >= gap
      ensures Covered(r, frames[k].time, gap)
    {
      if k > 0 && frames[k].time - f.time >= gap {
        assert rest[k - 1] == frames[k];
        var j :| 0 <= j < |t| && t[j].time <= frames[k].time < t[j].time + gap;
        assert r[j + 1] == t[j];
      } else {
        assert r[0].time <= frames[k].time < r[0].time + gap;
      }
    }
  }

  /** The merged frames are frames of the two inputs, in time order, none
      before time 0, each at least `gap` after the previous one; and every
      input frame at or after time 0 lies within `gap` after a kept one. */
  lemma MergeFramesSpec(baseline: seq<Frame>, scenes: seq<Frame>, gap: int)
    requires gap > 0
    ensures var r := MergeFrames(baseline, scenes, gap);
      && multiset(r) <= multiset(baseline + scenes)
      && InTimeOrder(r)
      && (r != [] ==> r[0].time >= 0)
      && (forall i :: 0 < i < |r| ==> GapBefore(r, i, gap))
      && (forall f :: f in baseline + scenes && f.time >= 0 ==> Covered(r, f.time, gap))
      && forall x :: x in r ==> FirstAtTime(x, baseline + scenes)
  {
    MergeKeepsFirst(baseline, scenes, gap);
    var all := baseline + scenes;
    var sorted := Sorting.SortBy(Time, all);
    Sorting.SortBySorted(Time, all);
    TimeOrder(sorted);
    ThinSpec(all, sorted, gap);
  }

  lemma ThinSpec(all: seq<Frame>, sorted: seq<Frame>, gap: int)
    requires gap > 0 && multiset(sorted) == multiset(all) && InTimeOrder(sorted)
    ensures var r := Thin(sorted, -gap, gap);
      && multiset(r) <= multiset(all)
      && InTimeOrder(r)
      && (r != [] ==> r[0].time >= 0)
      && forall f :: f in all && f.time >= 0 ==> Covered(r, f.time, gap)
  {
    ThinSorted(sorted, -gap, gap);
    ThinSubMultiset(sorted, -gap, gap);
    ThinCovers(sorted, -gap, gap);
    CoveredInputs(all, sorted, Thin(sorted, -gap, gap), gap);
  }

  lemma CoveredInputs(all: seq<Frame>, sorted: seq<Frame>, r: seq<Frame>, gap: int)
    requires multiset(sorted) == multiset(all)
    requires CoversFrom(sorted, r, -gap, gap)
    ensures forall f :: f in all && f.time >= 0 ==> Covered(r, f.time, gap)
  {
    forall f | f in all && f.time >= 0 ensures Covered(r, f.time, gap) {
      assert f in multiset(sorted);
      var k :| 0 <= k < |sorted| && sorted[k] == f;
    }
  }

  /** `x` is the earliest frame of `s` at its time. */
  predicate FirstAtTime(x: Frame, s: seq<Frame>) {
    var same := Sorting.WithKey(Time, x.time, s);
    same != [] && x == same[0]
  }

  /** Every kept frame comes at least `gap` after `last`. */
  lemma {:induction false} ThinAfter(frames: seq<Frame>, last: int, gap: int)
    requires gap > 0
    ensures forall x :: x in Thin(frames, last, gap) ==> x.time - last >= gap
    decreases |frames|
  {
    if frames != [] {
      ThinAfter(frames[1..], frames[0].time, gap);
      ThinAfter(frames[1..], last, gap);
    }
  }

  /** A kept frame is the earliest input frame at its time: a later frame at
      the same time never comes `gap` after the last kept one. */
  lemma {:induction false} ThinKeepsFirstAtTime(frames: seq<Frame>, last: int, gap: int)
    requires gap > 0
    ensures forall x :: x in Thin(frames, last, gap) ==> FirstAtTime(x, frames)
    decreases |frames|
  {
    if frames != [] {
      ThinKeepsFirstAtTime(frames[1..], frames[0].time, gap);
      ThinKeepsFirstAtTime(frames[1..], last, gap);
      ThinAfter(frames[1..], frames[0].time, gap);
      ThinAfter(frames[1..], last, gap);
    }
  }

  /** Of the input frames sharing a time, only the first of
      `baseline + scenes` can be kept, because the sort by time is stable. */
  lemma MergeKeepsFirst(baseline: seq<Frame>, scenes: seq<Frame>, gap: int)
    requires gap > 0
    ensures forall x :: x in MergeFrames(baseline, scenes, gap) ==> FirstAtTime(x, baseline + scenes)
  {
    var all := baseline + scenes;
    var sorted := Sorting.SortBy(Time, all);
    ThinKeepsFirstAtTime(sorted, -gap, gap);
    forall x | x in Thin(sorted, -gap, gap) ensures FirstAtTime(x, all) {
      Sorting.SortByStable(Time, x.time, all);
    }
  }

  /** When a baseline frame and a scene-change frame share a time, the
      baseline frame is the one that can be kept. */
  lemma BaselineWins(baseline: seq<Frame>, scenes: seq<Frame>, gap: int, x: Frame, b: Frame)
    requires gap > 0 && x in MergeFrames(baseline, scenes, gap)
    requires b in baseline && b.time == x.time
    ensures x in baseline
  {
    MergeKeepsFirst(baseline, scenes, gap);
    FirstWithKeyIn(baseline, scenes, b);
  }

  lemma {:induction false} FirstWithKeyIn(a: seq<Frame>, c: seq<Frame>, b: Frame)
    requires b in a
    ensures Sorting.WithKey(Time, b.time, a + c) != []
    ensures Sorting.WithKey(Time, b.time, a + c)[0] in a
    decreases |a|
  {
    if a[0].time != b.time {
      assert (a + c)[1..] == a[1..] + c;
      FirstWithKeyIn(a[1..], c, b);
    }
  }

  // ---------------------------------------------------------------------------
  // Downsampling

  /** `int(i * step)` with `step = n / target`: the index of the `i`-th frame
      kept. */
  function Pick(i: nat, n: nat, target: nat): (k: nat)
    requires i < target
    ensures k < n || n == 0
  {
    PickBelow(i, n, target);
    i * n / target
  }

  lemma PickBelow(i: nat, n: nat, target: nat)
    requires i < target
    ensures i * n / target < n || n == 0
  {
    if n > 0 {
      assert i * n < target * n;
    }
  }

  /** `if len(all_frames) > target_frames: all_frames = [all_frames[int(i *
      step)] for i in range(target_frames)]`. A zero target with frames to
      thin divides by zero; a negative one gives an empty range. */
  function Downsample(frames: seq<Frame>, target: int): Outcome<seq<Frame>> {
    var n := |frames|;
    if n <= target then Returns(frames)
    else if target == 0 then Raises("ZeroDivisionError")
    else if target < 0 then Returns([])
    else Returns(seq(target, i requires 0 <= i < target => frames[Pick(i, n, target)]))
  }

  lemma DivStep(a: nat, n: nat, t: nat)
    requires 0 < t <= n
    ensures (a + n) / t >= a / t + 1
  {
    var q := a / t;
    assert a == q * t + a % t;
    assert a + n >= q * t + t == (q + 1) * t;
    MulDivFloor(a + n, q + 1, t);
  }

  lemma MulDivFloor(x: nat, m: nat, t: nat)
    requires t > 0 && x >= m * t
    ensures x / t >= m
  {
    var q := x / t;
    assert x == q * t + x % t;
    assert x < (q + 1) * t;
    MulMono(q + 1, m, t);
  }

  lemma DivBelow(x: nat, m: nat, t: nat)
    requires t > 0 && x < m * t
    ensures x / t < m
  {
    var q := x / t;
    assert q * t <= x;
    MulMono(m, q, t);
  }

  lemma MulMono(a: int, b: int, t: nat)
    ensures a <= b ==> a * t <= b * t
  {
  }

  /** Each kept index is beyond the one before: the selection keeps frames
      in their order and never the same frame twice. */
  lemma PicksIncrease(i: nat, n: nat, target: nat)
    requires 0 < target < n && i + 1 < target
    ensures Pick(i, n, target) < Pick(i + 1, n, target)
  {
    assert (i + 1) * n == i * n + n;
    DivStep(i * n, n, target);
  }

  /** The last kept index is at most `n - 2`: thinning always drops the final
      frame. */
  lemma LastFrameDropped(n: nat, target: nat)
    requires 0 < target < n
    ensures Pick(target - 1, n, target) <= n - 2
  {
    var x := (target - 1) * n;
    assert x == target * n - n;
    assert x < (n - 1) * target;
    DivBelow(x, n - 1, target);
  }

  /** Thinning `n` frames to `target` (with `0 < target < n`) keeps exactly
      `target` frames, starting with the first, picking strictly increasing
      indices that never reach the last frame. */
  lemma DownsampleSpec(frames: seq<Frame>, target: int)
    requires 0 < target < |frames|
    ensures Downsample(frames, target).Returns?
    ensures var r := Downsample(frames, target).value;
      && |r| == target
      && r[0] == frames[0]
      && (forall i :: 0 <= i < target ==> r[i] == frames[Pick(i, |frames|, target)])
      && (forall i :: 0 <= i < target - 1 ==> Pick(i, |frames|, target) < Pick(i + 1, |frames|, target))
      && Pick(target - 1, |frames|, target) < |frames| - 1
  {
    forall i | 0 <= i < target - 1 ensures Pick(i, |frames|, target) < Pick(i + 1, |frames|, target) {
      PicksIncrease(i, |frames|, target);
    }
    LastFrameDropped(|frames|, target);
  }

  /** Five frames thinned to two keep frames 0 and 2; frame 4 is lost. */
  lemma FiveToTwo(frames: seq<Frame>)
    requires |frames| == 5
    ensures Downsample(frames, 2) == Returns([frames[0], frames[2]])
  {
    assert Pick(0, 5, 2) == 0 && Pick(1, 5, 2) == 2;
    var v := seq(2, i requires 0 <= i < 2 => frames[Pick(i, 5, 2)]);
    assert Downsample(frames, 2) == Returns(v);
    assert v == [frames[0], frames[2]];
  }

  /** Up to the target nothing is dropped; a zero target with frames to thin
      raises, and a negative one empties the list. */
  lemma DownsampleEdges(frames: seq<Frame>, target: int)
    ensures |frames| <= target ==> Downsample(frames, target) == Returns(frames)
    ensures target == 0 < |frames| ==> Downsample(frames, target).Raises?
    ensures target < 0 ==> Downsample(frames, target) == Returns([])
  {
  }

  /** Whatever the target, the frames kept are frames of the input and there
      are no more of them than a non-negative target allows. */
  lemma DownsampleKeeps(frames: seq<Frame>, target: int)
    ensures Downsample(frames, target).Returns? ==>
      && (forall f :: f in Downsample(frames, target).value ==> f in frames)
      && (target >= 0 ==> |Downsample(frames, target).value| <= target || |frames| <= target)
  {
  }
}

=== FILE: line_syntax.dfy ===
/** The line-level regular expressions the three transcript parsers share,
    each written out as a deterministic matcher. Every matcher returns exactly
    the groups Python's `re.match` would capture, with the regex's greedy,
    lazy and backtracking choices resolved by hand (the doc comment of each
    says how). */
module LineSyntax {
  import opened Wrappers
  import opened Text

  /** The timestamp class `[\d:,.]`. */
  predicate IsStampChar(c: char) {
    IsDigit(c) || c == ':' || c == ',' || c == '.'
  }

  /** Length of the maximal run of `[\d:,.]` starting at `i`. */
  function StampRun(s: string, i: nat): (n: nat)
    ensures i + n <= |s| || (i >= |s| && n == 0)
    ensures forall j :: i <= j < i + n ==> IsStampChar(s[j])
    ensures i + n < |s| ==> !IsStampChar(s[i + n])
    decreases |s| - i
  {
    if i < |s| && IsStampChar(s[i]) then 1 + StampRun(s, i + 1) else 0
  }

  /** Length of the maximal run of whitespace starting at `i`. */
  function SpaceRun(s: string, i: nat): (n: nat)
    ensures i + n <= |s| || (i >= |s| && n == 0)
    ensures forall j :: i <= j < i + n ==> IsSpace(s[j])
    ensures i + n < |s| ==> !IsSpace(s[i + n])
    decreases |s| - i
  {
    if i < |s| && IsSpace(s[i]) then 1 + SpaceRun(s, i + 1) else 0
  }

  /** Index of the first occurrence of `c` at or after `i`, if any. */
  function FindFrom(s: string, c: char, i: nat): (r: Option<nat>)
    ensures r.Some? ==> i <= r.value < |s| && s[r.value] == c
    ensures r.Some? ==> forall j :: i <= j < r.value ==> s[j] != c
    ensures r.None? ==> forall j :: i <= j < |s| ==> s[j] != c
    decreases |s| - i
  {
    if i >= |s| then None
    else if s[i] == c then Some(i)
    else FindFrom(s, c, i + 1)
  }

  /** A run that is all stamp characters and ends at the end of `s` or at a
      character outside the class is the maximal one. */
  lemma StampRunExact(s: string, i: nat, n: nat)
    requires i + n <= |s|
    requires forall j :: i <= j < i + n ==> IsStampChar(s[j])
    requires i + n == |s| || !IsStampChar(s[i + n])
    ensures StampRun(s, i) == n
  {
  }

  lemma SpaceRunExact(s: string, i: nat, n: nat)
    requires i + n <= |s|
    requires forall j :: i <= j < i + n ==> IsSpace(s[j])
    requires i + n == |s| || !IsSpace(s[i + n])
    ensures SpaceRun(s, i) == n
  {
  }

  lemma FindFromExact(s: string, c: char, i: nat, k: nat)
    requires i <= k < |s| && s[k] == c
    requires forall j :: i <= j < k ==> s[j] != c
    ensures FindFrom(s, c, i) == Some(k)
  {
  }

  /** The cue-timing line `([\d:,.]+)\s*-->\s*([\d:,.]+)` matched at the start
      of `line`, giving the start and end tokens. Neither run can give back a
      character to the rest of the pattern (what follows each is whitespace,
      '-' or the end), so both are maximal runs. */
  function Arrow(line: string): (r: Option<(string, string)>)
    ensures r.Some? ==> r.value.0 != [] && r.value.1 != []
    ensures r.Some? ==> StartsWith(line, r.value.0)
  {
    var a := StampRun(line, 0);
    var p := a + SpaceRun(line, a);
    if a == 0 || !(p + 3 <= |line| && line[p..p + 3] == "-->") then None
    else
      var q := p + 3 + SpaceRun(line, p + 3);
      var b := StampRun(line, q);
      if b == 0 then None else Some((line[..a], line[q..q + b]))
  }

  /** The tag pattern `<[^>]+>` at the head of `s`: its length, when `s` opens
      with '<' and a '>' follows after at least one other character. */
  function TagAt(s: string): (r: Option<nat>)
    ensures r.Some? ==> 3 <= r.value <= |s| && s[0] == '<' && s[r.value - 1] == '>'
  {
    if s == [] || s[0] != '<' then None
    else
      match FindFrom(s, '>', 1)
      case Some(j) => if j >= 2 then Some(j + 1) else None
      case None => None
  }

  /** `re.sub(r'<[^>]+>', '', s)`: scanning left to right, every tag is removed
      and every other character kept. */
  function RemoveTags(s: string): (r: string)
    ensures |r| <= |s|
    ensures forall c :: c in r ==> c in s
    ensures s != [] && s[0] != '<' ==> r != [] && r[0] == s[0]
    decreases |s|
  {
    if s == [] then []
    else
      match TagAt(s)
      case Some(n) => RemoveTags(s[n..])
      case None => [s[0]] + RemoveTags(s[1..])
  }

  /** No tag starts anywhere in `s`. */
  predicate TagFree(s: string) {
    forall i :: 0 <= i < |s| ==> TagAt(s[i..]).None?
  }

  /** A text without '<' holds no tag. */
  lemma NoBracketTagFree(s: string)
    requires '<' !in s
    ensures TagFree(s)
  {
    forall i | 0 <= i < |s| ensures TagAt(s[i..]).None? {
      assert s[i..][0] == s[i];
    }
  }

  lemma {:induction false} TagFreeUnchanged(s: string)
    requires TagFree(s)
    ensures RemoveTags(s) == s
    decreases |s|
  {
    if s != [] {
      assert s[0..] == s;
      assert TagFree(s[1..]) by {
        forall i | 0 <= i < |s[1..]| ensures TagAt(s[1..][i..]).None? {
          assert s[1..][i..] == s[i + 1..];
        }
      }
      TagFreeUnchanged(s[1..]);
    }
  }

  lemma {:induction false} RemoveTagsTagFree(s: string)
    ensures TagFree(RemoveTags(s))
    decreases |s|
  {
    if s != [] {
      match TagAt(s)
      case Some(n) =>
        RemoveTagsTagFree(s[n..]);
      case None =>
        var rest := RemoveTags(s[1..]);
        var r := [s[0]] + rest;
        RemoveTagsTagFree(s[1..]);
        forall i | 0 <= i < |r| ensures TagAt(r[i..]).None? {
          if i == 0 {
            if s[0] == '<' {
              KeptBracketStaysBare(s, rest);
              assert r[0..] == r;
            }
          } else {
            assert r[i..] == rest[i - 1..];
          }
        }
      }
  }

  /** A '<' that opens no tag in the input opens none in the output either:
      either no '>' follows it at all, or a '>' follows immediately. */
  lemma KeptBracketStaysBare(s: string, rest: string)
    requires s != [] && s[0] == '<' && TagAt(s).None?
    requires rest == RemoveTags(s[1..])
    ensures TagAt([s[0]] + rest).None?
  {
    var r := [s[0]] + rest;
    match FindFrom(s, '>', 1)
    case None =>
      assert forall j :: 1 <= j < |s| ==> s[j] != '>';
      assert '>' !in s[1..];
      assert '>' !in rest;
      assert FindFrom(r, '>', 1).None? by {
        forall j | 1 <= j < |r| ensures r[j] != '>' { assert r[j] in rest; }
      }
    case Some(j) =>
      assert j == 1;
      assert s[1..] != [] && s[1..][0] == '>';
      assert rest != [] && rest[0] == '>';
      assert r[1] == '>';
  }

  /** Stripping tags is idempotent: a second pass finds nothing to remove. */
  lemma RemoveTagsIdempotent(s: string)
    ensures RemoveTags(RemoveTags(s)) == RemoveTags(s)
  {
    RemoveTagsTagFree(s);
    TagFreeUnchanged(RemoveTags(s));
  }

  /** `^([^:]+):\s*(.+)$` on a line without newlines: the text before the first
      ':' (which must be non-empty) and everything after that ':' (which must be
      non-empty). The caller strips the second part, which is what `.strip()` of
      the second group gives whatever `\s*` took. */
  function ColonSplit(line: string): (r: Option<(string, string)>)
    ensures r.Some? ==> r.value.0 != [] && r.value.1 != []
    ensures r.Some? ==> ':' !in r.value.0 && line == r.value.0 + ":" + r.value.1
    ensures r.None? ==> ':' !in line || line[0] == ':' || line[|line| - 1] == ':'
  {
    match FindFrom(line, ':', 0)
    case None => None
    case Some(c) =>
      if c == 0 || c + 1 >= |line| then None
      else
        assert line == line[..c] + ":" + line[c + 1..];
        Some((line[..c], line[c + 1..]))
  }

  /** `Name:` + space + text, the name holding no ':' and the text stripped,
      splits into the name and the text after its space. */
  lemma ColonParts(line: string, name: string, text: string)
    requires name != [] && ':' !in name && text != []
    requires |line| == |name| + |text| + 2
    requires line[..|name|] == name && line[|name|] == ':' && line[|name| + 1] == ' '
    requires line[|name| + 2..] == text
    ensures ColonSplit(line) == Some((name, [' '] + text))
  {
    assert forall j :: 0 <= j < |name| ==> line[j] == name[j];
    FindFromExact(line, ':', 0, |name|);
    assert line[|name| + 1..] == [' '] + text;
  }

  /** The name heuristic shared by the VTT and SRT parsers: at most four
      whitespace-separated words and no digit. */
  predicate LooksLikeName(candidate: string) {
    WordCount(candidate) <= 4 && !HasDigit(candidate)
  }
}

=== FILE: metrics.dfy ===
/** `compute_speaker_metrics`: consecutive segments of one speaker merge into
    turns, the turns add up per speaker, and the speakers are listed by talk
    time, longest first. Times are milliseconds; the figures the source
    reports in seconds are reals. */
module Metrics {
  import opened Wrappers
  import opened Text
  import opened Speakers
  import opened Seqs
  import opened Rounding
  import Sorting

  const Unknown := "unknown"

  /** `seg.speaker_id or "unknown"`. */
  function Key(s: Segment): (k: string)
    ensures k != []
  {
    if Named(s.speakerId) then s.speakerId.value else Unknown
  }

  /** Every segment of a run has the key of its first segment. */
  predicate SameKey(run: seq<Segment>) {
    run != [] && forall j :: 0 <= j < |run| ==> Key(run[j]) == Key(run[0])
  }

  /** A partition of the segments into maximal runs of one key. */
  predicate MaximalRuns(segs: seq<Segment>, runs: seq<seq<Segment>>) {
    && Flatten(runs) == segs
    && (forall i :: 0 <= i < |runs| ==> SameKey(runs[i]))
    && (forall i :: 0 < i < |runs| ==> Key(runs[i - 1][0]) != Key(runs[i][0]))
  }

  /** The consolidation loop's grouping: a segment joins the current turn when
      its key is the current speaker's, and opens a new turn otherwise. */
  function Runs(segs: seq<Segment>): (r: seq<seq<Segment>>)
    ensures MaximalRuns(segs, r)
    ensures segs != [] ==> r != [] && r[0][0] == segs[0]
    decreases |segs|
  {
    if segs == [] then []
    else
      var rest := Runs(segs[1..]);
      if rest != [] && Key(rest[0][0]) == Key(segs[0]) then
        MergeRun(segs, rest);
        [[segs[0]] + rest[0]] + rest[1..]
      else
        NewRun(segs, rest);
        [[segs[0]]] + rest
  }

  /** A segment with the first run's key joins that run. */
  lemma MergeRun(segs: seq<Segment>, rest: seq<seq<Segment>>)
    requires segs != [] && MaximalRuns(segs[1..], rest)
    requires rest != [] && Key(rest[0][0]) == Key(segs[0])
    ensures MaximalRuns(segs, [[segs[0]] + rest[0]] + rest[1..])
  {
    var r := [[segs[0]] + rest[0]] + rest[1..];
    assert segs == [segs[0]] + segs[1..];
    assert r[1..] == rest[1..];
    assert Flatten(rest) == rest[0] + Flatten(rest[1..]);
    assert Flatten(r) == [segs[0]] + rest[0] + Flatten(rest[1..]);
    assert forall i :: 0 < i < |r| ==> r[i] == rest[i];
  }

  /** A segment with another key opens a run of its own. */
  lemma NewRun(segs: seq<Segment>, rest: seq<seq<Segment>>)
    requires segs != [] && MaximalRuns(segs[1..], rest)
    requires rest != [] ==> Key(rest[0][0]) != Key(segs[0])
    ensures MaximalRuns(segs, [[segs[0]]] + rest)
  {
    var r := [[segs[0]]] + rest;
    assert segs == [segs[0]] + segs[1..];
    assert r[1..] == rest;
  }

  /** The maximal runs are unique: any partition into non-empty one-key runs
      whose neighbours differ in key is the one the loop builds. */
  lemma {:induction false} RunsUnique(segs: seq<Segment>, runs: seq<seq<Segment>>)
    requires MaximalRuns(segs, runs)
    ensures runs == Runs(segs)
    decreases |segs|
  {
    if runs == [] {
      assert segs == [];
    } else {
      PeelHead(segs, runs);
      var rest := Peel(runs);
      RunsUnique(segs[1..], rest);
      RunsCons(segs, rest);
    }
  }

  /** The runs without the first segment. */
  function Peel(runs: seq<seq<Segment>>): seq<seq<Segment>>
    requires runs != [] && runs[0] != []
  {
    if |runs[0]| == 1 then runs[1..] else [runs[0][1..]] + runs[1..]
  }

  /** Taking off the first segment leaves maximal runs, from which the first
      segment's run is rebuilt just as the loop would. */
  lemma PeelHead(segs: seq<Segment>, runs: seq<seq<Segment>>)
    requires runs != [] && MaximalRuns(segs, runs)
    ensures segs != [] && MaximalRuns(segs[1..], Peel(runs))
    ensures var rest := Peel(runs);
      runs == if rest != [] && Key(rest[0][0]) == Key(segs[0]) then [[segs[0]] + rest[0]] + rest[1..] else [[segs[0]]] + rest
  {
    assert Flatten(runs) == runs[0] + Flatten(runs[1..]);
    if |runs[0]| == 1 {
      PeelSingle(segs, runs);
    } else {
      PeelLonger(segs, runs);
    }
  }

  lemma PeelSingle(segs: seq<Segment>, runs: seq<seq<Segment>>)
    requires runs != [] && MaximalRuns(segs, runs) && |runs[0]| == 1
    requires Flatten(runs) == runs[0] + Flatten(runs[1..])
    ensures segs != [] && MaximalRuns(segs[1..], runs[1..])
    ensures runs[1..] != [] ==> Key(runs[1..][0][0]) != Key(segs[0])
    ensures runs == [[segs[0]]] + runs[1..]
  {
    var tail := runs[1..];
    assert segs[0] == runs[0][0] && segs[1..] == Flatten(tail);
    assert forall i :: 0 <= i < |tail| ==> tail[i] == runs[i + 1];
    assert runs[0] == [segs[0]];
    assert runs == [runs[0]] + tail;
  }

  lemma PeelLonger(segs: seq<Segment>, runs: seq<seq<Segment>>)
    requires runs != [] && MaximalRuns(segs, runs) && |runs[0]| > 1
    requires Flatten(runs) == runs[0] + Flatten(runs[1..])
    ensures segs != [] && MaximalRuns(segs[1..], [runs[0][1..]] + runs[1..])
    ensures Key(runs[0][1]) == Key(segs[0])
    ensures runs == [[segs[0]] + runs[0][1..]] + runs[1..]
  {
    var p := runs[0];
    var tail := runs[1..];
    var q := [p[1..]] + tail;
    assert segs[0] == p[0] && segs[1..] == p[1..] + Flatten(tail);
    assert q[1..] == tail;
    assert Flatten(q) == p[1..] + Flatten(tail);
    assert forall i :: 0 < i < |q| ==> q[i] == runs[i];
    assert SameKey(q[0]) by {
      assert forall j :: 0 <= j < |p[1..]| ==> p[1..][j] == p[j + 1];
    }
    assert |q| > 1 ==> Key(q[0][0]) == Key(p[0]) && q[1] == runs[1];
    assert p == [segs[0]] + p[1..] && runs == [p] + tail;
  }

  /** One step of the loop, given the runs of the rest. */
  lemma RunsCons(segs: seq<Segment>, rest: seq<seq<Segment>>)
    requires segs != [] && rest == Runs(segs[1..])
    ensures Runs(segs) == if rest != [] && Key(rest[0][0]) == Key(segs[0]) then [[segs[0]] + rest[0]] + rest[1..] else [[segs[0]]] + rest
  {
  }

  /** `SpeakerSegment`: one consolidated turn. */
  datatype Turn = Turn(
    speakerId: string,
    speakerName: Option<string>,
    start: int,
    end: int,
    text: string,
    wordCount: nat)

  function Texts(run: seq<Segment>): seq<string> {
    Map((s: Segment) => s.text, run)
  }

  /** A run as a turn: the first segment's key, name and start, the last
      one's end, and the texts joined by single spaces. */
  function TurnOf(run: seq<Segment>): (t: Turn)
    requires SameKey(run)
    ensures t.speakerId == Key(run[|run| - 1]) && t.start == run[0].start && t.end == run[|run| - 1].end
    ensures t.wordCount == SumWordCounts(Texts(run))
  {
    var text := Join(Texts(run), " ");
    WordCountJoin(Texts(run));
    Turn(Key(run[0]), run[0].speakerName, run[0].start, run[|run| - 1].end, text, WordCount(text))
  }

  /** The consolidated turns, in order. */
  function Turns(segs: seq<Segment>): (ts: seq<Turn>)
    ensures |ts| == |Runs(segs)| <= |segs|
    ensures segs == [] <==> ts == []
  {
    var runs := Runs(segs);
    RunsShorter(segs, runs);
    seq(|runs|, i requires 0 <= i < |runs| => TurnOf(runs[i]))
  }

  lemma {:induction false} RunsShorter(segs: seq<Segment>, runs: seq<seq<Segment>>)
    requires Flatten(runs) == segs && forall i :: 0 <= i < |runs| ==> runs[i] != []
    ensures |runs| <= |segs|
    decreases |runs|
  {
    if runs != [] {
      RunsShorter(Flatten(runs[1..]), runs[1..]);
    }
  }

  /** Neighbouring turns belong to different speakers, and every turn's
      speaker is the key of each segment it was built from. */
  lemma TurnsAlternate(segs: seq<Segment>)
    ensures forall i :: 0 < i < |Turns(segs)| ==> Turns(segs)[i - 1].speakerId != Turns(segs)[i].speakerId
    ensures forall i, j :: 0 <= i < |Runs(segs)| && 0 <= j < |Runs(segs)[i]| ==> Turns(segs)[i].speakerId == Key(Runs(segs)[i][j])
  {
  }

  // ---------------------------------------------------------------------------
  // Per-speaker totals

  /** `speaker_data[speaker_id]`: talk time in milliseconds, words and turns
      so far, and the name of the speaker's first turn. */
  datatype Tally = Tally(speakerId: string, speakerName: Option<string>, talk: int, words: nat, turns: nat)

  function Duration(t: Turn): int { t.end - t.start }
  function WordsIn(t: Turn): int { t.wordCount }
  function TallyTalk(t: Tally): int { t.talk }
  function TallyTurns(t: Tally): int { t.turns }

  function Ids(ts: seq<Tally>): seq<string> {
    Map((t: Tally) => t.speakerId, ts)
  }

  function TurnIds(turns: seq<Turn>): seq<string> {
    Map((t: Turn) => t.speakerId, turns)
  }

  /** The distinct values of `xs` in order of first appearance. */
  function FirstSeen(xs: seq<string>): (r: seq<string>)
    ensures Distinct(r)
    ensures forall x :: x in r <==> x in xs
    decreases |xs|
  {
    if xs == [] then []
    else
      assert xs == xs[..|xs| - 1] + [xs[|xs| - 1]];
      Register(FirstSeen(xs[..|xs| - 1]), xs[|xs| - 1])
  }

  /** One turn added to the totals: a speaker already present is updated in
      place, a new one is appended (a dict keeps insertion order). */
  function AddTurn(ts: seq<Tally>, t: Turn): (r: seq<Tally>)
    ensures Ids(r) == Register(Ids(ts), t.speakerId)
  {
    var ids := Ids(ts);
    if t.speakerId in ids then
      var i := IndexOf(ids, t.speakerId);
      var r := ts[i := Bump(ts[i], t)];
      assert Ids(r) == ids;
      r
    else
      var r := ts + [Fresh(t)];
      assert Ids(r) == ids + [t.speakerId];
      r
  }

  /** The aggregation loop over the turns. */
  function Tallies(turns: seq<Turn>): seq<Tally>
    decreases |turns|
  {
    if turns == [] then [] else AddTurn(Tallies(turns[..|turns| - 1]), turns[|turns| - 1])
  }

  /** The turns of one speaker, in order. */
  function TurnsBy(turns: seq<Turn>, id: string): (r: seq<Turn>)
    ensures forall k :: 0 <= k < |r| ==> r[k].speakerId == id && r[k] in turns
    decreases |turns|
  {
    if turns == [] then []
    else
      var n := |turns| - 1;
      assert forall x :: x in turns[..n] ==> x in turns;
      TurnsBy(turns[..n], id) + (if turns[n].speakerId == id then [turns[n]] else [])
  }

  /** A tally says what the speaker's own turns add up to: their number,
      their summed durations and word counts, and the first one's name. */
  predicate Agrees(turns: seq<Turn>, t: Tally) {
    var mine := TurnsBy(turns, t.speakerId);
    && mine != []
    && t.turns == |mine|
    && t.talk == SumOf(Duration, mine)
    && t.words == SumOf(WordsIn, mine)
    && t.speakerName == mine[0].speakerName
  }

  lemma TurnsBySnoc(turns: seq<Turn>, t: Turn, id: string)
    ensures TurnsBy(turns + [t], id) == TurnsBy(turns, id) + (if t.speakerId == id then [t] else [])
  {
    assert (turns + [t])[..|turns|] == turns;
  }

  lemma SilentNoTurns(turns: seq<Turn>, id: string)
    requires id !in TurnIds(turns)
    ensures TurnsBy(turns, id) == []
  {
  }

  lemma TurnIdsSnoc(turns: seq<Turn>, t: Turn)
    ensures TurnIds(turns + [t]) == TurnIds(turns) + [t.speakerId]
  {
  }

  /** The totals list each speaker once, in order of first turn, and each
      entry agrees with that speaker's turns. */
  lemma {:induction false} TalliesSpec(turns: seq<Turn>)
    ensures Ids(Tallies(turns)) == FirstSeen(TurnIds(turns))
    ensures forall i :: 0 <= i < |Tallies(turns)| ==> Agrees(turns, Tallies(turns)[i])
    decreases |turns|
  {
    if turns != [] {
      var n := |turns| - 1;
      var init := turns[..n];
      var t := turns[n];
      assert turns == init + [t];
      TalliesSpec(init);
      TurnIdsSnoc(init, t);
      assert TurnIds(turns)[..n] == TurnIds(init);
      AddTurnSpec(init, t, Tallies(init));
    }
  }

  lemma AddTurnSpec(init: seq<Turn>, t: Turn, ts: seq<Tally>)
    requires Ids(ts) == FirstSeen(TurnIds(init))
    requires forall i :: 0 <= i < |ts| ==> Agrees(init, ts[i])
    ensures forall i :: 0 <= i < |AddTurn(ts, t)| ==> Agrees(init + [t], AddTurn(ts, t)[i])
  {
    var r := AddTurn(ts, t);
    var ids := Ids(ts);
    if t.speakerId in ids {
      var k := IndexOf(ids, t.speakerId);
      assert r == ts[k := Bump(ts[k], t)];
      forall i | 0 <= i < |r| ensures Agrees(init + [t], r[i]) {
        if i == k {
          AgreesBumped(init, t, ts[k]);
        } else {
          assert ids[i] != ids[k];
          AgreesUnchanged(init, t, ts[i]);
        }
      }
    } else {
      assert r == ts + [Fresh(t)];
      forall i | 0 <= i < |r| ensures Agrees(init + [t], r[i]) {
        if i < |ts| {
          assert ids[i] != t.speakerId;
          AgreesUnchanged(init, t, ts[i]);
        } else {
          AgreesFresh(init, t);
        }
      }
    }
  }

  /** An existing speaker's tally after one more turn. */
  function Bump(x: Tally, t: Turn): Tally {
    x.(talk := x.talk + Duration(t), words := x.words + t.wordCount, turns := x.turns + 1)
  }

  /** A new speaker's tally after the first turn. */
  function Fresh(t: Turn): Tally {
    Tally(t.speakerId, t.speakerName, Duration(t), t.wordCount, 1)
  }

  lemma AgreesUnchanged(init: seq<Turn>, t: Turn, x: Tally)
    requires Agrees(init, x) && x.speakerId != t.speakerId
    ensures Agrees(init + [t], x)
  {
    TurnsBySnoc(init, t, x.speakerId);
    assert TurnsBy(init, x.speakerId) + [] == TurnsBy(init, x.speakerId);
  }

  lemma AgreesBumped(init: seq<Turn>, t: Turn, x: Tally)
    requires Agrees(init, x) && x.speakerId == t.speakerId
    ensures Agrees(init + [t], Bump(x, t))
  {
    var mine := TurnsBy(init, t.speakerId);
    TurnsBySnoc(init, t, t.speakerId);
    SumOfAppend(Duration, mine, t);
    SumOfAppend(WordsIn, mine, t);
  }

  lemma AgreesFresh(init: seq<Turn>, t: Turn)
    requires t.speakerId !in FirstSeen(TurnIds(init))
    ensures Agrees(init + [t], Fresh(t))
  {
    SilentNoTurns(init, t.speakerId);
    TurnsBySnoc(init, t, t.speakerId);
    SumOfAppend(Duration, [], t);
    SumOfAppend(WordsIn, [], t);
    assert [] + [t] == [t];
  }

  /** Summed over speakers, the turn counts give the number of turns and the
      talk times give the total talk time. */
  lemma {:induction false} TalliesTotals(turns: seq<Turn>)
    ensures SumOf(TallyTurns, Tallies(turns)) == |turns|
    ensures SumOf(TallyTalk, Tallies(turns)) == SumOf(Duration, turns)
    decreases |turns|
  {
    if turns != [] {
      var n := |turns| - 1;
      var init := turns[..n];
      var t := turns[n];
      TalliesTotals(init);
      assert Tallies(turns) == AddTurn(Tallies(init), t);
      AddTurnTotals(Tallies(init), t);
    }
  }

  lemma AddTurnTotals(ts: seq<Tally>, t: Turn)
    ensures SumOf(TallyTurns, AddTurn(ts, t)) == SumOf(TallyTurns, ts) + 1
    ensures SumOf(TallyTalk, AddTurn(ts, t)) == SumOf(TallyTalk, ts) + Duration(t)
  {
    var ids := Ids(ts);
    if t.speakerId in ids {
      var i := IndexOf(ids, t.speakerId);
      SumOfUpdate(TallyTurns, ts, i, Bump(ts[i], t));
      SumOfUpdate(TallyTalk, ts, i, Bump(ts[i], t));
    } else {
      SumOfAppend(TallyTurns, ts, Fresh(t));
      SumOfAppend(TallyTalk, ts, Fresh(t));
    }
  }

  // ---------------------------------------------------------------------------
  // The metrics list

  /** `SpeakerMetrics`. `talk_time_seconds` is held in hundredths of a second
      (`round(talk_time, 2)`); the other rounded figures are reals. */
  datatype SpeakerMetrics = SpeakerMetrics(
    speakerId: string,
    speakerName: Option<string>,
    talkCentis: int,
    talkPct: real,
    wordCount: nat,
    pace: real,
    turnCount: nat,
    avgTurn: real)

  function Seconds(ms: int): real {
    ms as real / 1000.0
  }

  /** One speaker's figures, given the total talk time over all speakers. */
  function MetricsOf(total: int, t: Tally): (m: SpeakerMetrics)
    ensures m.speakerId == t.speakerId && m.speakerName == t.speakerName
    ensures m.wordCount == t.words && m.turnCount == t.turns
    ensures total <= 0 ==> m.talkPct == 0.0
    ensures t.talk <= 0 ==> m.pace == 0.0
  {
    var talk := Seconds(t.talk);
    RoundHalfEvenInt(0);
    SpeakerMetrics(
      t.speakerId,
      t.speakerName,
      Units(talk, 2),
      Round(if total > 0 then talk / Seconds(total) * 100.0 else 0.0, 1),
      t.words,
      Round(if t.talk > 0 then t.words as real / talk * 60.0 else 0.0, 1),
      t.turns,
      Round(if t.turns > 0 then talk / t.turns as real else 0.0, 2))
  }

  /** The sort key of `metrics.sort(key=talk_time_seconds, reverse=True)`:
      Python's descending sort is stable, so it is the ascending stable sort
      on the negated key. */
  function Descending(m: SpeakerMetrics): int {
    -m.talkCentis
  }

  /** `compute_speaker_metrics`: the metrics, longest talker first, the turns
      and the total turn count. */
  function ComputeSpeakerMetrics(segs: seq<Segment>): (r: (seq<SpeakerMetrics>, seq<Turn>, nat))
    ensures segs == [] ==> r == ([], [], 0)
    ensures r.1 == Turns(segs) && r.2 == |r.1|
    ensures Sorting.SortedBy(Descending, r.0)
    ensures |r.0| == |FirstSeen(TurnIds(r.1))|
  {
    var turns := Turns(segs);
    var ts := Tallies(turns);
    var totalTurns := SumOf(TallyTurns, ts);
    TalliesTotals(turns);
    TalliesSpec(turns);
    Sorting.SortBySorted(Descending, Unsorted(turns));
    (Sorting.SortBy(Descending, Unsorted(turns)), turns, totalTurns as nat)
  }

  /** The metrics before sorting, in order of each speaker's first turn. */
  function Unsorted(turns: seq<Turn>): seq<SpeakerMetrics> {
    var ts := Tallies(turns);
    var total := SumOf(TallyTalk, ts);
    Map((t: Tally) => MetricsOf(total, t), ts)
  }

  function MetricIds(ms: seq<SpeakerMetrics>): seq<string> {
    Map((m: SpeakerMetrics) => m.speakerId, ms)
  }

  /** A speaker's figures are those of the speaker's own turns: how many,
      how many words, the first turn's name, the talk time rounded to
      hundredths of a second, the rounded share of the total talk time, the
      rounded words per minute and the rounded average turn length. */
  predicate Reports(turns: seq<Turn>, m: SpeakerMetrics) {
    var mine := TurnsBy(turns, m.speakerId);
    var talk := SumOf(Duration, mine);
    var total := SumOf(Duration, turns);
    var words := SumOf(WordsIn, mine);
    && mine != []
    && m.turnCount == |mine|
    && m.wordCount == words
    && m.speakerName == mine[0].speakerName
    && m.talkCentis == Units(Seconds(talk), 2)
    && m.talkPct == Round(if total > 0 then Seconds(talk) / Seconds(total) * 100.0 else 0.0, 1)
    && m.pace == Round(if talk > 0 then words as real / Seconds(talk) * 60.0 else 0.0, 1)
    && m.avgTurn == Round(Seconds(talk) / |mine| as real, 2)
  }

  /** Every listed speaker's figures are those of the speaker's own turns. */
  lemma MetricsPerSpeaker(segs: seq<Segment>)
    ensures var r := ComputeSpeakerMetrics(segs);
      forall m :: m in r.0 ==> Reports(r.1, m)
  {
    var turns := Turns(segs);
    var u := Unsorted(turns);
    Sorting.SortBySorted(Descending, u);
    UnsortedReports(turns);
    forall m | m in ComputeSpeakerMetrics(segs).0 ensures Reports(turns, m) {
      assert m in multiset(u);
    }
  }

  lemma UnsortedReports(turns: seq<Turn>)
    ensures forall m :: m in Unsorted(turns) ==> Reports(turns, m)
  {
    var ts := Tallies(turns);
    var total := SumOf(TallyTalk, ts);
    var u := Unsorted(turns);
    TalliesSpec(turns);
    TalliesTotals(turns);
    forall i | 0 <= i < |u| ensures Reports(turns, u[i]) {
      ReportsOf(turns, ts[i], total);
    }
  }

  lemma ReportsOf(turns: seq<Turn>, t: Tally, total: int)
    requires Agrees(turns, t) && total == SumOf(Duration, turns)
    ensures Reports(turns, MetricsOf(total, t))
  {
  }

  /** The speakers listed are exactly those with a turn; as there are as
      many entries as distinct speakers, each is listed once. */
  lemma MetricsSpeakers(segs: seq<Segment>)
    ensures var r := ComputeSpeakerMetrics(segs);
      forall x :: x in MetricIds(r.0) <==> x in TurnIds(r.1)
  {
    var turns := Turns(segs);
    var u := Unsorted(turns);
    TalliesSpec(turns);
    Sorting.SortBySorted(Descending, u);
    assert MetricIds(u) == Ids(Tallies(turns));
    SameIds(u, Sorting.SortBy(Descending, u));
  }

  lemma SameIds(u: seq<SpeakerMetrics>, sorted: seq<SpeakerMetrics>)
    requires multiset(u) == multiset(sorted)
    ensures forall x :: x in MetricIds(sorted) <==> x in MetricIds(u)
  {
    forall x ensures x in MetricIds(sorted) <==> x in MetricIds(u) {
      if x in MetricIds(sorted) {
        var i :| 0 <= i < |sorted| && MetricIds(sorted)[i] == x;
        assert sorted[i] in multiset(u);
        var j :| 0 <= j < |u| && u[j] == sorted[i];
        assert MetricIds(u)[j] == x;
      }
      if x in MetricIds(u) {
        var j :| 0 <= j < |u| && MetricIds(u)[j] == x;
        assert u[j] in multiset(sorted);
        var i :| 0 <= i < |sorted| && sorted[i] == u[j];
        assert MetricIds(sorted)[i] == x;
      }
    }
  }

  /** Speakers whose rounded talk times tie keep the order of their first
      turns. */
  lemma MetricsTieOrder(segs: seq<Segment>, v: int)
    ensures var r := ComputeSpeakerMetrics(segs);
      Sorting.WithKey(Descending, v, r.0) == Sorting.WithKey(Descending, v, Unsorted(r.1))
  {
    Sorting.SortByStable(Descending, v, Unsorted(Turns(segs)));
  }

  /** The speakers with a turn are exactly the keys of the segments: every
      segment lands in a turn, and every turn is some segment's speaker. */
  lemma TurnSpeakers(segs: seq<Segment>)
    ensures forall x :: x in TurnIds(Turns(segs)) <==> exists j :: 0 <= j < |segs| && Key(segs[j]) == x
  {
    var runs := Runs(segs);
    TurnIdsOfRuns(segs);
    InFlatten(runs);
    RunKeys(segs, runs, TurnIds(Turns(segs)));
  }

  lemma TurnIdsOfRuns(segs: seq<Segment>)
    ensures |TurnIds(Turns(segs))| == |Runs(segs)|
    ensures forall i :: 0 <= i < |Runs(segs)| ==> TurnIds(Turns(segs))[i] == Key(Runs(segs)[i][0])
  {
  }

  lemma RunKeys(segs: seq<Segment>, runs: seq<seq<Segment>>, ids: seq<string>)
    requires MaximalRuns(segs, runs)
    requires forall x :: x in segs <==> exists i, k :: 0 <= i < |runs| && 0 <= k < |runs[i]| && runs[i][k] == x
    requires |ids| == |runs| && forall i :: 0 <= i < |runs| ==> ids[i] == Key(runs[i][0])
    ensures forall x :: x in ids <==> exists j :: 0 <= j < |segs| && Key(segs[j]) == x
  {
    forall x ensures x in ids <==> exists j :: 0 <= j < |segs| && Key(segs[j]) == x {
      if x in ids {
        var i :| 0 <= i < |ids| && ids[i] == x;
        assert runs[i][0] in segs;
      }
      if exists j :: 0 <= j < |segs| && Key(segs[j]) == x {
        var j :| 0 <= j < |segs| && Key(segs[j]) == x;
        assert segs[j] in segs;
        var i, k :| 0 <= i < |runs| && 0 <= k < |runs[i]| && runs[i][k] == segs[j];
        assert SameKey(runs[i]);
      }
    }
  }

  lemma {:induction false} InFlatten<T>(xss: seq<seq<T>>)
    ensures forall x :: x in Flatten(xss) <==> exists i, k :: 0 <= i < |xss| && 0 <= k < |xss[i]| && xss[i][k] == x
    decreases |xss|
  {
    if xss != [] {
      InFlatten(xss[1..]);
      assert Flatten(xss) == xss[0] + Flatten(xss[1..]);
      forall x ensures x in Flatten(xss) <==> exists i, k :: 0 <= i < |xss| && 0 <= k < |xss[i]| && xss[i][k] == x {
        if x in Flatten(xss[1..]) {
          var i, k :| 0 <= i < |xss[1..]| && 0 <= k < |xss[1..][i]| && xss[1..][i][k] == x;
          assert xss[i + 1][k] == x;
        }
        if exists i, k :: 0 <= i < |xss| && 0 <= k < |xss[i]| && xss[i][k] == x {
          var i, k :| 0 <= i < |xss| && 0 <= k < |xss[i]| && xss[i][k] == x;
          if i > 0 {
            assert xss[1..][i - 1][k] == x;
          }
        }
      }
    }
  }
}

=== FILE: plain_text.dfy ===
/** `parse_plain_text`: a transcript of free lines, each read by the first of
    four line patterns that matches it. A line that opens with a timestamp
    may carry its speaker as a `Name:` prefix of the text; a cue ends where
    the next one starts, the last one 10 seconds after its start. */
module PlainText {
  import opened Wrappers
  import opened Text
  import opened LineSyntax
  import opened Timestamps
  import opened Speakers
  import opened Seqs
  import opened CueTiming

  /** A line as a pattern reads it: its start, its text and the speaker the
      pattern names, if any. */
  datatype Item = Item(start: int, text: string, speaker: Option<string>)

  /** How long the last cue is taken to last: nothing follows to end it. */
  const LastCueMs := 10 * MsPerSecond

  predicate IsOpen(c: char) {
    c == '[' || c == '('
  }

  predicate IsClose(c: char) {
    c == ']' || c == ')'
  }

  /** The characters the name of `Speaker [ts]: text` may not hold. */
  predicate IsBracket(c: char) {
    IsOpen(c) || IsClose(c)
  }

  /** Index of the first bracket at or after `i`. */
  function FirstBracket(s: string, i: nat): (r: Option<nat>)
    ensures r.Some? ==> i <= r.value < |s| && IsBracket(s[r.value])
    decreases |s| - i
  {
    if i >= |s| then None
    else if IsBracket(s[i]) then Some(i)
    else FirstBracket(s, i + 1)
  }

  /** `[\[\(]([\d:,.]+)[\]\)]` at `i`: the timestamp token and the index just
      past the closing bracket. The token run is maximal, since a closing
      bracket is not a timestamp character. */
  function Bracketed(s: string, i: nat): (r: Option<(string, nat)>)
    ensures r.Some? ==> r.value.0 != [] && i + 2 + |r.value.0| == r.value.1 <= |s|
  {
    if i < |s| && IsOpen(s[i]) then
      var n := StampRun(s, i + 1);
      if n > 0 && i + 1 + n < |s| && IsClose(s[i + 1 + n]) then Some((s[i + 1..i + 1 + n], i + 2 + n))
      else None
    else None
  }

  /** `:\s*(.+)$` at `i` on a line without newlines: the stripped rest, when
      anything follows the colon. */
  function ColonRest(s: string, i: nat): Option<string> {
    if i + 1 < |s| && s[i] == ':' then Some(Strip(s[i + 1..])) else None
  }

  /** Pattern 1, `^([A-Za-z][^[\]()]*?)\s*[\[\(]([\d:,.]+)[\]\)]:\s*(.+)$`:
      `Speaker [ts]: text`. The name runs up to the first bracket, which must
      open the timestamp; its stripped form is the speaker. */
  function SpeakerFirst(s: string): Option<Item> {
    if s == [] || !IsAsciiLetter(s[0]) then None
    else
      match FirstBracket(s, 0)
      case None => None
      case Some(p) =>
        if !IsOpen(s[p]) then None
        else
          match Bracketed(s, p)
          case None => None
          case Some((tok, q)) =>
            match ColonRest(s, q)
            case None => None
            case Some(text) => Some(Item(ParseTimestamp(tok), text, Some(Strip(s[..p]))))
  }

  /** Pattern 2, `^[\[\(]([\d:,.]+)[\]\)]\s*([A-Za-z][^:]*?):\s*(.+)$`:
      `[ts] Speaker: text`, the speaker running up to the first colon. */
  function TsSpeaker(s: string): Option<Item> {
    match Bracketed(s, 0)
    case None => None
    case Some((tok, q)) =>
      var w := q + SpaceRun(s, q);
      if w >= |s| || !IsAsciiLetter(s[w]) then None
      else
        match FindFrom(s, ':', w)
        case None => None
        case Some(c) =>
          match ColonRest(s, c)
          case None => None
          case Some(text) => Some(Item(ParseTimestamp(tok), text, Some(Strip(s[w..c]))))
  }

  /** The `Speaker: ` prefix looked for in the text of patterns 3 and 4,
      `^([A-Za-z][^:]*?):\s*(.+)$`, taken as a speaker only when it has at
      most four words. Gives the speaker and the remaining text. */
  function SpeakerInText(text: string): (r: (Option<string>, string))
    ensures r.0.Some? ==> r.0.value != [] && WordCount(r.0.value) <= 4
    ensures r.0.None? ==> r.1 == text
  {
    if text == [] || !IsAsciiLetter(text[0]) then (None, text)
    else
      match FindFrom(text, ':', 0)
      case None => (None, text)
      case Some(c) =>
        match ColonRest(text, c)
        case None => (None, text)
        case Some(rest) =>
          var who := Strip(text[..c]);
          assert text[0] in text[..c];
          if WordCount(who) <= 4 then (Some(who), rest) else (None, text)
  }

  /** An item whose text may still name its speaker. */
  function WithSpeakerInText(start: int, text: string): Item {
    var (who, rest) := SpeakerInText(text);
    Item(start, rest, who)
  }

  /** Pattern 3, `^[\[\(]([\d:,.]+)[\]\)]\s*(.+)$`: `[ts] text`. */
  function TsOnly(s: string): Option<Item> {
    match Bracketed(s, 0)
    case None => None
    case Some((tok, q)) =>
      if q < |s| then Some(WithSpeakerInText(ParseTimestamp(tok), Strip(s[q..]))) else None
  }

  /** The last colon inside the timestamp run, at an index from 1 to `k`,
      with something after it: where `([\d:,.]+)` gives back characters so
      that `[-:]` can match a colon of its own run. */
  function ColonBack(s: string, k: nat): (r: Option<nat>)
    requires k < |s|
    ensures r.Some? ==> 1 <= r.value <= k && s[r.value] == ':' && r.value + 1 < |s|
    decreases k
  {
    if k == 0 then None
    else if s[k] == ':' && k + 1 < |s| then Some(k)
    else ColonBack(s, k - 1)
  }

  /** Pattern 4, `^([\d:,.]+)\s*[-:]\s*(.+)$`: `ts - text` or `ts: text`. The
      whole timestamp run is tried first; failing that, the run gives back
      characters up to its last usable colon. */
  function TsDash(s: string): Option<Item> {
    var n := StampRun(s, 0);
    if n == 0 then None
    else
      var d := n + SpaceRun(s, n);
      if d + 1 < |s| && (s[d] == '-' || s[d] == ':') then
        Some(WithSpeakerInText(ParseTimestamp(s[..n]), Strip(s[d + 1..])))
      else
        match ColonBack(s, n - 1)
        case None => None
        case Some(k) => Some(WithSpeakerInText(ParseTimestamp(s[..k]), Strip(s[k + 1..])))
  }

  /** One line: stripped, skipped when blank, else read by the first pattern
      that matches. */
  function ParseLine(line: string): Option<Item> {
    var s := Strip(line);
    if s == [] then None
    else if SpeakerFirst(s).Some? then SpeakerFirst(s)
    else if TsSpeaker(s).Some? then TsSpeaker(s)
    else if TsOnly(s).Some? then TsOnly(s)
    else TsDash(s)
  }

  function Lines(content: string): seq<string> {
    Split(Strip(content), '\n')
  }

  /** The items of the lines some pattern reads, in order. */
  function Items(lines: seq<string>): seq<Item> {
    FilterMap(ParseLine, lines)
  }

  /** Where the `k`th item ends: at the next item's start, or 10 seconds
      after its own start for the last one. */
  function EndOf(items: seq<Item>, k: nat): int
    requires k < |items|
  {
    if k + 1 < |items| then items[k + 1].start else items[k].start + LastCueMs
  }

  function WithEnds(items: seq<Item>): (r: seq<RawSegment>)
    ensures |r| == |items|
  {
    seq(|items|, k requires 0 <= k < |items| => RawSegment(items[k].start, EndOf(items, k), items[k].text, items[k].speaker))
  }

  function ParsePlainTextRaw(content: string): seq<RawSegment> {
    WithEnds(Items(Lines(content)))
  }

  /** `parse_plain_text`: the segments with their speaker ids. */
  function ParsePlainText(content: string): (r: seq<Segment>)
    ensures |r| == |ParsePlainTextRaw(content)|
  {
    AssignIds(ParsePlainTextRaw(content))
  }

  // ---------------------------------------------------------------------------
  // End times and skipped lines

  /** Each segment ends where the next one starts; the last one lasts 10
      seconds; and there is one segment per item. */
  lemma EndsChain(content: string)
    ensures |ParsePlainTextRaw(content)| == |Items(Lines(content))|
    ensures forall k :: 0 <= k < |ParsePlainTextRaw(content)| - 1 ==>
      ParsePlainTextRaw(content)[k].end == ParsePlainTextRaw(content)[k + 1].start
    ensures ParsePlainTextRaw(content) != [] ==>
      var r := ParsePlainTextRaw(content);
      r[|r| - 1].end == r[|r| - 1].start + LastCueMs
  {
    WithEndsChain(Items(Lines(content)));
  }

  lemma WithEndsChain(items: seq<Item>)
    ensures forall k :: 0 <= k < |WithEnds(items)| - 1 ==> WithEnds(items)[k].end == WithEnds(items)[k + 1].start
    ensures WithEnds(items) != [] ==>
      var r := WithEnds(items);
      r[|r| - 1].end == r[|r| - 1].start + LastCueMs
  {
  }

  /** A line no pattern reads leaves no segment behind: the items are those of
      the other lines. */
  lemma UnreadLineSkipped(before: seq<string>, line: string, after: seq<string>)
    requires ParseLine(line).None?
    ensures Items(before + [line] + after) == Items(before + after)
  {
    FilterMapSkip(ParseLine, before, line, after);
  }

  /** Blank lines are never read. */
  lemma BlankLineUnread(line: string)
    requires IsBlank(line)
    ensures ParseLine(line).None?
  {
  }

  // ---------------------------------------------------------------------------
  // Which pattern reads which line

  lemma NoLetterNoSpeakerFirst(s: string)
    requires s == [] || !IsAsciiLetter(s[0])
    ensures SpeakerFirst(s).None?
  {
  }

  lemma NoBracketNoTs(s: string)
    requires s == [] || !IsOpen(s[0])
    ensures TsSpeaker(s).None? && TsOnly(s).None?
  {
    assert Bracketed(s, 0).None?;
  }

  lemma NoStampNoDash(s: string)
    requires s == [] || !IsStampChar(s[0])
    ensures TsDash(s).None?
  {
    assert StampRun(s, 0) == 0;
  }

  /** `[ts] text` reads any bracketed timestamp followed by something. */
  lemma TsOnlyReads(s: string)
    requires Bracketed(s, 0).Some? && Bracketed(s, 0).value.1 < |s|
    ensures TsOnly(s).Some?
  {
  }

  /** A line opening with a letter can only be `Speaker [ts]: text`. */
  lemma LetterLine(line: string)
    requires Strip(line) != [] && IsAsciiLetter(Strip(line)[0])
    ensures ParseLine(line) == SpeakerFirst(Strip(line))
  {
    var s := Strip(line);
    NoBracketNoTs(s);
    NoStampNoDash(s);
  }

  /** A line opening with a bracket is `[ts] Speaker: text` when that pattern
      matches and `[ts] text` otherwise; a bracketed timestamp followed by
      anything at all is always read. */
  lemma BracketLine(line: string)
    requires Strip(line) != [] && IsOpen(Strip(line)[0])
    ensures ParseLine(line) == if TsSpeaker(Strip(line)).Some? then TsSpeaker(Strip(line)) else TsOnly(Strip(line))
    ensures Bracketed(Strip(line), 0).Some? && Bracketed(Strip(line), 0).value.1 < |Strip(line)| ==> ParseLine(line).Some?
  {
    var s := Strip(line);
    NoLetterNoSpeakerFirst(s);
    NoStampNoDash(s);
    if Bracketed(s, 0).Some? && Bracketed(s, 0).value.1 < |s| {
      TsOnlyReads(s);
    }
  }

  /** A line opening with a timestamp character is `ts - text` or nothing. */
  lemma StampLine(line: string)
    requires Strip(line) != [] && IsStampChar(Strip(line)[0])
    ensures ParseLine(line) == TsDash(Strip(line))
  {
    var s := Strip(line);
    NoLetterNoSpeakerFirst(s);
    NoBracketNoTs(s);
  }

  /** Every line that is read opens with a letter, an opening bracket or a
      timestamp character. */
  lemma ReadLineOpening(line: string)
    requires ParseLine(line).Some?
    ensures Strip(line) != []
    ensures IsAsciiLetter(Strip(line)[0]) || IsOpen(Strip(line)[0]) || IsStampChar(Strip(line)[0])
  {
    var s := Strip(line);
    if s != [] && !IsAsciiLetter(s[0]) && !IsOpen(s[0]) && !IsStampChar(s[0]) {
      NoLetterNoSpeakerFirst(s);
      NoBracketNoTs(s);
      NoStampNoDash(s);
    }
  }

  /** A `Name:` prefix is taken as the speaker exactly when it has at most
      four words; the text is then what follows the colon. */
  lemma SpeakerPrefix(text: string, name: string, rest: string)
    requires name != [] && IsAsciiLetter(name[0]) && ':' !in name && !IsSpace(name[|name| - 1])
    requires rest != [] && !IsSpace(rest[0]) && !IsSpace(rest[|rest| - 1])
    requires text == name + ": " + rest
    ensures SpeakerInText(text) == if WordCount(name) <= 4 then (Some(name), rest) else (None, text)
  {
    PrefixFacts(text, name, rest);
    SpeakerInTextSteps(text, |name|, name, rest);
  }

  lemma PrefixFacts(text: string, name: string, rest: string)
    requires name != [] && IsAsciiLetter(name[0]) && ':' !in name && !IsSpace(name[|name| - 1])
    requires rest != [] && !IsSpace(rest[0]) && !IsSpace(rest[|rest| - 1])
    requires text == name + ": " + rest
    ensures text != [] && IsAsciiLetter(text[0])
    ensures FindFrom(text, ':', 0) == Some(|name|) && ColonRest(text, |name|) == Some(rest)
    ensures Strip(text[..|name|]) == name
  {
    ColonLineSplitsAt(text, name, rest);
    StripUnchanged(name);
    StripSpaceHead(rest);
  }

  lemma SpeakerInTextSteps(text: string, c: nat, name: string, rest: string)
    requires text != [] && IsAsciiLetter(text[0]) && c <= |text|
    requires FindFrom(text, ':', 0) == Some(c) && ColonRest(text, c) == Some(rest)
    requires Strip(text[..c]) == name
    ensures SpeakerInText(text) == if WordCount(name) <= 4 then (Some(name), rest) else (None, text)
  {
  }

  lemma ColonLineSplitsAt(v: string, name: string, rest: string)
    requires name != [] && ':' !in name && rest != []
    requires v == name + ": " + rest
    ensures FindFrom(v, ':', 0) == Some(|name|)
    ensures v[..|name|] == name && v[|name| + 1..] == [' '] + rest
  {
    assert forall j :: 0 <= j < |name| ==> v[j] == name[j];
    FindFromExact(v, ':', 0, |name|);
    assert v[|name| + 1..] == [' '] + rest;
  }

  // ---------------------------------------------------------------------------
  // Writing remarks as `Speaker [HH:MM:SS]: text` lines and reading them back

  /** A remark: who said what, at a whole second. */
  datatype Remark = Remark(start: nat, name: string, text: string)

  /** A remark that one line can carry: the name opens with a letter and holds
      no bracket, the text is bare, and the time renders in two-digit hours. */
  predicate Writable(r: Remark) {
    && r.start < 360000
    && r.name != [] && IsAsciiLetter(r.name[0]) && !IsSpace(r.name[|r.name| - 1]) && '\n' !in r.name
    && (forall j :: 0 <= j < |r.name| ==> !IsBracket(r.name[j]))
    && Bare(r.text)
  }

  function RemarkLine(r: Remark): string {
    r.name + " [" + SecondsToTimestamp(r.start * MsPerSecond) + "]: " + r.text
  }

  function RenderPlain(rs: seq<Remark>): string {
    Join(Map(RemarkLine, rs), "\n")
  }

  function RemarkItem(r: Remark): Item {
    Item(r.start * MsPerSecond, r.text, Some(r.name))
  }

  lemma FirstBracketExact(s: string, i: nat, k: nat)
    requires i <= k < |s| && IsBracket(s[k])
    requires forall j :: i <= j < k ==> !IsBracket(s[j])
    ensures FirstBracket(s, i) == Some(k)
    decreases k - i
  {
    if i < k {
      FirstBracketExact(s, i + 1, k);
    }
  }

  /** `name [tok]: text` is read by the first pattern as the name, the token's
      time and the text. */
  lemma SpeakerFirstOf(s: string, name: string, tok: string, text: string)
    requires name != [] && IsAsciiLetter(name[0]) && !IsSpace(name[|name| - 1])
    requires forall j :: 0 <= j < |name| ==> !IsBracket(name[j])
    requires tok != [] && forall j :: 0 <= j < |tok| ==> IsStampChar(tok[j])
    requires text != [] && !IsSpace(text[0]) && !IsSpace(text[|text| - 1])
    requires s == name + " [" + tok + "]: " + text
    ensures SpeakerFirst(s) == Some(Item(ParseTimestamp(tok), text, Some(name)))
  {
    NameThenBracket(s, name, tok, text);
    SpeakerFirstOfParts(s, name, tok, text);
  }

  lemma SpeakerFirstOfParts(s: string, name: string, tok: string, text: string)
    requires name != [] && IsAsciiLetter(name[0]) && !IsSpace(name[|name| - 1])
    requires tok != [] && forall j :: 0 <= j < |tok| ==> IsStampChar(tok[j])
    requires text != [] && !IsSpace(text[0]) && !IsSpace(text[|text| - 1])
    requires |s| == |name| + |tok| + |text| + 5 && s[0] == name[0]
    requires FirstBracket(s, 0) == Some(|name| + 1) && s[|name| + 1] == '['
    requires s[..|name| + 1] == name + [' ']
    requires s[|name| + 2..|name| + 2 + |tok|] == tok && s[|name| + 2 + |tok|] == ']'
    requires s[|name| + 3 + |tok|..] == ": " + text
    ensures SpeakerFirst(s) == Some(Item(ParseTimestamp(tok), text, Some(name)))
  {
    var p: nat := |name| + 1;
    var q: nat := p + 2 + |tok|;
    PartsFacts(s, name, tok, text, p, q);
    SpeakerFirstSteps(s, p, tok, q, text, name);
  }

  lemma PartsFacts(s: string, name: string, tok: string, text: string, p: nat, q: nat)
    requires name != [] && IsAsciiLetter(name[0]) && !IsSpace(name[|name| - 1])
    requires tok != [] && forall j :: 0 <= j < |tok| ==> IsStampChar(tok[j])
    requires text != [] && !IsSpace(text[0]) && !IsSpace(text[|text| - 1])
    requires p == |name| + 1 && q == p + 2 + |tok|
    requires |s| == |name| + |tok| + |text| + 5 && s[0] == name[0] && s[p] == '['
    requires s[..p] == name + [' ']
    requires s[p + 1..p + 1 + |tok|] == tok && s[p + 1 + |tok|] == ']'
    requires s[q..] == ": " + text
    ensures s != [] && IsAsciiLetter(s[0]) && p < |s| && IsOpen(s[p])
    ensures Bracketed(s, p) == Some((tok, q)) && ColonRest(s, q) == Some(text)
    ensures Strip(s[..p]) == name
  {
    BracketedTok(s, p, tok, q);
    ColonRestOf(s, q, text);
    NameOfPrefix(s, p, name);
  }

  lemma NameOfPrefix(s: string, p: nat, name: string)
    requires name != [] && !IsSpace(name[0]) && !IsSpace(name[|name| - 1])
    requires p <= |s| && s[..p] == name + [' ']
    ensures Strip(s[..p]) == name
  {
    StripSpaceTail(name);
  }

  lemma NameThenBracket(s: string, name: string, tok: string, text: string)
    requires name != []
    requires forall j :: 0 <= j < |name| ==> !IsBracket(name[j])
    requires s == name + " [" + tok + "]: " + text
    ensures |s| == |name| + |tok| + |text| + 5 && s[0] == name[0]
    ensures FirstBracket(s, 0) == Some(|name| + 1) && s[|name| + 1] == '['
    ensures s[..|name| + 1] == name + [' ']
    ensures s[|name| + 2..|name| + 2 + |tok|] == tok && s[|name| + 2 + |tok|] == ']'
    ensures s[|name| + 3 + |tok|..] == ": " + text
  {
    assert forall j :: 0 <= j < |name| ==> s[j] == name[j];
    assert s[|name|] == ' ';
    FirstBracketExact(s, 0, |name| + 1);
  }

  lemma BracketedTok(s: string, p: nat, tok: string, q: nat)
    requires tok != [] && forall j :: 0 <= j < |tok| ==> IsStampChar(tok[j])
    requires q == p + 2 + |tok| <= |s| && s[p] == '['
    requires s[p + 1..p + 1 + |tok|] == tok && s[p + 1 + |tok|] == ']'
    ensures Bracketed(s, p) == Some((tok, q))
  {
    assert forall j :: 0 <= j < |tok| ==> s[p + 1 + j] == tok[j];
    StampRunExact(s, p + 1, |tok|);
  }

  lemma ColonRestOf(s: string, q: nat, text: string)
    requires text != [] && !IsSpace(text[0]) && !IsSpace(text[|text| - 1])
    requires q <= |s| && s[q..] == ": " + text
    ensures ColonRest(s, q) == Some(text)
  {
    assert s[q] == ':' && s[q + 1..] == [' '] + text;
    StripSpaceHead(text);
  }

  lemma SpeakerFirstSteps(s: string, p: nat, tok: string, q: nat, text: string, name: string)
    requires s != [] && IsAsciiLetter(s[0]) && p < |s|
    requires FirstBracket(s, 0) == Some(p) && IsOpen(s[p])
    requires Bracketed(s, p) == Some((tok, q)) && ColonRest(s, q) == Some(text)
    requires Strip(s[..p]) == name
    ensures SpeakerFirst(s) == Some(Item(ParseTimestamp(tok), text, Some(name)))
  {
  }

  /** A remark's line reads back as its item. */
  lemma RemarkLineParses(r: Remark)
    requires Writable(r)
    ensures ParseLine(RemarkLine(r)) == Some(RemarkItem(r))
  {
    var tok := SecondsToTimestamp(r.start * MsPerSecond);
    var line := RemarkLine(r);
    RenderedStamp(r.start * MsPerSecond);
    RoundTripSeconds(r.start);
    RemarkLineEnds(line, r.name, tok, r.text);
    SpeakerFirstOf(line, r.name, tok, r.text);
  }

  lemma RemarkLineEnds(line: string, name: string, tok: string, text: string)
    requires name != [] && text != [] && line == name + " [" + tok + "]: " + text
    ensures line[0] == name[0] && line[|line| - 1] == text[|text| - 1]
  {
  }

  /** The line of a writable remark holds no newline and has no whitespace at
      either end. */
  lemma RemarkLineBare(r: Remark)
    requires Writable(r)
    ensures Bare(RemarkLine(r))
  {
    var tok := SecondsToTimestamp(r.start * MsPerSecond);
    RenderedStamp(r.start * MsPerSecond);
    RemarkLineEnds(RemarkLine(r), r.name, tok, r.text);
    NoNewlineOfParts(RemarkLine(r), r.name, tok, r.text);
  }

  lemma NoNewlineOfParts(line: string, name: string, tok: string, text: string)
    requires '\n' !in name && '\n' !in text && forall j :: 0 <= j < |tok| ==> IsStampChar(tok[j])
    requires line == name + " [" + tok + "]: " + text
    ensures '\n' !in line
  {
    assert forall j :: 0 <= j < |tok| ==> tok[j] != '\n';
  }

  lemma RenderedLines(rs: seq<Remark>)
    requires rs != [] && forall k :: 0 <= k < |rs| ==> Writable(rs[k])
    ensures Lines(RenderPlain(rs)) == Map(RemarkLine, rs)
  {
    var lines := Map(RemarkLine, rs);
    forall k | 0 <= k < |lines| ensures Bare(lines[k]) {
      RemarkLineBare(rs[k]);
    }
    BareLinesSplit(RenderPlain(rs), lines);
  }

  /** Bare lines joined with newlines are what reading the document splits. */
  lemma BareLinesSplit(doc: string, lines: seq<string>)
    requires lines != [] && forall k :: 0 <= k < |lines| ==> Bare(lines[k])
    requires doc == Join(lines, "\n")
    ensures Lines(doc) == lines
  {
    JoinEnds(lines, "\n");
    StripUnchanged(doc);
    SplitJoin(lines, '\n');
  }

  /** Writing remarks as lines and reading the document back gives each
      remark's time, text and speaker, each ending where the next starts. */
  lemma RenderParse(rs: seq<Remark>)
    requires forall k :: 0 <= k < |rs| ==> Writable(rs[k])
    ensures ParsePlainTextRaw(RenderPlain(rs)) == WithEnds(Map(RemarkItem, rs))
  {
    if rs == [] {
      assert RenderPlain(rs) == [];
      assert Lines([]) == [[]];
      assert Items([[]]) == FilterMap(ParseLine, [[]][1..]);
    } else {
      var lines := Map(RemarkLine, rs);
      var items := Map(RemarkItem, rs);
      RenderedLines(rs);
      forall k | 0 <= k < |lines| ensures ParseLine(lines[k]) == Some(items[k]) {
        RemarkLineParses(rs[k]);
      }
      FilterMapEach(ParseLine, lines, items);
    }
  }
}

=== FILE: questions.dfy ===
/** `classify_question`: whether a transcript line is a question, and which
    kind. The classification patterns are anchored openings (`^(a|b|...)`)
    or unanchored phrases (`(a|b|...)`) over literals, so each reduces to a
    prefix or a substring test on the lower-cased, stripped text. */
module Questions {
  import opened Wrappers
  import opened Text

  datatype QuestionType = Clarifying | OpenDiscovery | ClosedConfirmation | Rhetorical

  /** `CLARIFYING_PATTERNS`, all unanchored. */
  const ClarifyingPhrases: seq<string> := [
    "what do you mean", "could you clarify", "can you elaborate",
    "did you say", "are you saying", "do you mean",
    "sorry", "pardon", "excuse me", "come again"
  ]

  /** The anchored half of `OPEN_DISCOVERY_PATTERNS`. */
  const OpenOpenings: seq<string> := [
    "what", "how", "why", "tell me", "describe", "explain", "walk me through",
    "can you tell", "could you explain", "would you describe"
  ]

  /** The unanchored half of `OPEN_DISCOVERY_PATTERNS`. */
  const OpenPhrases: seq<string> := [
    "what does", "what do you", "what are", "what is your",
    "how does", "how do you", "how are"
  ]

  /** The anchored part of `CLOSED_CONFIRMATION_PATTERNS`. */
  const ClosedOpenings: seq<string> := [
    "is it", "are you", "do you", "does it", "can you", "will you", "would you",
    "have you", "has it", "did you",
    "so you're saying", "so it's", "so this"
  ]

  /** The unanchored part of `CLOSED_CONFIRMATION_PATTERNS`. */
  const ClosedPhrases: seq<string> := ["right?", "correct?", "yes?", "no?"]

  /** Some phrase of the list occurs in `s`. */
  predicate AnyContained(s: string, phrases: seq<string>) {
    exists i :: 0 <= i < |phrases| && Contains(s, phrases[i])
  }

  /** `s` opens with some phrase of the list. */
  predicate AnyOpening(s: string, phrases: seq<string>) {
    exists i :: 0 <= i < |phrases| && StartsWith(s, phrases[i])
  }

  /** The patterns of one kind match `s`; the fallback kind always does. */
  predicate Fits(s: string, t: QuestionType) {
    match t
    case Clarifying => AnyContained(s, ClarifyingPhrases)
    case OpenDiscovery => AnyOpening(s, OpenOpenings) || AnyContained(s, OpenPhrases)
    case ClosedConfirmation => AnyOpening(s, ClosedOpenings) || AnyContained(s, ClosedPhrases)
    case Rhetorical => true
  }

  /** The order in which the kinds are tried. */
  function Rank(t: QuestionType): (n: nat)
    ensures n < 4
  {
    match t
    case Clarifying => 0
    case OpenDiscovery => 1
    case ClosedConfirmation => 2
    case Rhetorical => 3
  }

  /** What the patterns see: `text.lower().strip()`. */
  function Normal(text: string): string {
    Strip(Lower(text))
  }

  /** `classify_question`: `None` for a text without a question mark, else the
      first kind, in `Rank` order, whose patterns match. */
  function ClassifyQuestion(text: string): (r: Option<QuestionType>)
    ensures r.None? <==> '?' !in text
    ensures r.Some? ==> Fits(Normal(text), r.value)
  {
    var s := Normal(text);
    if '?' !in text then None
    else if Fits(s, Clarifying) then Some(Clarifying)
    else if Fits(s, OpenDiscovery) then Some(OpenDiscovery)
    else if Fits(s, ClosedConfirmation) then Some(ClosedConfirmation)
    else Some(Rhetorical)
  }

  /** A question gets the earliest-tried kind whose patterns match, and only
      that one: no kind tried before it matches, and any kind with that
      property is the one reported. */
  lemma ClassifyPrecedence(text: string, t: QuestionType)
    requires '?' in text
    ensures ClassifyQuestion(text) == Some(t) <==>
      Fits(Normal(text), t) && forall u :: Rank(u) < Rank(t) ==> !Fits(Normal(text), u)
  {
  }

  /** Clarifying wins over an open opening: a question that opens with
      "what do you mean" also opens like a discovery question, but is
      reported as clarifying. */
  lemma ClarifyingFirst(text: string)
    requires '?' in text && StartsWith(Normal(text), "what do you mean")
    ensures Fits(Normal(text), OpenDiscovery)
    ensures ClassifyQuestion(text) == Some(Clarifying)
  {
    WhatDoYouMean(Normal(text));
  }

  lemma WhatDoYouMean(s: string)
    requires StartsWith(s, "what do you mean")
    ensures Fits(s, OpenDiscovery) && Fits(s, Clarifying)
  {
    assert s[..4] == "what";
    assert StartsWith(s, OpenOpenings[0]);
    assert Contains(s, ClarifyingPhrases[0]);
  }
}

=== FILE: review.dfy ===
/** `generate_call_review` and `generate_health_indicators`: counts over the
    analysis of an index, and the health verdicts derived from them. */
module Review {
  import opened Wrappers
  import opened Seqs
  import opened Rounding
  import opened Cues
  import opened Questions
  import opened Analysis
  import Video
  import Metrics

  /** The `--call-type` choices. */
  datatype CallType = Discovery | Demo | Checkin

  /** `questions_asked`: `by_type` counts each type in order of first use. */
  datatype QuestionReport = QuestionReport(total: nat, byType: seq<(QuestionType, nat)>, details: seq<Question>)

  /** `pain_points_identified`, `objections_detected` and `buying_signals`. */
  datatype CueReport = CueReport(total: nat, highConfidence: nat, details: seq<Detected>)

  /** `action_items`, which has no confidence count. */
  datatype ActionReport = ActionReport(total: nat, details: seq<Detected>)

  /** `summary.key_metrics`. */
  datatype KeyMetrics = KeyMetrics(
    durationMinutes: real,
    totalSpeakers: nat,
    totalTurns: nat,
    questionsAsked: nat,
    painPointsFound: nat,
    objectionsRaised: nat,
    buyingSignalsDetected: nat,
    actionItemsIdentified: nat)

  /** The `status` of a health indicator. */
  datatype Status = Good | NeedsAttention | Moderate | AttentionNeeded | Positive

  /** `call_health_indicators`: every indicator but `next_steps` may be absent. */
  datatype Health = Health(
    talkRatio: Option<Status>,
    questionQuality: Option<Status>,
    painDiscovery: Option<Status>,
    objections: Option<Status>,
    buyingIntent: Option<Status>,
    nextSteps: Status)

  /** The call review, without the video file name and the analysis version
      it echoes. */
  datatype CallReview = CallReview(
    durationSeconds: real,
    callType: CallType,
    speakerAnalysis: Video.SpeakerAnalysis,
    questions: QuestionReport,
    painPoints: CueReport,
    objections: CueReport,
    buyingSignals: CueReport,
    actionItems: ActionReport,
    totalFrames: nat,
    keyMetrics: KeyMetrics,
    health: Health)

  // ---------------------------------------------------------------------------
  // Counting

  /** How many questions in `qs` have type `t`. */
  function CountOf(qs: seq<Question>, t: QuestionType): (n: nat)
    ensures n <= |qs|
  {
    if qs == [] then 0
    else CountOf(qs[..|qs| - 1], t) + (if qs[|qs| - 1].questionType == t then 1 else 0)
  }

  /** How many detections in `ds` have high confidence. */
  function HighCount(ds: seq<Detected>): (n: nat)
    ensures n <= |ds|
  {
    if ds == [] then 0
    else HighCount(ds[..|ds| - 1]) + (if ds[|ds| - 1].confidence == High then 1 else 0)
  }

  function Amount(e: (QuestionType, nat)): int {
    e.1
  }

  /** The position of `t` among the keys of the tally. */
  function KeyIndex(tally: seq<(QuestionType, nat)>, t: QuestionType): (r: Option<nat>)
    ensures r.Some? ==> r.value < |tally| && tally[r.value].0 == t
    ensures r.None? ==> forall j :: 0 <= j < |tally| ==> tally[j].0 != t
  {
    if tally == [] then None
    else if tally[|tally| - 1].0 == t then Some(|tally| - 1)
    else KeyIndex(tally[..|tally| - 1], t)
  }

  /** `question_counts[t] = question_counts.get(t, 0) + 1`. */
  function Bump(tally: seq<(QuestionType, nat)>, t: QuestionType): seq<(QuestionType, nat)> {
    match KeyIndex(tally, t)
    case Some(j) => tally[j := (t, tally[j].1 + 1)]
    case None => tally + [(t, 1)]
  }

  /** The `question_counts` loop. */
  function ByType(qs: seq<Question>): seq<(QuestionType, nat)> {
    if qs == [] then [] else Bump(ByType(qs[..|qs| - 1]), qs[|qs| - 1].questionType)
  }

  /** No type is listed twice. */
  predicate DistinctKeys(tally: seq<(QuestionType, nat)>) {
    forall a, b :: 0 <= a < b < |tally| ==> tally[a].0 != tally[b].0
  }

  /** Each listed type carries its count, and a type is listed exactly when
      some question has it. */
  predicate Tallies(tally: seq<(QuestionType, nat)>, qs: seq<Question>) {
    && (forall j :: 0 <= j < |tally| ==> tally[j].1 == CountOf(qs, tally[j].0))
    && (forall t :: KeyIndex(tally, t).Some? <==> CountOf(qs, t) > 0)
  }

  /** `by_type` lists each type that occurs once, with its number of
      questions, and the counts add up to the number of questions. */
  lemma {:induction false} ByTypeSpec(qs: seq<Question>)
    ensures DistinctKeys(ByType(qs))
    ensures Tallies(ByType(qs), qs)
    ensures SumOf(Amount, ByType(qs)) == |qs|
  {
    if qs != [] {
      var init := qs[..|qs| - 1];
      var q := qs[|qs| - 1];
      assert qs == init + [q];
      ByTypeSpec(init);
      BumpSpec(ByType(init), init, q);
    }
  }

  lemma BumpSpec(tally: seq<(QuestionType, nat)>, init: seq<Question>, q: Question)
    requires DistinctKeys(tally) && Tallies(tally, init) && SumOf(Amount, tally) == |init|
    ensures var qs := init + [q];
      && DistinctKeys(Bump(tally, q.questionType))
      && Tallies(Bump(tally, q.questionType), qs)
      && SumOf(Amount, Bump(tally, q.questionType)) == |qs|
  {
    var t := q.questionType;
    CountSnoc(init, q);
    match KeyIndex(tally, t)
    case Some(j) =>
      SumOfUpdate(Amount, tally, j, (t, tally[j].1 + 1));
      BumpedKeys(tally, j, t);
      BumpedTallies(tally, init, q, j);
    case None =>
      SumOfAppend(Amount, tally, (t, 1));
      AppendedKeys(tally, t);
      AppendedTallies(tally, init, q);
  }

  lemma CountSnoc(init: seq<Question>, q: Question)
    ensures forall u :: CountOf(init + [q], u) == CountOf(init, u) + (if u == q.questionType then 1 else 0)
  {
    assert (init + [q])[..|init|] == init;
  }

  lemma BumpedTallies(tally: seq<(QuestionType, nat)>, init: seq<Question>, q: Question, j: nat)
    requires DistinctKeys(tally) && Tallies(tally, init)
    requires j < |tally| && tally[j].0 == q.questionType
    requires forall u :: CountOf(init + [q], u) == CountOf(init, u) + (if u == q.questionType then 1 else 0)
    requires forall u :: KeyIndex(tally[j := (q.questionType, tally[j].1 + 1)], u).Some? <==> KeyIndex(tally, u).Some?
    ensures DistinctKeys(tally[j := (q.questionType, tally[j].1 + 1)])
    ensures Tallies(tally[j := (q.questionType, tally[j].1 + 1)], init + [q])
  {
  }

  lemma AppendedTallies(tally: seq<(QuestionType, nat)>, init: seq<Question>, q: Question)
    requires DistinctKeys(tally) && Tallies(tally, init)
    requires KeyIndex(tally, q.questionType).None?
    requires forall u :: CountOf(init + [q], u) == CountOf(init, u) + (if u == q.questionType then 1 else 0)
    requires forall u :: KeyIndex(tally + [(q.questionType, 1)], u).Some? <==> KeyIndex(tally, u).Some? || u == q.questionType
    ensures DistinctKeys(tally + [(q.questionType, 1)])
    ensures Tallies(tally + [(q.questionType, 1)], init + [q])
  {
    var t := q.questionType;
    assert CountOf(init, t) == 0;
  }

  lemma BumpedKeys(tally: seq<(QuestionType, nat)>, j: nat, t: QuestionType)
    requires j < |tally| && tally[j].0 == t
    ensures forall u :: KeyIndex(tally[j := (t, tally[j].1 + 1)], u).Some? <==> KeyIndex(tally, u).Some?
  {
    var b := tally[j := (t, tally[j].1 + 1)];
    forall u ensures KeyIndex(b, u).Some? <==> KeyIndex(tally, u).Some? {
      if KeyIndex(tally, u).Some? {
        assert b[KeyIndex(tally, u).value].0 == u;
      }
      if KeyIndex(b, u).Some? {
        assert tally[KeyIndex(b, u).value].0 == u;
      }
    }
  }

  lemma AppendedKeys(tally: seq<(QuestionType, nat)>, t: QuestionType)
    ensures forall u :: KeyIndex(tally + [(t, 1)], u).Some? <==> KeyIndex(tally, u).Some? || u == t
  {
    var b := tally + [(t, 1)];
    assert b[..|b| - 1] == tally;
  }

  // ---------------------------------------------------------------------------
  // Health

  /** The highest talk-time percentage: what the source reads from the first
      speaker after sorting by it, descending. */
  function TopPct(speakers: seq<Metrics.SpeakerMetrics>): (top: real)
    requires speakers != []
    ensures forall j :: 0 <= j < |speakers| ==> speakers[j].talkPct <= top
    ensures exists j :: 0 <= j < |speakers| && speakers[j].talkPct == top
  {
    if |speakers| == 1 then speakers[0].talkPct
    else
      var rest := TopPct(speakers[1..]);
      assert forall j :: 1 <= j < |speakers| ==> speakers[j] == speakers[1..][j - 1];
      if speakers[0].talkPct >= rest then speakers[0].talkPct
      else
        var j :| 0 <= j < |speakers[1..]| && speakers[1..][j].talkPct == rest;
        assert speakers[j + 1].talkPct == rest;
        rest
  }

  /** How many questions are open discovery questions. */
  function OpenCount(qs: seq<Question>): nat {
    CountOf(qs, OpenDiscovery)
  }

  /** `generate_health_indicators`. */
  function HealthIndicators(a: Analysis, speakers: seq<Metrics.SpeakerMetrics>, callType: CallType): Health {
    var talk :=
      if |speakers| < 2 then None
      else match callType
        case Discovery => Some(if TopPct(speakers) < 40.0 then NeedsAttention else Good)
        case Demo => Some(Good)
        case Checkin => None;
    var qs := a.questions;
    var quality :=
      if qs == [] then None
      else
        var openRatio := OpenCount(qs) as real / |qs| as real;
        Some(if callType == Discovery && openRatio < 0.4 then NeedsAttention else Good);
    var pains := |a.painPoints|;
    var pain :=
      if callType != Discovery then None
      else if pains == 0 then Some(NeedsAttention)
      else if pains >= 2 then Some(Good)
      else Some(Moderate);
    Health(
      talk,
      quality,
      pain,
      if a.objections != [] then Some(AttentionNeeded) else None,
      if a.buyingSignals != [] then Some(Positive) else None,
      if a.actionItems != [] then Good else NeedsAttention)
  }

  /** The talk-ratio indicator exists for discovery and demo calls with two
      or more speakers; a discovery call needs attention exactly when no
      speaker reaches 40 percent of the talk time, and a demo is always good. */
  lemma TalkRatioSpec(a: Analysis, speakers: seq<Metrics.SpeakerMetrics>, callType: CallType)
    ensures var h := HealthIndicators(a, speakers, callType);
      && (h.talkRatio.Some? <==> |speakers| >= 2 && callType != Checkin)
      && (h.talkRatio == Some(NeedsAttention) <==>
            callType == Discovery && |speakers| >= 2 && forall j :: 0 <= j < |speakers| ==> speakers[j].talkPct < 40.0)
      && (callType == Demo && |speakers| >= 2 ==> h.talkRatio == Some(Good))
  {
  }

  /** The question-quality indicator exists exactly when a question was
      asked, and needs attention exactly on a discovery call where fewer than
      two in five questions are open discovery questions. */
  lemma QuestionQualitySpec(a: Analysis, speakers: seq<Metrics.SpeakerMetrics>, callType: CallType)
    ensures var h := HealthIndicators(a, speakers, callType);
      && (h.questionQuality.Some? <==> a.questions != [])
      && (h.questionQuality == Some(NeedsAttention) <==>
            a.questions != [] && callType == Discovery && 5 * OpenCount(a.questions) < 2 * |a.questions|)
  {
    var qs := a.questions;
    if qs != [] {
      RatioBelow(OpenCount(qs), |qs|);
    }
  }

  /** `o / n < 0.4` on exact reals is `5 * o < 2 * n`. */
  lemma RatioBelow(o: nat, n: nat)
    requires n > 0
    ensures (o as real / n as real < 0.4) <==> 5 * o < 2 * n
  {
    var r := o as real / n as real;
    var m := n as real;
    assert r * m == o as real;
    if r < 0.4 {
      ScaleBelow(r, 0.4, m);
    } else {
      ScaleBelow(0.4, r, m);
    }
  }

  lemma ScaleBelow(a: real, b: real, c: real)
    requires a <= b && c > 0.0
    ensures a * c <= b * c && (a < b ==> a * c < b * c)
  {
  }

  /** The remaining indicators: pain discovery on discovery calls only, by
      the number of pain points; objections and buying intent exactly when
      there are some; next steps always, good exactly when there are action
      items. */
  lemma OtherIndicatorsSpec(a: Analysis, speakers: seq<Metrics.SpeakerMetrics>, callType: CallType)
    ensures var h := HealthIndicators(a, speakers, callType);
      && (h.painDiscovery.Some? <==> callType == Discovery)
      && (callType == Discovery ==>
            (h.painDiscovery == Some(NeedsAttention) <==> |a.painPoints| == 0)
            && (h.painDiscovery == Some(Moderate) <==> |a.painPoints| == 1)
            && (h.painDiscovery == Some(Good) <==> |a.painPoints| >= 2))
      && (h.objections == Some(AttentionNeeded) <==> a.objections != [])
      && (h.objections.Some? <==> a.objections != [])
      && (h.buyingIntent == Some(Positive) <==> a.buyingSignals != [])
      && (h.buyingIntent.Some? <==> a.buyingSignals != [])
      && (h.nextSteps == Good <==> a.actionItems != [])
      && (h.nextSteps != Good ==> h.nextSteps == NeedsAttention)
  {
  }

  // ---------------------------------------------------------------------------
  // The review

  function CueReportOf(ds: seq<Detected>): CueReport {
    CueReport(|ds|, HighCount(ds), ds)
  }

  /** `generate_call_review` on an index, analysing its frames. */
  function GenerateCallReview(ix: Video.Index, callType: CallType): CallReview {
    var a := Collect(Firsts(ix.frames));
    var sa := ix.speakerAnalysis;
    CallReview(
      ix.durationSeconds,
      callType,
      sa,
      QuestionReport(|a.questions|, ByType(a.questions), a.questions),
      CueReportOf(a.painPoints),
      CueReportOf(a.objections),
      CueReportOf(a.buyingSignals),
      ActionReport(|a.actionItems|, a.actionItems),
      |ix.frames|,
      KeyMetrics(
        Round(ix.durationSeconds / 60.0, 1),
        sa.totalSpeakers,
        sa.totalTurns,
        |a.questions|,
        |a.painPoints|,
        |a.objections|,
        |a.buyingSignals|,
        |a.actionItems|),
      HealthIndicators(a, sa.speakers, callType))
  }

  /** The review's numbers agree with each other: every total is the length
      of its details, confidence counts never exceed totals, the per-type
      question counts add up to the question total, and the key metrics
      repeat the totals and the index's speaker figures. */
  lemma ReviewCounts(ix: Video.Index, callType: CallType)
    ensures var r := GenerateCallReview(ix, callType);
      && r.questions.total == |r.questions.details|
      && SumOf(Amount, r.questions.byType) == r.questions.total
      && DistinctKeys(r.questions.byType)
      && r.painPoints.total == |r.painPoints.details| && r.painPoints.highConfidence <= r.painPoints.total
      && r.objections.total == |r.objections.details| && r.objections.highConfidence <= r.objections.total
      && r.buyingSignals.total == |r.buyingSignals.details| && r.buyingSignals.highConfidence <= r.buyingSignals.total
      && r.actionItems.total == |r.actionItems.details|
      && r.keyMetrics.questionsAsked == r.questions.total
      && r.keyMetrics.painPointsFound == r.painPoints.total
      && r.keyMetrics.objectionsRaised == r.objections.total
      && r.keyMetrics.buyingSignalsDetected == r.buyingSignals.total
      && r.keyMetrics.actionItemsIdentified == r.actionItems.total
      && r.keyMetrics.totalSpeakers == ix.speakerAnalysis.totalSpeakers
      && r.keyMetrics.totalTurns == ix.speakerAnalysis.totalTurns
      && r.totalFrames == |ix.frames|
  {
    ByTypeSpec(Collect(Firsts(ix.frames)).questions);
  }

  /** The review's question details are the analysed texts with a question
      mark, each with its classification, and the per-type counts are right. */
  lemma ReviewQuestions(ix: Video.Index, callType: CallType)
    ensures var r := GenerateCallReview(ix, callType);
      && Classified(r.questions.details)
      && Tallies(r.questions.byType, r.questions.details)
      && forall t :: Asks(r.questions.details, t) <==> Analysable(t) && ShownIn(ix.frames, t) && '?' in t
  {
    AnalyzeQuestions(ix.frames);
    ByTypeSpec(Collect(Firsts(ix.frames)).questions);
  }
}

=== FILE: rounding.dfy ===
/** Python's `round(x, n)` on exact reals: the nearest multiple of `10^-n`,
    ties going to the even neighbour. */
module Rounding {

  /** The nearest integer to `x`, ties to even (`round(x)`). */
  function RoundHalfEven(x: real): (n: int)
    ensures n as real - 0.5 <= x <= n as real + 0.5
    ensures (x == n as real - 0.5 || x == n as real + 0.5) ==> n % 2 == 0
  {
    var f := x.Floor;
    var d := x - f as real;
    if d < 0.5 then f
    else if d > 0.5 then f + 1
    else if f % 2 == 0 then f
    else f + 1
  }

  /** The two properties pin the result down: no other integer has both. */
  lemma RoundHalfEvenUnique(x: real, m: int)
    requires m as real - 0.5 <= x <= m as real + 0.5
    requires (x == m as real - 0.5 || x == m as real + 0.5) ==> m % 2 == 0
    ensures m == RoundHalfEven(x)
  {
  }

  function Pow10(places: nat): (p: real)
    ensures p >= 1.0
  {
    if places == 0 then 1.0 else 10.0 * Pow10(places - 1)
  }

  /** `x` in units of `10^-places`, rounded. */
  function Units(x: real, places: nat): int {
    RoundHalfEven(x * Pow10(places))
  }

  /** `round(x, places)`. */
  function Round(x: real, places: nat): (r: real)
    ensures -0.5 <= (r - x) * Pow10(places) <= 0.5
  {
    Units(x, places) as real / Pow10(places)
  }

  /** Rounding is monotone: a larger value never rounds to a smaller one. */
  lemma RoundHalfEvenMonotone(x: real, y: real)
    requires x <= y
    ensures RoundHalfEven(x) <= RoundHalfEven(y)
  {
  }

  /** An integer rounds to itself. */
  lemma RoundHalfEvenInt(n: int)
    ensures RoundHalfEven(n as real) == n
  {
    RoundHalfEvenUnique(n as real, n);
  }
}

=== FILE: seqs.dfy ===
/** Generic sequence helpers the readers and the analysis share. */
module Seqs {
  import opened Wrappers

  /** `[y for x in xs if (y := f(x)) is not None]`: the present results, in
      order. */
  function FilterMap<A, B>(f: A -> Option<B>, xs: seq<A>): (r: seq<B>)
    ensures |r| <= |xs|
    decreases |xs|
  {
    if xs == [] then []
    else
      match f(xs[0])
      case Some(y) => [y] + FilterMap(f, xs[1..])
      case None => FilterMap(f, xs[1..])
  }

  /** When every element gives a result, the results are all there, in
      order. */
  lemma {:induction false} FilterMapEach<A, B>(f: A -> Option<B>, xs: seq<A>, ys: seq<B>)
    requires |xs| == |ys|
    requires forall k :: 0 <= k < |xs| ==> f(xs[k]) == Some(ys[k])
    ensures FilterMap(f, xs) == ys
    decreases |xs|
  {
    if xs != [] {
      assert f(xs[0]) == Some(ys[0]);
      FilterMapEach(f, xs[1..], ys[1..]);
      assert [ys[0]] + ys[1..] == ys;
    }
  }

  /** `[f(n + k, x) for k, x in enumerate(xs)]`: each element with its
      number, counting from `n`. */
  function Numbered<A, B>(f: (nat, A) -> B, xs: seq<A>, n: nat): (r: seq<B>)
    ensures |r| == |xs|
    ensures forall k :: 0 <= k < |xs| ==> r[k] == f(n + k, xs[k])
  {
    seq(|xs|, k requires 0 <= k < |xs| => f(n + k, xs[k]))
  }

  /** Filtering a concatenation filters each part. */
  lemma {:induction false} FilterMapConcat<A, B>(f: A -> Option<B>, xs: seq<A>, ys: seq<A>)
    ensures FilterMap(f, xs + ys) == FilterMap(f, xs) + FilterMap(f, ys)
    decreases |xs|
  {
    if xs == [] {
      assert xs + ys == ys;
    } else {
      assert (xs + ys)[0] == xs[0] && (xs + ys)[1..] == xs[1..] + ys;
      FilterMapConcat(f, xs[1..], ys);
    }
  }

  /** An element without a result leaves no trace: removing it changes nothing. */
  lemma FilterMapSkip<A, B>(f: A -> Option<B>, xs: seq<A>, x: A, ys: seq<A>)
    requires f(x).None?
    ensures FilterMap(f, xs + [x] + ys) == FilterMap(f, xs + ys)
  {
    FilterMapConcat(f, xs + [x], ys);
    FilterMapConcat(f, xs, [x]);
    FilterMapConcat(f, xs, ys);
    assert FilterMap(f, [x]) == FilterMap(f, [x][1..]);
  }

  /** `sum(f(x) for x in xs)`. */
  function SumOf<T>(f: T -> int, xs: seq<T>): int
    decreases |xs|
  {
    if xs == [] then 0 else SumOf(f, xs[..|xs| - 1]) + f(xs[|xs| - 1])
  }

  lemma SumOfAppend<T>(f: T -> int, xs: seq<T>, x: T)
    ensures SumOf(f, xs + [x]) == SumOf(f, xs) + f(x)
  {
    assert (xs + [x])[..|xs|] == xs;
  }

  /** Replacing one element changes the sum by the difference alone. */
  lemma {:induction false} SumOfUpdate<T>(f: T -> int, xs: seq<T>, i: nat, x: T)
    requires i < |xs|
    ensures SumOf(f, xs[i := x]) == SumOf(f, xs) - f(xs[i]) + f(x)
    decreases |xs|
  {
    var n := |xs| - 1;
    if i == n {
      assert xs[i := x][..n] == xs[..n];
    } else {
      assert xs[i := x][..n] == xs[..n][i := x];
      SumOfUpdate(f, xs[..n], i, x);
    }
  }

  /** The concatenation of a sequence of sequences. */
  function Flatten<T>(xss: seq<seq<T>>): seq<T>
    decreases |xss|
  {
    if xss == [] then [] else xss[0] + Flatten(xss[1..])
  }

  /** `[f(x) for x in xs]`. */
  function Map<A, B>(f: A -> B, xs: seq<A>): (r: seq<B>)
    ensures |r| == |xs|
    ensures forall k :: 0 <= k < |xs| ==> r[k] == f(xs[k])
  {
    seq(|xs|, k requires 0 <= k < |xs| => f(xs[k]))
  }

  /** A prefix one longer is the prefix and the next element. */
  lemma TakeSnoc<T>(xs: seq<T>, i: nat)
    requires i < |xs|
    ensures xs[..i + 1] == xs[..i] + [xs[i]]
  {
  }

  /** A property of every element survives concatenation. */
  lemma AllConcat<T>(p: T -> bool, xs: seq<T>, ys: seq<T>)
    requires forall j :: 0 <= j < |xs| ==> p(xs[j])
    requires forall j :: 0 <= j < |ys| ==> p(ys[j])
    ensures forall j :: 0 <= j < |xs + ys| ==> p((xs + ys)[j])
  {
  }
}

=== FILE: sorting.dfy ===
/** The stable sort `list.sort(key=...)`, as insertion sort on sequences.

    Python's sort is stable, also with `reverse=True`: elements with equal keys
    keep their input order. A descending sort is therefore the ascending sort
    on the negated key. */
module Sorting {

  /** Ascending by `key`. */
  predicate SortedBy<T>(key: T -> int, s: seq<T>) {
    forall i, j :: 0 <= i < j < |s| ==> key(s[i]) <= key(s[j])
  }

  /** `x` placed before the first element whose key is not smaller. */
  function InsertBy<T>(key: T -> int, x: T, s: seq<T>): (r: seq<T>)
    ensures |r| == |s| + 1
    decreases |s|
  {
    if s == [] || key(x) <= key(s[0]) then [x] + s
    else [s[0]] + InsertBy(key, x, s[1..])
  }

  function SortBy<T>(key: T -> int, s: seq<T>): (r: seq<T>)
    ensures |r| == |s|
    decreases |s|
  {
    if s == [] then [] else InsertBy(key, s[0], SortBy(key, s[1..]))
  }

  /** The elements of `s` whose key is `v`, in order. */
  function WithKey<T>(key: T -> int, v: int, s: seq<T>): seq<T>
    decreases |s|
  {
    if s == [] then []
    else if key(s[0]) == v then [s[0]] + WithKey(key, v, s[1..])
    else WithKey(key, v, s[1..])
  }

  /** Every key in `s` is at least `b`. */
  predicate AtLeast<T>(key: T -> int, b: int, s: seq<T>) {
    forall i :: 0 <= i < |s| ==> b <= key(s[i])
  }

  lemma {:induction false} InsertByAtLeast<T>(key: T -> int, b: int, x: T, s: seq<T>)
    requires AtLeast(key, b, s) && b <= key(x)
    ensures AtLeast(key, b, InsertBy(key, x, s))
    decreases |s|
  {
    if s != [] && key(x) > key(s[0]) {
      InsertByAtLeast(key, b, x, s[1..]);
    }
  }

  lemma {:induction false} InsertBySorted<T>(key: T -> int, x: T, s: seq<T>)
    requires SortedBy(key, s)
    ensures SortedBy(key, InsertBy(key, x, s))
    ensures multiset(InsertBy(key, x, s)) == multiset(s) + multiset{x}
    decreases |s|
  {
    if s == [] || key(x) <= key(s[0]) {
    } else {
      var t := InsertBy(key, x, s[1..]);
      InsertBySorted(key, x, s[1..]);
      InsertByAtLeast(key, key(s[0]), x, s[1..]);
      assert s == [s[0]] + s[1..];
      ConsSorted(key, s[0], t);
    }
  }

  lemma ConsSorted<T>(key: T -> int, y: T, t: seq<T>)
    requires SortedBy(key, t) && AtLeast(key, key(y), t)
    ensures SortedBy(key, [y] + t)
  {
    forall i, j | 0 <= i < j < |t| + 1
      ensures key(([y] + t)[i]) <= key(([y] + t)[j])
    {
      assert ([y] + t)[j] == t[j - 1];
      if i > 0 {
        assert ([y] + t)[i] == t[i - 1];
      }
    }
  }

  /** The sort orders ascending by key and keeps every element. */
  lemma {:induction false} SortBySorted<T>(key: T -> int, s: seq<T>)
    ensures SortedBy(key, SortBy(key, s))
    ensures multiset(SortBy(key, s)) == multiset(s)
    decreases |s|
  {
    if s != [] {
      SortBySorted(key, s[1..]);
      InsertBySorted(key, s[0], SortBy(key, s[1..]));
      assert s == [s[0]] + s[1..];
    }
  }

  lemma {:induction false} InsertByWithKey<T>(key: T -> int, v: int, x: T, s: seq<T>)
    ensures WithKey(key, v, InsertBy(key, x, s))
         == (if key(x) == v then [x] else []) + WithKey(key, v, s)
    decreases |s|
  {
    if s == [] || key(x) <= key(s[0]) {
      assert ([x] + s)[1..] == s;
    } else {
      InsertByWithKey(key, v, x, s[1..]);
      assert ([s[0]] + InsertBy(key, x, s[1..]))[1..] == InsertBy(key, x, s[1..]);
    }
  }

  /** Stability: the elements sharing a key come out in their input order. */
  lemma {:induction false} SortByStable<T>(key: T -> int, v: int, s: seq<T>)
    ensures WithKey(key, v, SortBy(key, s)) == WithKey(key, v, s)
    decreases |s|
  {
    if s != [] {
      SortByStable(key, v, s[1..]);
      InsertByWithKey(key, v, s[0], SortBy(key, s[1..]));
    }
  }
}

=== FILE: speakers.dfy ===
/** Transcript segments and the speaker registry every parser shares: a name
    seen for the first time gets `speaker_k`, k being one more than the number
    of names registered before it, and the same name always gets the same id. */
module Speakers {
  import opened Wrappers
  import opened Text

  /** A cue as a parser reads it, before speaker ids are assigned. */
  datatype RawSegment = RawSegment(start: int, end: int, text: string, name: Option<string>)

  /** `TranscriptSegment`: times in milliseconds. */
  datatype Segment = Segment(
    start: int,
    end: int,
    text: string,
    speakerId: Option<string>,
    speakerName: Option<string>)

  /** Python truthiness of an optional name: present and non-empty. */
  predicate Named(name: Option<string>) {
    name.Some? && name.value != []
  }

  /** `f"speaker_{k}"`. */
  function SpeakerId(k: nat): string {
    "speaker_" + NatToString(k)
  }

  lemma SpeakerIdInjective(a: nat, b: nat)
    requires SpeakerId(a) == SpeakerId(b)
    ensures a == b
  {
    assert SpeakerId(a)[8..] == NatToString(a);
    assert SpeakerId(b)[8..] == NatToString(b);
    NatToStringInjective(a, b);
  }

  /** Position of the first occurrence of `x` in `s`. */
  function IndexOf<T(==)>(s: seq<T>, x: T): (i: nat)
    requires x in s
    ensures i < |s| && s[i] == x && x !in s[..i]
  {
    if s[0] == x then 0 else 1 + IndexOf(s[1..], x)
  }

  predicate Distinct<T(==)>(s: seq<T>) {
    forall i, j :: 0 <= i < j < |s| ==> s[i] != s[j]
  }

  /** The registry after seeing `name`: new names are appended. */
  function Register(registry: seq<string>, name: string): (r: seq<string>)
    ensures Distinct(registry) ==> Distinct(r)
    ensures name in r && |r| <= |registry| + 1
  {
    if name in registry then registry else registry + [name]
  }

  /** One pass over the cues with the registry `speaker_counter`; a segment
      whose name is absent or empty gets no id. */
  function AssignFrom(raws: seq<RawSegment>, registry: seq<string>): (r: seq<Segment>)
    ensures |r| == |raws|
    decreases |raws|
  {
    if raws == [] then []
    else
      var c := raws[0];
      var reg := RegistryAfter(registry, c.name);
      var id := if Named(c.name) then Some(SpeakerId(IndexOf(reg, c.name.value) + 1)) else None;
      [Segment(c.start, c.end, c.text, id, c.name)] + AssignFrom(raws[1..], reg)
  }

  /** The registry after a cue: a non-empty name is registered, otherwise
      nothing changes. */
  function RegistryAfter(registry: seq<string>, name: Option<string>): (r: seq<string>)
    ensures Named(name) ==> name.value in r
  {
    if Named(name) then Register(registry, name.value) else registry
  }

  function AssignIds(raws: seq<RawSegment>): seq<Segment> {
    AssignFrom(raws, [])
  }

  // ---------------------------------------------------------------------------
  // An independent description of the ids: the roster of distinct names in
  // order of first appearance, and each segment's position in it.

  /** The non-empty names of the cues, in order. */
  function NamesOf(raws: seq<RawSegment>): seq<string>
    decreases |raws|
  {
    if raws == [] then []
    else (if Named(raws[0].name) then [raws[0].name.value] else []) + NamesOf(raws[1..])
  }

  /** `names` registered one after another into `registry`. */
  function RegisterAll(registry: seq<string>, names: seq<string>): seq<string>
    decreases |names|
  {
    if names == [] then registry else RegisterAll(Register(registry, names[0]), names[1..])
  }

  /** Every distinct name, once, in order of first appearance. */
  function Roster(raws: seq<RawSegment>): seq<string> {
    RegisterAll([], NamesOf(raws))
  }

  lemma {:induction false} RegisterAllExtends(registry: seq<string>, names: seq<string>)
    ensures |registry| <= |RegisterAll(registry, names)|
    ensures RegisterAll(registry, names)[..|registry|] == registry
    ensures Distinct(registry) ==> Distinct(RegisterAll(registry, names))
    ensures forall x :: x in RegisterAll(registry, names) <==> x in registry || x in names
    decreases |names|
  {
    if names != [] {
      var reg := Register(registry, names[0]);
      RegisterAllExtends(reg, names[1..]);
      assert reg[..|registry|] == registry;
      assert forall x :: x in names <==> x == names[0] || x in names[1..];
    }
  }

  /** The first position of an element already in a prefix is its first
      position in the whole sequence. */
  lemma IndexOfPrefix<T>(s: seq<T>, p: seq<T>, x: T)
    requires |p| <= |s| && s[..|p|] == p && x in p
    ensures IndexOf(s, x) == IndexOf(p, x)
  {
    var j := IndexOf(p, x);
    assert s[j] == x;
  }

  lemma NamesOfCons(raws: seq<RawSegment>)
    requires raws != []
    ensures NamesOf(raws) == (if Named(raws[0].name) then [raws[0].name.value] else []) + NamesOf(raws[1..])
  {
  }

  /** The id the roster gives cue `i` when the pass starts from `registry`. */
  function RosterId(raws: seq<RawSegment>, registry: seq<string>, i: nat): Option<string>
    requires i < |raws|
  {
    if Named(raws[i].name) then
      NamedInNames(raws, i);
      RegisterAllContains(registry, NamesOf(raws), raws[i].name.value);
      Some(SpeakerId(IndexOf(RegisterAll(registry, NamesOf(raws)), raws[i].name.value) + 1))
    else None
  }

  /** The id of each segment is its name's position in the roster, counted
      from 1, whatever registry the pass starts from. */
  lemma {:induction false} RegisterAllContains(registry: seq<string>, names: seq<string>, x: string)
    requires x in names
    ensures x in RegisterAll(registry, names)
    decreases |names|
  {
    RegisterAllExtends(registry, names);
  }

  lemma RegisterAllStep(raws: seq<RawSegment>, registry: seq<string>)
    requires raws != []
    ensures RegisterAll(registry, NamesOf(raws))
            == RegisterAll(RegistryAfter(registry, raws[0].name), NamesOf(raws[1..]))
  {
    NamesOfCons(raws);
    var names := NamesOf(raws);
    if Named(raws[0].name) {
      assert names != [] && names[0] == raws[0].name.value;
      assert names[1..] == NamesOf(raws[1..]);
      assert RegisterAll(registry, names) == RegisterAll(Register(registry, names[0]), names[1..]);
    } else {
      assert names == NamesOf(raws[1..]);
    }
  }

  lemma {:induction false} AssignFromRoster(raws: seq<RawSegment>, registry: seq<string>, i: nat)
    requires i < |raws|
    ensures AssignFrom(raws, registry)[i]
            == Segment(raws[i].start, raws[i].end, raws[i].text, RosterId(raws, registry, i), raws[i].name)
    decreases |raws|
  {
    if i == 0 {
      AssignFromRosterHead(raws, registry);
    } else {
      var reg := RegistryAfter(registry, raws[0].name);
      assert AssignFrom(raws, registry)[i] == AssignFrom(raws[1..], reg)[i - 1];
      AssignFromRoster(raws[1..], reg, i - 1);
      RegisterAllStep(raws, registry);
      assert raws[i] == raws[1..][i - 1];
    }
  }

  lemma AssignFromRosterHead(raws: seq<RawSegment>, registry: seq<string>)
    requires raws != []
    ensures AssignFrom(raws, registry)[0]
            == Segment(raws[0].start, raws[0].end, raws[0].text, RosterId(raws, registry, 0), raws[0].name)
  {
    var c := raws[0];
    if Named(c.name) {
      var reg := Register(registry, c.name.value);
      RegisterAllStep(raws, registry);
      RegisterAllExtends(reg, NamesOf(raws[1..]));
      IndexOfPrefix(RegisterAll(reg, NamesOf(raws[1..])), reg, c.name.value);
    }
  }

  lemma {:induction false} NamedInNames(raws: seq<RawSegment>, i: nat)
    requires i < |raws| && Named(raws[i].name)
    ensures raws[i].name.value in NamesOf(raws)
    decreases |raws|
  {
    NamesOfCons(raws);
    if i > 0 {
      NamedInNames(raws[1..], i - 1);
    }
  }

  /** The roster lists each non-empty name exactly once. */
  lemma RosterDistinct(raws: seq<RawSegment>)
    ensures Distinct(Roster(raws))
    ensures forall x :: x in Roster(raws) <==> x in NamesOf(raws)
  {
    RegisterAllExtends([], NamesOf(raws));
  }

  /** The registry rule, as the parsers promise it: a cue with a non-empty name
      gets `speaker_k` with k its name's rank by first appearance, so k never
      exceeds the number of distinct names; a cue without one gets no id; times,
      text and name pass through unchanged. */
  lemma AssignIdsSpec(raws: seq<RawSegment>, i: nat)
    requires i < |raws|
    ensures |AssignIds(raws)| == |raws|
    ensures AssignIds(raws)[i].start == raws[i].start && AssignIds(raws)[i].end == raws[i].end
    ensures AssignIds(raws)[i].text == raws[i].text
    ensures AssignIds(raws)[i].speakerName == raws[i].name
    ensures !Named(raws[i].name) ==> AssignIds(raws)[i].speakerId == None
    ensures Named(raws[i].name) ==>
      exists k: nat :: 1 <= k <= |Roster(raws)| && Roster(raws)[k - 1] == raws[i].name.value
        && raws[i].name.value !in Roster(raws)[..k - 1]
        && AssignIds(raws)[i].speakerId == Some(SpeakerId(k))
  {
    AssignFromRoster(raws, [], i);
    if Named(raws[i].name) {
      NamedInNames(raws, i);
      RosterDistinct(raws);
      var k := IndexOf(Roster(raws), raws[i].name.value) + 1;
      assert Roster(raws)[k - 1] == raws[i].name.value;
    }
  }

  /** Equal names always get equal ids, different names different ids. */
  lemma SameNameSameId(raws: seq<RawSegment>, i: nat, j: nat)
    requires i < |raws| && j < |raws| && Named(raws[i].name) && Named(raws[j].name)
    ensures AssignIds(raws)[i].speakerId == AssignIds(raws)[j].speakerId
            <==> raws[i].name == raws[j].name
  {
    AssignFromRoster(raws, [], i);
    AssignFromRoster(raws, [], j);
    NamedInNames(raws, i);
    NamedInNames(raws, j);
    RosterDistinct(raws);
    var ki := IndexOf(Roster(raws), raws[i].name.value);
    var kj := IndexOf(Roster(raws), raws[j].name.value);
    if AssignIds(raws)[i].speakerId == AssignIds(raws)[j].speakerId {
      SpeakerIdInjective(ki + 1, kj + 1);
    }
  }
}

=== FILE: srt.dfy ===
/** `parse_srt`: the document is cut into blocks at blank lines, and each
    block of at least two lines that holds a timing line becomes one segment,
    its text lines joined and its speaker taken from `Name: text` lines. */
module Srt {
  import opened Wrappers
  import opened Text
  import opened LineSyntax
  import opened Timestamps
  import opened CueTiming
  import opened Speakers
  import opened Seqs

  // ---------------------------------------------------------------------------
  // Blocks: `re.split(r'\n\s*\n', text)`

  /** One past the last '\n' in `s[lo..hi]`, if there is one. */
  function LastNewline(s: string, lo: nat, hi: nat): (r: Option<nat>)
    requires lo <= hi <= |s|
    ensures r.Some? ==> lo < r.value <= hi && s[r.value - 1] == '\n'
    ensures r.None? ==> forall j :: lo <= j < hi ==> s[j] != '\n'
    decreases hi - lo
  {
    if hi == lo then None
    else if s[hi - 1] == '\n' then Some(hi)
    else LastNewline(s, lo, hi - 1)
  }

  /** Where a match of `\n\s*\n` starting at `i` ends: the '\n' at `i`, then
      the greedy whitespace run given back down to its last newline. */
  function SeparatorAt(s: string, i: nat): (r: Option<nat>)
    ensures r.Some? ==> i + 2 <= r.value <= |s| && s[i] == '\n'
  {
    if i < |s| && s[i] == '\n' then LastNewline(s, i + 1, i + 1 + SpaceRun(s, i + 1)) else None
  }

  /** The leftmost separator starting at or after `i`: where it starts and
      where it ends. */
  function FindSeparator(s: string, i: nat): (r: Option<(nat, nat)>)
    ensures r.Some? ==> i <= r.value.0 && r.value.0 + 2 <= r.value.1 <= |s|
    ensures r.Some? ==> SeparatorAt(s, r.value.0) == Some(r.value.1)
    ensures r.Some? ==> forall j :: i <= j < r.value.0 ==> SeparatorAt(s, j).None?
    decreases |s| - i
  {
    if i >= |s| then None
    else
      match SeparatorAt(s, i)
      case Some(e) => Some((i, e))
      case None => FindSeparator(s, i + 1)
  }

  /** The pieces between the separators, left to right. */
  function SplitBlocks(s: string): (r: seq<string>)
    ensures |r| >= 1
    decreases |s|
  {
    match FindSeparator(s, 0)
    case None => [s]
    case Some((i, e)) => [s[..i]] + SplitBlocks(s[e..])
  }

  // ---------------------------------------------------------------------------
  // One block

  /** `block.strip().split('\n')`. */
  function BlockLines(block: string): seq<string> {
    Split(Strip(block), '\n')
  }

  /** The times a timing line gives, if the line opens with one. */
  function TimingOf(line: string): Option<(int, int)> {
    match Arrow(line)
    case Some((a, b)) => Some((ParseTimestamp(a), ParseTimestamp(b)))
    case None => None
  }

  /** A text line after tag removal: the name it offers, when it reads
      `Name: text` with a plausible name, and the text it contributes. */
  function CleanLine(line: string): (Option<string>, string) {
    var t := RemoveTags(line);
    match ColonSplit(t)
    case Some((before, after)) =>
      if LooksLikeName(Strip(before)) then (Some(Strip(before)), Strip(after)) else (None, t)
    case None => (None, t)
  }

  /** What the block reader uses of one line: the times it gives as a timing
      line, and the name it offers and the text it contributes as a text
      line. */
  datatype LineView = LineView(timing: Option<(int, int)>, offer: Option<string>, text: string)

  function ViewOf(line: string): LineView {
    LineView(TimingOf(line), CleanLine(line).0, CleanLine(line).1)
  }

  function Views(lines: seq<string>): (vs: seq<LineView>)
    ensures |vs| == |lines|
  {
    seq(|lines|, k requires 0 <= k < |lines| => ViewOf(lines[k]))
  }

  /** The first line, from `k` on, that opens with a timing. */
  function FirstTiming(vs: seq<LineView>, k: nat): (r: Option<nat>)
    ensures r.Some? ==> k <= r.value < |vs| && vs[r.value].timing.Some?
    ensures r.Some? ==> forall j :: k <= j < r.value ==> vs[j].timing.None?
    ensures r.None? ==> forall j :: k <= j < |vs| ==> vs[j].timing.None?
    decreases |vs| - k
  {
    if k >= |vs| then None
    else if vs[k].timing.Some? then Some(k)
    else FirstTiming(vs, k + 1)
  }

  /** The name each text line offers. */
  function Offers(body: seq<LineView>): (r: seq<Option<string>>)
    ensures |r| == |body|
  {
    seq(|body|, k requires 0 <= k < |body| => body[k].offer)
  }

  /** `cleaned_lines`. */
  function Cleaned(body: seq<LineView>): (r: seq<string>)
    ensures |r| == |body|
  {
    seq(|body|, k requires 0 <= k < |body| => body[k].text)
  }

  /** `if not segment_speaker: segment_speaker = potential_speaker`. */
  function Keep(acc: Option<string>, offer: Option<string>): Option<string> {
    if offer.Some? && !Named(acc) then offer else acc
  }

  /** The block's speaker after the offers, in order, starting from `acc`. */
  function SpeakerFrom(offers: seq<Option<string>>, acc: Option<string>): Option<string>
    decreases |offers|
  {
    if offers == [] then acc else SpeakerFrom(offers[1..], Keep(acc, offers[0]))
  }

  /** The segment a block's lines give: none for fewer than two lines or
      without a timing line; otherwise the first timing line's times, and the
      lines after it as text and speaker. */
  function ParseViews(vs: seq<LineView>): (r: Option<RawSegment>)
    ensures r.Some? ==> |vs| >= 2 && FirstTiming(vs, 0).Some?
    ensures r.Some? ==> (r.value.start, r.value.end) == vs[FirstTiming(vs, 0).value].timing.value
  {
    if |vs| < 2 then None
    else
      match FirstTiming(vs, 0)
      case None => None
      case Some(i) =>
        var body := vs[i + 1..];
        var (start, end) := vs[i].timing.value;
        Some(RawSegment(start, end, Strip(Join(Cleaned(body), " ")), SpeakerFrom(Offers(body), None)))
  }

  function ParseBlock(block: string): Option<RawSegment> {
    ParseViews(Views(BlockLines(block)))
  }

  /** The segments of the blocks that give one, in order. */
  function ParseBlocks(blocks: seq<string>): (r: seq<RawSegment>)
    ensures |r| <= |blocks|
  {
    FilterMap(ParseBlock, blocks)
  }

  function ParseSrtRaw(content: string): seq<RawSegment> {
    ParseBlocks(SplitBlocks(Strip(content)))
  }

  /** `parse_srt`: the segments with their speaker ids. */
  function ParseSrt(content: string): (r: seq<Segment>)
    ensures |r| == |ParseSrtRaw(content)|
  {
    AssignIds(ParseSrtRaw(content))
  }

  // ---------------------------------------------------------------------------
  // The speaker rule

  /** From a state without a non-empty name, the block's speaker is the first
      non-empty name offered; with none offered, an empty name survives if one
      was offered or held, and otherwise there is no speaker. */
  lemma {:induction false} SpeakerFromUnnamed(offers: seq<Option<string>>, acc: Option<string>)
    requires !Named(acc)
    ensures SpeakerFrom(offers, acc).None?
            <==> acc.None? && forall j :: 0 <= j < |offers| ==> offers[j].None?
    ensures Named(SpeakerFrom(offers, acc)) <==> exists j :: 0 <= j < |offers| && Named(offers[j])
    ensures Named(SpeakerFrom(offers, acc)) ==>
      exists j :: 0 <= j < |offers| && SpeakerFrom(offers, acc) == offers[j]
                  && forall i :: 0 <= i < j ==> !Named(offers[i])
    decreases |offers|
  {
    if offers != [] {
      var o := offers[0];
      var rest := offers[1..];
      var acc' := Keep(acc, o);
      if Named(o) {
        SpeakerFromNamed(rest, acc');
        assert SpeakerFrom(offers, acc) == offers[0];
      } else {
        SpeakerFromUnnamed(rest, acc');
        assert forall j :: 1 <= j < |offers| ==> offers[j] == rest[j - 1];
        if Named(SpeakerFrom(offers, acc)) {
          var j :| 0 <= j < |rest| && SpeakerFrom(rest, acc') == rest[j]
                   && forall i :: 0 <= i < j ==> !Named(rest[i]);
          assert SpeakerFrom(offers, acc) == offers[j + 1];
          assert forall i :: 0 <= i < j + 1 ==> !Named(offers[i]);
        }
        if exists j :: 0 <= j < |offers| && Named(offers[j]) {
          var j :| 0 <= j < |offers| && Named(offers[j]);
          assert j > 0 && Named(rest[j - 1]);
        }
      }
    }
  }

  /** Once a non-empty name is held, later offers change nothing. */
  lemma {:induction false} SpeakerFromNamed(offers: seq<Option<string>>, acc: Option<string>)
    requires Named(acc)
    ensures SpeakerFrom(offers, acc) == acc
    decreases |offers|
  {
    if offers != [] {
      SpeakerFromNamed(offers[1..], acc);
    }
  }

  /** The speaker rule of a block, from the start of its text lines. */
  lemma BlockSpeaker(offers: seq<Option<string>>)
    ensures SpeakerFrom(offers, None).None? <==> forall j :: 0 <= j < |offers| ==> offers[j].None?
    ensures Named(SpeakerFrom(offers, None)) <==> exists j :: 0 <= j < |offers| && Named(offers[j])
    ensures Named(SpeakerFrom(offers, None)) ==>
      exists j :: 0 <= j < |offers| && SpeakerFrom(offers, None) == offers[j]
                  && forall i :: 0 <= i < j ==> !Named(offers[i])
  {
    SpeakerFromUnnamed(offers, None);
  }

  // ---------------------------------------------------------------------------
  // Rendering, and reading a rendered document back

  /** A cue an SRT writer puts down as `Name: text`, with a name the reader
      accepts as one. */
  predicate SrtCue(c: Cue) {
    && c.start < 360000 && c.end < 360000
    && Bare(c.name) && ':' !in c.name && '<' !in c.name && LooksLikeName(c.name)
    && Bare(c.text) && '<' !in c.text
  }

  function ColonLine(c: Cue): string {
    c.name + ": " + c.text
  }

  /** The lines of the `n`th block: its number, its timing, its text. */
  function CueBlockLines(n: nat, c: Cue): seq<string> {
    [NatToString(n), TimingLine(c.start, c.end), ColonLine(c)]
  }

  function RenderBlock(n: nat, c: Cue): string {
    Join(CueBlockLines(n, c), "\n")
  }

  /** The blocks of `cues`, numbered from `n`. */
  function RenderBlocks(cues: seq<Cue>, n: nat): (r: seq<string>)
    ensures |r| == |cues|
  {
    Numbered(RenderBlock, cues, n)
  }

  /** The blocks, numbered from 1 and separated by one blank line. */
  function Render(cues: seq<Cue>): string {
    Join(RenderBlocks(cues, 1), "\n\n")
  }

  /** Every newline is followed by a character that is not whitespace. */
  predicate NewlinesFollowed(s: string) {
    forall j :: 0 <= j < |s| ==> FollowedAt(s, j)
  }

  /** A newline at `j` is followed by a character that is not whitespace. */
  predicate FollowedAt(s: string, j: nat)
    requires j < |s|
  {
    s[j] == '\n' ==> j + 1 < |s| && !IsSpace(s[j + 1])
  }

  /** A block the separator pattern cannot cut and that stripping leaves
      alone. */
  predicate Tight(b: string) {
    b != [] && !IsSpace(b[0]) && !IsSpace(b[|b| - 1]) && NewlinesFollowed(b)
  }

  /** Where no newline is followed by whitespace, no separator starts. */
  lemma {:induction false} SkipToSeparator(s: string, i: nat, k: nat)
    requires i <= k <= |s|
    requires forall j :: i <= j < k ==> FollowedAt(s, j)
    ensures FindSeparator(s, i) == FindSeparator(s, k)
    decreases k - i
  {
    if i < k {
      if s[i] == '\n' {
        assert FollowedAt(s, i);
        assert SpaceRun(s, i + 1) == 0;
        assert LastNewline(s, i + 1, i + 1).None?;
      }
      assert SeparatorAt(s, i).None?;
      SkipToSeparator(s, i + 1, k);
    }
  }

  /** A blank line between two tight blocks is one separator. */
  lemma SeparatorBetween(b: string, r: string)
    requires Tight(b) && r != [] && !IsSpace(r[0])
    ensures FindSeparator(b + "\n\n" + r, 0) == Some((|b|, |b| + 2))
  {
    var s := b + "\n\n" + r;
    assert s[|b|] == '\n' && s[|b| + 1] == '\n' && s[|b| + 2] == r[0];
    forall j | 0 <= j < |b| ensures FollowedAt(s, j) {
      assert s[j] == b[j] && FollowedAt(b, j);
      if b[j] == '\n' {
        assert s[j + 1] == b[j + 1];
      }
    }
    SkipToSeparator(s, 0, |b|);
    SpaceRunExact(s, |b| + 1, 1);
  }

  /** Tight blocks joined with blank lines split back into themselves. */
  lemma {:induction false} SplitBlocksOfJoin(blocks: seq<string>)
    requires blocks != []
    requires forall k :: 0 <= k < |blocks| ==> Tight(blocks[k])
    ensures SplitBlocks(Join(blocks, "\n\n")) == blocks
    decreases |blocks|
  {
    var b := blocks[0];
    if |blocks| == 1 {
      SkipToSeparator(b, 0, |b|);
    } else {
      var rest := blocks[1..];
      var r := Join(rest, "\n\n");
      var s := b + "\n\n" + r;
      assert Join(blocks, "\n\n") == s;
      JoinEnds(rest, "\n\n");
      SeparatorBetween(b, r);
      assert s[..|b|] == b && s[|b| + 2..] == r;
      SplitBlocksOfJoin(rest);
    }
  }

  /** Lines that are non-empty, hold no newline and open with a character
      that is not whitespace, joined with newlines. */
  lemma {:induction false} JoinLinesFollowed(lines: seq<string>)
    requires forall k :: 0 <= k < |lines| ==> PlainLine(lines[k])
    ensures NewlinesFollowed(Join(lines, "\n"))
    decreases |lines|
  {
    if |lines| > 1 {
      var l := lines[0];
      var rest := lines[1..];
      var r := Join(rest, "\n");
      JoinLinesFollowed(rest);
      JoinEnds(rest, "\n");
      var s := l + "\n" + r;
      assert Join(lines, "\n") == s;
      forall j | 0 <= j < |s| ensures FollowedAt(s, j) {
        if j > |l| && s[j] == '\n' {
          assert s[j] == r[j - |l| - 1] && FollowedAt(r, j - |l| - 1);
          assert s[j + 1] == r[j - |l|];
        }
      }
    }
  }

  /** Non-empty, without a newline, opening with a character that is not
      whitespace. */
  predicate PlainLine(l: string) {
    l != [] && '\n' !in l && !IsSpace(l[0])
  }

  /** The number line: digits only, so no timing and no newline. */
  lemma NumberLine(n: nat)
    ensures PlainLine(NatToString(n)) && IsDigit(NatToString(n)[0])
    ensures Arrow(NatToString(n)).None? && TimingOf(NatToString(n)).None?
  {
    var d := NatToString(n);
    assert forall j :: 0 <= j < |d| ==> IsStampChar(d[j]);
    StampRunExact(d, 0, |d|);
  }

  /** The text line: no newline, no tag, opening with the name, and split by
      the colon pattern into the name and the text after its space. */
  lemma ColonLineShape(c: Cue)
    requires SrtCue(c)
    ensures PlainLine(ColonLine(c))
    ensures ColonLine(c)[|ColonLine(c)| - 1] == c.text[|c.text| - 1]
    ensures '<' !in ColonLine(c)
    ensures ColonSplit(ColonLine(c)) == Some((c.name, [' '] + c.text))
  {
    var v := ColonLine(c);
    var sep: string := [':', ' '];
    assert v == c.name + sep + c.text;
    assert v[0] == c.name[0];
    assert '\n' !in sep && '<' !in sep;
    ColonLineSplits(v, c.name, c.text);
  }

  lemma ColonLineSplits(v: string, name: string, text: string)
    requires name != [] && ':' !in name && text != []
    requires v == name + ": " + text
    ensures ColonSplit(v) == Some((name, [' '] + text))
  {
    assert v[..|name|] == name && v[|name|] == ':' && v[|name| + 1] == ' ';
    assert v[|name| + 2..] == text;
    ColonParts(v, name, text);
  }

  /** The timing line is a plain line opening with a digit, and reads back as
      its two times. */
  lemma TimingPlain(start: nat, end: nat)
    requires start < 360000 && end < 360000
    ensures PlainLine(TimingLine(start, end)) && IsDigit(TimingLine(start, end)[0])
    ensures Arrow(TimingLine(start, end)).Some?
    ensures ParseTimestamp(Arrow(TimingLine(start, end)).value.0) == start * MsPerSecond
    ensures ParseTimestamp(Arrow(TimingLine(start, end)).value.1) == end * MsPerSecond
    ensures TimingOf(TimingLine(start, end)) == Some((start * MsPerSecond, end * MsPerSecond))
  {
    var t := TimingLine(start, end);
    TimingLineRoundTrip(start, end);
    assert t[..8][0] == t[0];
  }

  /** The text line of a block reads back as its speaker and its text. */
  lemma ColonLineClean(c: Cue)
    requires SrtCue(c)
    ensures CleanLine(ColonLine(c)) == (Some(c.name), c.text)
  {
    var v := ColonLine(c);
    ColonLineShape(c);
    NoBracketTagFree(v);
    TagFreeUnchanged(v);
    StripUnchanged(c.name);
    StripSpaceHead(c.text);
  }

  /** The three lines of a block are plain; the first opens with a digit and
      the last closes with the text's last character. */
  lemma BlockLinesShape(n: nat, c: Cue)
    requires SrtCue(c)
    ensures forall k :: 0 <= k < 3 ==> PlainLine(CueBlockLines(n, c)[k])
    ensures IsDigit(CueBlockLines(n, c)[0][0])
    ensures CueBlockLines(n, c)[2][|CueBlockLines(n, c)[2]| - 1] == c.text[|c.text| - 1]
  {
    NumberLine(n);
    TimingPlain(c.start, c.end);
    ColonLineShape(c);
    ThreePlain(CueBlockLines(n, c), NatToString(n), TimingLine(c.start, c.end), ColonLine(c));
  }

  lemma ThreePlain(ls: seq<string>, a: string, t: string, v: string)
    requires ls == [a, t, v] && PlainLine(a) && PlainLine(t) && PlainLine(v)
    ensures |ls| == 3 && ls[0] == a && ls[2] == v
    ensures forall k :: 0 <= k < 3 ==> PlainLine(ls[k])
  {
  }

  /** A rendered block is tight. */
  lemma RenderBlockTight(n: nat, c: Cue)
    requires SrtCue(c)
    ensures Tight(RenderBlock(n, c))
    ensures IsDigit(RenderBlock(n, c)[0])
  {
    BlockLinesShape(n, c);
    JoinTight(CueBlockLines(n, c));
  }

  /** Plain lines joined with newlines, the last closing with a character
      that is not whitespace, make a tight block. */
  lemma JoinTight(lines: seq<string>)
    requires lines != [] && forall k :: 0 <= k < |lines| ==> PlainLine(lines[k])
    requires PlainLine(lines[|lines| - 1]) && !IsSpace(lines[|lines| - 1][|lines[|lines| - 1]| - 1])
    ensures Tight(Join(lines, "\n")) && Join(lines, "\n")[0] == lines[0][0]
  {
    JoinEnds(lines, "\n");
    JoinLinesFollowed(lines);
  }

  /** A rendered block splits back into its three lines. */
  lemma RenderBlockLines(n: nat, c: Cue)
    requires SrtCue(c)
    ensures BlockLines(RenderBlock(n, c)) == CueBlockLines(n, c)
  {
    RenderBlockTight(n, c);
    BlockLinesShape(n, c);
    TightLines(RenderBlock(n, c), CueBlockLines(n, c));
  }

  /** A tight block joined from plain lines splits back into them. */
  lemma TightLines(b: string, ls: seq<string>)
    requires ls != [] && forall k :: 0 <= k < |ls| ==> PlainLine(ls[k])
    requires b == Join(ls, "\n") && Tight(b)
    ensures BlockLines(b) == ls
  {
    StripUnchanged(b);
    SplitJoin(ls, '\n');
  }

  /** The views of a number line, a timing line and one `Name: text` line. */
  predicate CueShaped(vs: seq<LineView>, startMs: int, endMs: int, name: string, text: string) {
    && |vs| == 3 && vs[0].timing.None? && vs[1].timing == Some((startMs, endMs))
    && vs[2].offer == Some(name) && vs[2].text == text
  }

  /** The segment such lines give. */
  lemma ParseCueViews(vs: seq<LineView>, startMs: int, endMs: int, name: string, text: string)
    requires CueShaped(vs, startMs, endMs, name, text)
    requires text != [] && !IsSpace(text[0]) && !IsSpace(text[|text| - 1])
    ensures ParseViews(vs) == Some(RawSegment(startMs, endMs, text, Some(name)))
  {
    FirstTimingSecond(vs);
    var body := vs[2..];
    OneTextLine(body);
    StripUnchanged(text);
  }

  lemma FirstTimingSecond(vs: seq<LineView>)
    requires |vs| >= 2 && vs[0].timing.None? && vs[1].timing.Some?
    ensures FirstTiming(vs, 0) == Some(1)
  {
    assert FirstTiming(vs, 1) == Some(1);
  }

  /** A single text line contributes its text and its offer. */
  lemma OneTextLine(body: seq<LineView>)
    requires |body| == 1
    ensures Strip(Join(Cleaned(body), " ")) == Strip(body[0].text)
    ensures SpeakerFrom(Offers(body), None) == Keep(None, body[0].offer)
  {
    assert Cleaned(body) == [body[0].text];
    assert Offers(body) == [body[0].offer];
    assert Offers(body)[1..] == [];
  }

  lemma ViewsOfThree(ls: seq<string>, a: string, t: string, v: string)
    requires ls == [a, t, v]
    ensures Views(ls) == [ViewOf(a), ViewOf(t), ViewOf(v)]
  {
  }

  /** The views of a rendered block's lines. */
  lemma CueBlockShaped(n: nat, c: Cue)
    requires SrtCue(c)
    ensures CueShaped(Views(CueBlockLines(n, c)), c.start * MsPerSecond, c.end * MsPerSecond, c.name, c.text)
  {
    var a, t, v := NatToString(n), TimingLine(c.start, c.end), ColonLine(c);
    NumberView(n);
    TimingView(c.start, c.end);
    ColonView(c);
    ViewsOfThree(CueBlockLines(n, c), a, t, v);
    ShapedOfViews(Views(CueBlockLines(n, c)), ViewOf(a), ViewOf(t), ViewOf(v),
                  c.start * MsPerSecond, c.end * MsPerSecond, c.name, c.text);
  }

  lemma ShapedOfViews(vs: seq<LineView>, v0: LineView, v1: LineView, v2: LineView,
                      startMs: int, endMs: int, name: string, text: string)
    requires vs == [v0, v1, v2] && v0.timing.None? && v1.timing == Some((startMs, endMs))
    requires v2.offer == Some(name) && v2.text == text
    ensures CueShaped(vs, startMs, endMs, name, text)
  {
  }

  lemma NumberView(n: nat)
    ensures ViewOf(NatToString(n)).timing.None?
  {
    NumberLine(n);
  }

  lemma TimingView(start: nat, end: nat)
    requires start < 360000 && end < 360000
    ensures ViewOf(TimingLine(start, end)).timing == Some((start * MsPerSecond, end * MsPerSecond))
  {
    TimingPlain(start, end);
  }

  lemma ColonView(c: Cue)
    requires SrtCue(c)
    ensures ViewOf(ColonLine(c)).offer == Some(c.name) && ViewOf(ColonLine(c)).text == c.text
  {
    ColonLineClean(c);
  }

  /** A rendered block reads back as its cue. */
  lemma ParseRenderedBlock(n: nat, c: Cue)
    requires SrtCue(c)
    ensures ParseBlock(RenderBlock(n, c)) == Some(CueSegment(c))
  {
    RenderBlockLines(n, c);
    CueBlockShaped(n, c);
    ParseCueViews(Views(CueBlockLines(n, c)), c.start * MsPerSecond, c.end * MsPerSecond, c.name, c.text);
  }

  lemma ParseRenderedBlocks(cues: seq<Cue>, n: nat)
    requires forall k :: 0 <= k < |cues| ==> SrtCue(cues[k])
    ensures ParseBlocks(RenderBlocks(cues, n)) == Expected(cues)
  {
    var blocks := RenderBlocks(cues, n);
    var segs := Expected(cues);
    ExpectedLength(cues);
    forall k | 0 <= k < |blocks| ensures ParseBlock(blocks[k]) == Some(segs[k]) {
      ParseRenderedBlockAt(cues, n, k);
    }
    FilterMapEach(ParseBlock, blocks, segs);
  }

  lemma ParseRenderedBlockAt(cues: seq<Cue>, n: nat, k: nat)
    requires k < |cues| && SrtCue(cues[k])
    ensures |Expected(cues)| == |cues|
    ensures ParseBlock(RenderBlocks(cues, n)[k]) == Some(Expected(cues)[k])
  {
    RenderBlocksAt(cues, n, k);
    ExpectedAt(cues, k);
    ParseRenderedBlockAs(n + k, cues[k], RenderBlocks(cues, n)[k], Expected(cues)[k]);
  }

  lemma ParseRenderedBlockAs(n: nat, c: Cue, b: string, seg: RawSegment)
    requires SrtCue(c) && b == RenderBlock(n, c) && seg == CueSegment(c)
    ensures ParseBlock(b) == Some(seg)
  {
    ParseRenderedBlock(n, c);
  }

  lemma RenderBlocksAt(cues: seq<Cue>, n: nat, k: nat)
    requires k < |cues|
    ensures RenderBlocks(cues, n)[k] == RenderBlock(n + k, cues[k])
  {
  }

  /** Every rendered block is tight. */
  lemma RenderBlocksTight(cues: seq<Cue>, n: nat)
    requires forall k :: 0 <= k < |cues| ==> SrtCue(cues[k])
    ensures forall k :: 0 <= k < |cues| ==> Tight(RenderBlocks(cues, n)[k])
  {
    forall k | 0 <= k < |cues| ensures Tight(RenderBlocks(cues, n)[k]) {
      RenderBlockAtTight(cues, n, k);
    }
  }

  lemma RenderBlockAtTight(cues: seq<Cue>, n: nat, k: nat)
    requires k < |cues| && SrtCue(cues[k])
    ensures Tight(RenderBlocks(cues, n)[k])
  {
    RenderBlocksAt(cues, n, k);
    RenderBlockTightAs(n + k, cues[k], RenderBlocks(cues, n)[k]);
  }

  lemma RenderBlockTightAs(n: nat, c: Cue, b: string)
    requires SrtCue(c) && b == RenderBlock(n, c)
    ensures Tight(b)
  {
    RenderBlockTight(n, c);
  }

  /** A rendered document splits into its blocks. */
  lemma RenderSplit(cues: seq<Cue>)
    requires cues != []
    requires forall k :: 0 <= k < |cues| ==> SrtCue(cues[k])
    ensures SplitBlocks(Strip(Render(cues))) == RenderBlocks(cues, 1)
  {
    var blocks := RenderBlocks(cues, 1);
    RenderBlocksTight(cues, 1);
    JoinEnds(blocks, "\n\n");
    StripUnchanged(Render(cues));
    SplitBlocksOfJoin(blocks);
  }

  /** Writing cues as an SRT document and reading it back gives each cue's
      times, text and speaker, in order. */
  lemma RenderParse(cues: seq<Cue>)
    requires forall k :: 0 <= k < |cues| ==> SrtCue(cues[k])
    ensures ParseSrtRaw(Render(cues)) == Expected(cues)
  {
    if cues != [] {
      ParseRenderedBlocks(cues, 1);
      RenderSplit(cues);
      ParseOfBlocks(Render(cues), RenderBlocks(cues, 1), Expected(cues));
    } else {
      RenderParseEmpty(cues);
    }
  }

  lemma RenderParseEmpty(cues: seq<Cue>)
    requires cues == []
    ensures ParseSrtRaw(Render(cues)) == Expected(cues)
  {
    assert Render(cues) == [];
    assert Split([], '\n') == [[]];
  }

  /** A document that splits into blocks reads as what the blocks read as. */
  lemma ParseOfBlocks(doc: string, blocks: seq<string>, segs: seq<RawSegment>)
    requires SplitBlocks(Strip(doc)) == blocks && ParseBlocks(blocks) == segs
    ensures ParseSrtRaw(doc) == segs
  {
  }
}

=== FILE: text.dfy ===
/** Character classes and the handful of Python string operations the transcript
    code relies on: strip, split on a separator, whitespace word counting, join,
    and decimal digits. */
module Text {

  /** Python's `str.isspace()`, which is also what the regex class `\s` matches. */
  predicate IsSpace(c: char) {
    var n := c as int;
    (9 <= n <= 13) || (28 <= n <= 32) || n == 0x85 || n == 0xA0 || n == 0x1680
    || (0x2000 <= n <= 0x200A) || n == 0x2028 || n == 0x2029 || n == 0x202F
    || n == 0x205F || n == 0x3000
  }

  /** ASCII decimal digit (`\d` and `str.isdigit` restricted to ASCII). */
  predicate IsDigit(c: char) {
    '0' <= c <= '9'
  }

  /** The regex class `[A-Za-z]`. */
  predicate IsAsciiLetter(c: char) {
    ('a' <= c <= 'z') || ('A' <= c <= 'Z')
  }

  /** The regex class `\w`, restricted to ASCII: `[A-Za-z0-9_]`. */
  predicate IsWordChar(c: char) {
    IsAsciiLetter(c) || IsDigit(c) || c == '_'
  }

  /** ASCII lower-casing of one character. */
  function ToLower(c: char): (r: char)
    ensures !('A' <= r <= 'Z')
    ensures !('A' <= c <= 'Z') ==> r == c
  {
    if 'A' <= c <= 'Z' then (c as int + 32) as char else c
  }

  /** `str.lower()` on ASCII letters. */
  function Lower(s: string): (r: string)
    ensures |r| == |s|
    ensures forall i :: 0 <= i < |s| ==> r[i] == ToLower(s[i])
  {
    seq(|s|, i requires 0 <= i < |s| => ToLower(s[i]))
  }

  predicate IsBlank(s: string) {
    forall i :: 0 <= i < |s| ==> IsSpace(s[i])
  }

  /** `str.lstrip()`: the suffix left after dropping leading whitespace. */
  function LStrip(s: string): (r: string)
    ensures |r| <= |s| && r == s[|s| - |r|..]
    ensures r != [] ==> !IsSpace(r[0])
    ensures forall i :: 0 <= i < |s| - |r| ==> IsSpace(s[i])
  {
    if s != [] && IsSpace(s[0]) then LStrip(s[1..]) else s
  }

  /** `str.rstrip()`: the prefix left after dropping trailing whitespace. */
  function RStrip(s: string): (r: string)
    ensures |r| <= |s| && r == s[..|r|]
    ensures r != [] ==> !IsSpace(r[|r| - 1])
    ensures forall i :: |r| <= i < |s| ==> IsSpace(s[i])
  {
    if s != [] && IsSpace(s[|s| - 1]) then RStrip(s[..|s| - 1]) else s
  }

  /** `str.strip()`. */
  function Strip(s: string): (r: string)
    ensures r != [] ==> !IsSpace(r[0]) && !IsSpace(r[|r| - 1])
    ensures forall c :: c in r ==> c in s
    ensures r == [] <==> IsBlank(s)
  {
    var l := LStrip(s);
    assert forall c :: c in l ==> c in s;
    RStrip(l)
  }

  /** Stripping leaves a string alone whose ends are not whitespace. */
  lemma StripUnchanged(s: string)
    requires s != [] && !IsSpace(s[0]) && !IsSpace(s[|s| - 1])
    ensures Strip(s) == s
  {
  }

  /** Stripping twice strips nothing more. */
  lemma StripIdempotent(s: string)
    ensures Strip(Strip(s)) == Strip(s)
  {
    if Strip(s) != [] {
      StripUnchanged(Strip(s));
    }
  }

  /** One leading space before an already stripped text is stripped away. */
  lemma StripSpaceHead(s: string)
    requires s != [] && !IsSpace(s[0]) && !IsSpace(s[|s| - 1])
    ensures Strip([' '] + s) == s
  {
    var t := [' '] + s;
    assert t[1..] == s;
    assert LStrip(t) == LStrip(s) == s;
  }

  /** One trailing space after an already stripped text is stripped away. */
  lemma StripSpaceTail(s: string)
    requires s != [] && !IsSpace(s[0]) && !IsSpace(s[|s| - 1])
    ensures Strip(s + [' ']) == s
  {
    var t := s + [' '];
    assert t[..|t| - 1] == s;
    assert RStrip(t) == RStrip(s) == s;
  }

  /** Stripping keeps a first character that is not whitespace. */
  lemma StripHead(s: string)
    requires s != [] && !IsSpace(s[0])
    ensures Strip(s) != [] && Strip(s)[0] == s[0]
  {
    assert !IsBlank(s);
    assert LStrip(s) == s;
  }

  predicate StartsWith(s: string, prefix: string) {
    |prefix| <= |s| && s[..|prefix|] == prefix
  }

  /** Python's `sub in s`. */
  predicate Contains(s: string, sub: string)
    decreases |s|
  {
    StartsWith(s, sub) || (s != [] && Contains(s[1..], sub))
  }

  /** `sep.join(parts)`. */
  function Join(parts: seq<string>, sep: string): string
    decreases |parts|
  {
    if |parts| == 0 then []
    else if |parts| == 1 then parts[0]
    else parts[0] + sep + Join(parts[1..], sep)
  }

  /** A join of parts whose first part is non-empty is non-empty. */
  lemma JoinNonEmpty(parts: seq<string>, sep: string)
    requires parts != [] && parts[0] != []
    ensures Join(parts, sep) != []
  {
    if |parts| > 1 {
      assert |Join(parts, sep)| >= |parts[0]|;
    }
  }

  /** A join opens with its first part. */
  lemma {:induction false} JoinPrefix(parts: seq<string>, sep: string)
    requires parts != []
    ensures |Join(parts, sep)| >= |parts[0]| && Join(parts, sep)[..|parts[0]|] == parts[0]
  {
    if |parts| > 1 {
      assert Join(parts, sep) == parts[0] + (sep + Join(parts[1..], sep));
    }
  }

  /** A join of three parts is the first, the separator and the rest. */
  lemma JoinThree(a: string, b: string, c: string, sep: string)
    ensures Join([a, b, c], sep) == a + sep + b + sep + c
  {
    assert [b, c][1..] == [c];
    assert Join([b, c], sep) == b + sep + c;
    assert [a, b, c][1..] == [b, c];
    assert Join([a, b, c], sep) == a + sep + Join([b, c], sep);
  }

  /** A join of non-empty parts opens with the first part's first character
      and closes with the last part's last character. */
  lemma {:induction false} JoinEnds(parts: seq<string>, sep: string)
    requires parts != []
    requires forall i :: 0 <= i < |parts| ==> parts[i] != []
    ensures Join(parts, sep) != []
    ensures Join(parts, sep)[0] == parts[0][0]
    ensures Join(parts, sep)[|Join(parts, sep)| - 1] == parts[|parts| - 1][|parts[|parts| - 1]| - 1]
    decreases |parts|
  {
    if |parts| > 1 {
      var rest := parts[1..];
      JoinEnds(rest, sep);
      assert Join(parts, sep) == parts[0] + sep + Join(rest, sep);
      assert rest[|rest| - 1] == parts[|parts| - 1];
    }
  }

  /** `s.split(d)` for a one-character separator. */
  function Split(s: string, d: char): (r: seq<string>)
    ensures |r| >= 1
    ensures forall i :: 0 <= i < |r| ==> d !in r[i]
    decreases |s|
  {
    if s == [] then [[]]
    else
      var rest := Split(s[1..], d);
      if s[0] == d then [[]] + rest else [[s[0]] + rest[0]] + rest[1..]
  }

  /** Splitting and re-joining with the same separator gives back the text. */
  lemma {:induction false} JoinSplit(s: string, d: char)
    ensures Join(Split(s, d), [d]) == s
    decreases |s|
  {
    if s != [] {
      var rest := Split(s[1..], d);
      JoinSplit(s[1..], d);
      if s[0] == d {
        assert Split(s, d) == [[]] + rest;
      } else {
        assert Split(s, d) == [[s[0]] + rest[0]] + rest[1..];
        if |rest| == 1 {
          assert Join(Split(s, d), [d]) == [s[0]] + rest[0];
        } else {
          assert Join(rest, [d]) == rest[0] + [d] + Join(rest[1..], [d]);
          assert ([[s[0]] + rest[0]] + rest[1..])[1..] == rest[1..];
        }
      }
    }
  }

  /** A text without the separator splits into itself alone. */
  lemma {:induction false} SplitNoSeparator(s: string, d: char)
    requires d !in s
    ensures Split(s, d) == [s]
    decreases |s|
  {
    if s != [] {
      assert s[0] != d && d !in s[1..];
      SplitNoSeparator(s[1..], d);
      assert [s[0]] + s[1..] == s;
    }
  }

  /** Joining pieces that hold no separator and splitting again gives the
      pieces back. */
  lemma {:induction false} SplitJoin(parts: seq<string>, d: char)
    requires parts != []
    requires forall i :: 0 <= i < |parts| ==> d !in parts[i]
    ensures Split(Join(parts, [d]), d) == parts
    decreases |parts|
  {
    if |parts| == 1 {
      SplitNoSeparator(parts[0], d);
    } else {
      var tail := parts[1..];
      assert forall i :: 0 <= i < |tail| ==> d !in tail[i] by {
        forall i | 0 <= i < |tail| ensures d !in tail[i] { assert tail[i] == parts[i + 1]; }
      }
      SplitJoin(tail, d);
      assert parts == [parts[0]] + tail;
      SplitJoinCons(parts[0], tail, d);
    }
  }

  /** One more separator-free piece in front survives the join and split. */
  lemma SplitJoinCons(p: string, tail: seq<string>, d: char)
    requires d !in p && tail != [] && Split(Join(tail, [d]), d) == tail
    ensures Split(Join([p] + tail, [d]), d) == [p] + tail
  {
    var rest := Join(tail, [d]);
    assert ([p] + tail)[1..] == tail;
    assert Join([p] + tail, [d]) == p + [d] + rest;
    SplitConcat(p, rest, d);
    SplitNoSeparator(p, d);
  }

  /** Splitting distributes over a separator: the pieces of `a + [d] + b` are the
      pieces of `a` followed by the pieces of `b`. */
  lemma {:induction false} SplitConcat(a: string, b: string, d: char)
    ensures Split(a + [d] + b, d) == Split(a, d) + Split(b, d)
    decreases |a|
  {
    var s := a + [d] + b;
    if a == [] {
      assert s == [d] + b && s[1..] == b;
    } else {
      assert s[0] == a[0] && s[1..] == a[1..] + [d] + b;
      SplitConcat(a[1..], b, d);
    }
  }

  /** The text from the first whitespace character on. */
  function SkipWord(s: string): (r: string)
    ensures |r| <= |s| && r == s[|s| - |r|..]
    ensures r == [] || IsSpace(r[0])
    decreases |s|
  {
    if s == [] || IsSpace(s[0]) then s else SkipWord(s[1..])
  }

  /** `len(s.split())`: the number of maximal runs of non-whitespace. */
  function WordCount(s: string): nat
    decreases |s|
  {
    if s == [] then 0
    else if IsSpace(s[0]) then WordCount(s[1..])
    else 1 + WordCount(SkipWord(s[1..]))
  }

  lemma {:induction false} SkipWordAppend(a: string, b: string)
    requires b != [] && IsSpace(b[0])
    ensures SkipWord(a + b) == SkipWord(a) + b
    decreases |a|
  {
    if a == [] {
    } else if IsSpace(a[0]) {
    } else {
      assert (a + b)[1..] == a[1..] + b;
      SkipWordAppend(a[1..], b);
    }
  }

  lemma WordCountSpaceHead(x: string)
    requires x != [] && IsSpace(x[0])
    ensures WordCount(x) == WordCount(x[1..])
  {
  }

  lemma WordCountWordHead(x: string)
    requires x != [] && !IsSpace(x[0])
    ensures WordCount(x) == 1 + WordCount(SkipWord(x[1..]))
  {
  }

  /** Joining with a space adds the word counts. */
  lemma {:induction false} WordCountJoin2(a: string, b: string)
    ensures WordCount(a + ([' '] + b)) == WordCount(a) + WordCount(b)
    decreases |a|
  {
    var tail := [' '] + b;
    var x := a + tail;
    if a == [] {
      assert x == tail && x[1..] == b;
      WordCountSpaceHead(x);
    } else if IsSpace(a[0]) {
      assert x[0] == a[0] && x[1..] == a[1..] + tail;
      WordCountSpaceHead(x);
      WordCountSpaceHead(a);
      WordCountJoin2(a[1..], b);
    } else {
      assert x[0] == a[0] && x[1..] == a[1..] + tail;
      SkipWordAppend(a[1..], tail);
      WordCountWordHead(x);
      WordCountWordHead(a);
      WordCountJoin2(SkipWord(a[1..]), b);
    }
  }

  function SumWordCounts(parts: seq<string>): nat
    decreases |parts|
  {
    if parts == [] then 0 else WordCount(parts[0]) + SumWordCounts(parts[1..])
  }

  /** `len(' '.join(parts).split())` is the sum of the parts' word counts. */
  lemma {:induction false} WordCountJoin(parts: seq<string>)
    ensures WordCount(Join(parts, " ")) == SumWordCounts(parts)
    decreases |parts|
  {
    if |parts| > 1 {
      WordCountJoin(parts[1..]);
      WordCountJoin2(parts[0], Join(parts[1..], " "));
      assert Join(parts, " ") == parts[0] + ([' '] + Join(parts[1..], " "));
      assert SumWordCounts(parts[1..]) == WordCount(parts[1]) + SumWordCounts(parts[2..]);
    } else if |parts| == 1 {
      assert parts[1..] == [];
    }
  }

  // ---------------------------------------------------------------------------
  // Decimal digits

  predicate AllDigits(s: string) {
    forall i :: 0 <= i < |s| ==> IsDigit(s[i])
  }

  predicate HasDigit(s: string) {
    exists i :: 0 <= i < |s| && IsDigit(s[i])
  }

  function DigitValue(c: char): nat
    requires IsDigit(c)
  {
    c as int - '0' as int
  }

  function DigitChar(d: nat): (c: char)
    requires d < 10
    ensures IsDigit(c) && DigitValue(c) == d
  {
    ('0' as int + d) as char
  }

  /** `int(s)` for a string of ASCII digits. */
  function DigitsValue(s: string): nat
    requires AllDigits(s)
    decreases |s|
  {
    if s == [] then 0 else DigitsValue(s[..|s| - 1]) * 10 + DigitValue(s[|s| - 1])
  }

  /** `str(n)` for a natural number: decimal digits that read back as `n`. */
  function NatToString(n: nat): (r: string)
    ensures |r| >= 1 && AllDigits(r)
    ensures DigitsValue(r) == n
    ensures n < 10 ==> |r| == 1
    ensures n >= 10 ==> |r| >= 2
    decreases n
  {
    if n < 10 then [DigitChar(n)]
    else
      var r := NatToString(n / 10) + [DigitChar(n % 10)];
      assert r[..|r| - 1] == NatToString(n / 10);
      r
  }

  /** Decimal rendering is injective. */
  lemma NatToStringInjective(a: nat, b: nat)
    requires NatToString(a) == NatToString(b)
    ensures a == b
  {
    assert DigitsValue(NatToString(a)) == a;
  }
}

=== FILE: timestamps.dfy ===
/** The timestamp codec: `parse_timestamp` reads five textual forms into a time,
    `seconds_to_timestamp` renders a time as `HH:MM:SS`.

    Times are integer milliseconds. Every timestamp form carries at most three
    fractional digits, so milliseconds represent each parsed value exactly. */
module Timestamps {
  import opened Text

  const MsPerSecond := 1000
  const MsPerMinute := 60000
  const MsPerHour := 3600000

  /** `n` ASCII digits start at index `i`. */
  predicate DigitsAt(s: string, i: nat, n: nat) {
    i + n <= |s| && AllDigits(s[i..i + n])
  }

  function NumAt(s: string, i: nat, n: nat): nat
    requires DigitsAt(s, i, n)
  {
    DigitsValue(s[i..i + n])
  }

  predicate CharAt(s: string, i: nat, c: char) {
    i < |s| && s[i] == c
  }

  /** The sub-second separator class `[,.]`. */
  predicate FracSepAt(s: string, i: nat) {
    CharAt(s, i, ',') || CharAt(s, i, '.')
  }

  /** Length of the leading `\d{1,2}` field when a ':' follows it, else 0.
      The greedy two-digit attempt wins whenever it is followed by ':';
      a one-digit field is only possible when the second character is ':'. */
  function LeadLen(s: string): (k: nat)
    ensures k <= 2
    ensures k > 0 ==> DigitsAt(s, 0, k) && CharAt(s, k, ':')
  {
    if |s| >= 3 && IsDigit(s[0]) && IsDigit(s[1]) && s[2] == ':' then 2
    else if |s| >= 2 && IsDigit(s[0]) && s[1] == ':' then 1
    else 0
  }

  // The four colon forms, each after a leading field of length k and its ':'.

  /** `(\d{1,2}):(\d{2}):(\d{2})[,.](\d{3})` */
  predicate HmsFrac(s: string, k: nat) {
    DigitsAt(s, k + 1, 2) && CharAt(s, k + 3, ':') && DigitsAt(s, k + 4, 2)
    && FracSepAt(s, k + 6) && DigitsAt(s, k + 7, 3)
  }

  /** `(\d{1,2}):(\d{2}):(\d{2})` */
  predicate Hms(s: string, k: nat) {
    DigitsAt(s, k + 1, 2) && CharAt(s, k + 3, ':') && DigitsAt(s, k + 4, 2)
  }

  /** `(\d{1,2}):(\d{2})[,.](\d{3})` */
  predicate MsFrac(s: string, k: nat) {
    DigitsAt(s, k + 1, 2) && FracSepAt(s, k + 3) && DigitsAt(s, k + 4, 3)
  }

  /** `(\d{1,2}):(\d{2})` */
  predicate Ms(s: string, k: nat) {
    DigitsAt(s, k + 1, 2)
  }

  /** `parse_timestamp`: the first form that matches a prefix of the stripped
      token wins; a token of plain digits is whole seconds; anything else is 0. */
  function ParseTimestamp(ts: string): (r: int)
    ensures r >= 0
  {
    var s := Strip(ts);
    var k := LeadLen(s);
    if k > 0 && HmsFrac(s, k) then
      NumAt(s, 0, k) * MsPerHour + NumAt(s, k + 1, 2) * MsPerMinute
      + NumAt(s, k + 4, 2) * MsPerSecond + NumAt(s, k + 7, 3)
    else if k > 0 && Hms(s, k) then
      NumAt(s, 0, k) * MsPerHour + NumAt(s, k + 1, 2) * MsPerMinute
      + NumAt(s, k + 4, 2) * MsPerSecond
    else if k > 0 && MsFrac(s, k) then
      NumAt(s, 0, k) * MsPerMinute + NumAt(s, k + 1, 2) * MsPerSecond + NumAt(s, k + 4, 3)
    else if k > 0 && Ms(s, k) then
      NumAt(s, 0, k) * MsPerMinute + NumAt(s, k + 1, 2) * MsPerSecond
    else if s != [] && AllDigits(s) then
      DigitsValue(s) * MsPerSecond
    else
      0
  }

  /** Python's `f"{n:02d}"`: at least two characters, zero-padded after any sign. */
  function Pad2(n: int): (r: string)
    ensures 0 <= n < 100 ==> |r| == 2 && AllDigits(r) && DigitsValue(r) == n
  {
    if n < 0 then "-" + NatToString(-n)
    else if n < 10 then
      var r := ['0', DigitChar(n)];
      assert r[..1] == ['0'] && DigitsValue(['0']) == 0;
      r
    else NatToString(n)
  }

  /** `seconds_to_timestamp`: floor hours, then minutes and seconds within the
      hour; a sub-second remainder is dropped. Up to 99 hours the text is the
      eight characters `HH:MM:SS`, minutes and seconds both below 60, and the
      fields read back as the whole seconds of the input. */
  function SecondsToTimestamp(ms: int): (r: string)
    ensures 0 <= ms < 100 * MsPerHour ==>
      && |r| == 8 && r[2] == ':' && r[5] == ':'
      && AllDigits(r[0..2]) && AllDigits(r[3..5]) && AllDigits(r[6..8])
      && DigitsValue(r[3..5]) < 60 && DigitsValue(r[6..8]) < 60
      && DigitsValue(r[0..2]) * 3600 + DigitsValue(r[3..5]) * 60 + DigitsValue(r[6..8])
         == ms / MsPerSecond
  {
    var h := ms / MsPerHour;
    var m := (ms % MsPerHour) / MsPerMinute;
    var sec := (ms % MsPerMinute) / MsPerSecond;
    var r := Pad2(h) + ":" + Pad2(m) + ":" + Pad2(sec);
    if 0 <= ms < 100 * MsPerHour then
      SecondsSplit(ms);
      assert r[0..2] == Pad2(h) && r[3..5] == Pad2(m) && r[6..8] == Pad2(sec);
      r
    else
      r
  }

  lemma SecondsSplit(ms: int)
    requires ms >= 0
    ensures (ms / MsPerHour) * 3600 + ((ms % MsPerHour) / MsPerMinute) * 60
            + (ms % MsPerMinute) / MsPerSecond == ms / MsPerSecond
  {
    var t := ms / MsPerSecond;
    assert ms % MsPerMinute == (t % 60) * 1000 + ms % 1000;
    assert (ms % MsPerMinute) / MsPerSecond == t % 60;
    assert ms / MsPerHour == t / 3600;
    assert ms % MsPerHour == (t % 3600) * 1000 + ms % 1000;
    assert (ms % MsPerHour) / MsPerMinute == (t % 3600) / 60;
  }

  // ---------------------------------------------------------------------------
  // Properties

  /** The shape `H:MM:SS` followed by `[,.]mmm` (when `frac` holds) or by
      nothing, with a one- or two-digit hour field. */
  predicate HmsShape(s: string, k: nat, frac: bool) {
    && (k == 1 || k == 2)
    && |s| == (if frac then k + 10 else k + 6)
    && DigitsAt(s, 0, k) && s[k] == ':' && DigitsAt(s, k + 1, 2)
    && s[k + 3] == ':' && DigitsAt(s, k + 4, 2)
    && (frac ==> (s[k + 6] == ',' || s[k + 6] == '.') && DigitsAt(s, k + 7, 3))
  }

  /** `HH:MM:SS,mmm` and `HH:MM:SS.mmm` read as h·3600 + m·60 + s seconds plus
      mmm milliseconds; `HH:MM:SS` reads as h·3600 + m·60 + s seconds. */
  lemma ParseHms(s: string, k: nat, frac: bool)
    requires HmsShape(s, k, frac)
    ensures ParseTimestamp(s)
            == NumAt(s, 0, k) * MsPerHour + NumAt(s, k + 1, 2) * MsPerMinute
               + NumAt(s, k + 4, 2) * MsPerSecond + (if frac then NumAt(s, k + 7, 3) else 0)
  {
    HmsLead(s, k, frac);
    if frac {
      assert HmsFrac(s, k);
    } else {
      assert !HmsFrac(s, k) && Hms(s, k);
    }
  }

  /** Such a token needs no stripping, and its leading field is the hour. */
  lemma HmsLead(s: string, k: nat, frac: bool)
    requires HmsShape(s, k, frac)
    ensures Strip(s) == s && LeadLen(s) == k
  {
    assert s[0..k][0] == s[0];
    assert IsDigit(s[0]);
    assert s[|s| - 1] == (if frac then s[k + 7..k + 10][2] else s[k + 4..k + 6][1]);
    StripUnchanged(s);
    assert k == 2 ==> s[0..k][1] == s[1];
  }

  /** The comma and the period are interchangeable as sub-second separator:
      two tokens that differ only there read the same. */
  lemma CommaEqualsPeriod(s: string, t: string, k: nat)
    requires HmsShape(s, k, true) && |t| == |s|
    requires s[k + 6] == ',' && t[k + 6] == '.'
    requires forall i :: 0 <= i < |s| && i != k + 6 ==> t[i] == s[i]
    ensures ParseTimestamp(s) == ParseTimestamp(t)
  {
    assert t[0..k] == s[0..k] && t[k + 1..k + 3] == s[k + 1..k + 3];
    assert t[k + 4..k + 6] == s[k + 4..k + 6] && t[k + 7..k + 10] == s[k + 7..k + 10];
    assert HmsShape(t, k, true);
    ParseHms(s, k, true);
    ParseHms(t, k, true);
  }

  /** A token without any digit matches no form, is not a number, and reads as 0. */
  lemma {:induction false} ParseWithoutDigitsIsZero(ts: string)
    requires !HasDigit(ts)
    ensures ParseTimestamp(ts) == 0
  {
    var s := Strip(ts);
    if s != [] {
      assert s[0] in ts;
      assert !IsDigit(s[0]);
    }
  }

  /** A token that no colon form reads and that is not a plain number reads
      as 0; the parse never fails. */
  lemma NoFormIsZero(ts: string)
    requires forall k :: 1 <= k <= 2 ==>
      !(DigitsAt(Strip(ts), 0, k) && CharAt(Strip(ts), k, ':') && DigitsAt(Strip(ts), k + 1, 2))
    requires Strip(ts) == [] || !AllDigits(Strip(ts))
    ensures ParseTimestamp(ts) == 0
  {
    var s := Strip(ts);
    var k := LeadLen(s);
    if k > 0 {
      assert !DigitsAt(s, k + 1, 2);
    }
  }

  /** Rendering whole seconds below 100 hours and parsing the text back gives
      the time truncated to the second. */
  lemma RoundTrip(ms: int)
    requires 0 <= ms < 100 * MsPerHour
    ensures ParseTimestamp(SecondsToTimestamp(ms)) == (ms / MsPerSecond) * MsPerSecond
  {
    var r := SecondsToTimestamp(ms);
    RenderedHms(ms);
    ParseHms(r, 2, false);
    MsOfFields(NumAt(r, 0, 2), NumAt(r, 3, 2), NumAt(r, 6, 2), ms / MsPerSecond);
  }

  /** A rendering below 100 hours has the shape `HH:MM:SS`, its fields
      giving the whole seconds of the time. */
  lemma RenderedHms(ms: int)
    requires 0 <= ms < 100 * MsPerHour
    ensures HmsShape(SecondsToTimestamp(ms), 2, false)
    ensures NumAt(SecondsToTimestamp(ms), 0, 2) * 3600 + NumAt(SecondsToTimestamp(ms), 3, 2) * 60
            + NumAt(SecondsToTimestamp(ms), 6, 2) == ms / MsPerSecond
  {
  }

  lemma MsOfFields(h: int, m: int, sec: int, total: int)
    requires h * 3600 + m * 60 + sec == total
    ensures h * MsPerHour + m * MsPerMinute + sec * MsPerSecond == total * MsPerSecond
  {
  }

  /** Whole seconds survive the round trip exactly. */
  lemma RoundTripSeconds(n: nat)
    requires n < 360000
    ensures ParseTimestamp(SecondsToTimestamp(n * MsPerSecond)) == n * MsPerSecond
  {
    var ms := n * MsPerSecond;
    assert ms / MsPerSecond == n;
    RoundTrip(ms);
  }

  lemma HundredHoursRendering()
    ensures SecondsToTimestamp(100 * MsPerHour) == "100:00:00"
  {
    assert NatToString(100) == "100" by {
      assert NatToString(10) == "10";
    }
    assert Pad2(0) == "00";
    assert (100 * MsPerHour) / MsPerHour == 100;
  }

  lemma HundredHoursUnparsed(s: string)
    requires s == "100:00:00"
    ensures ParseTimestamp(s) == 0
  {
    StripUnchanged(s);
    assert LeadLen(s) == 0;
    assert !IsDigit(s[3]);
  }

  /** At 100 hours the hour field has three digits, which no form accepts: the
      round trip stops exactly where `RoundTrip` says. */
  lemma RoundTripEndsAtHundredHours()
    ensures ParseTimestamp(SecondsToTimestamp(100 * MsPerHour)) == 0
  {
    HundredHoursRendering();
    HundredHoursUnparsed(SecondsToTimestamp(100 * MsPerHour));
  }
}

=== FILE: video.dfy ===
/** The index `process_video` writes, given what its I/O would supply: the
    transcript's content and extension, the extracted baseline and
    scene-change frames, the frame target and the video's duration. */
module Video {
  import opened Wrappers
  import opened Speakers
  import opened Seqs
  import opened Rounding
  import opened Frames
  import opened Alignment
  import Metrics
  import Dispatch

  /** `speaker_analysis`. */
  datatype SpeakerAnalysis = SpeakerAnalysis(totalSpeakers: nat, totalTurns: nat, speakers: seq<Metrics.SpeakerMetrics>)

  /** The index, without the file names and the two settings it echoes. */
  datatype Index = Index(
    durationSeconds: real,
    totalFrames: nat,
    speakerAnalysis: SpeakerAnalysis,
    frames: seq<FrameRecord>)

  /** `process_video`: parse, measure the speakers, merge and thin the
      frames, and map each frame to what it shows. */
  function ProcessVideo(content: string, ext: string, baseline: seq<Frame>, scenes: seq<Frame>, target: int, durationMs: int): Outcome<Index> {
    var segs := Dispatch.ParseTranscript(content, ext);
    Assemble(segs, Metrics.ComputeSpeakerMetrics(segs), Downsample(MergeFrames(baseline, scenes, MinGapMs), target), durationMs)
  }

  /** The index from the segments, their metrics and the thinned frames. */
  function Assemble(segs: seq<Segment>, m: (seq<Metrics.SpeakerMetrics>, seq<Metrics.Turn>, nat), kept: Outcome<seq<Frame>>, durationMs: int): Outcome<Index> {
    match kept
    case Raises(e) => Raises(e)
    case Returns(frames) =>
      var records := Records(segs, frames);
      Returns(Index(
        Round(durationMs as real / 1000.0, 2),
        |records|,
        SpeakerAnalysis(|m.0|, m.2, m.0),
        records))
  }

  /** Every record is the record of some merged frame. */
  predicate ShowsMerged(segs: seq<Segment>, merged: seq<Frame>, records: seq<FrameRecord>) {
    forall r :: r in records ==> r in Records(segs, merged)
  }

  /** One record per frame, in order. */
  function Records(segs: seq<Segment>, frames: seq<Frame>): (r: seq<FrameRecord>)
    ensures |r| == |frames|
    ensures forall k :: 0 <= k < |frames| ==> r[k] == RecordOf(segs, frames[k])
  {
    seq(|frames|, k requires 0 <= k < |frames| => RecordOf(segs, frames[k]))
  }

  /** The index counts what it lists: one record per kept frame, never more
      than a non-negative target, one entry per speaker, and as many turns as
      the consolidated transcript has; each record shows what the time of a
      merged frame aligns to. */
  lemma ProcessVideoSpec(content: string, ext: string, baseline: seq<Frame>, scenes: seq<Frame>, target: int, durationMs: int)
    requires ProcessVideo(content, ext, baseline, scenes, target, durationMs).Returns?
    ensures var ix := ProcessVideo(content, ext, baseline, scenes, target, durationMs).value;
      var segs := Dispatch.ParseTranscript(content, ext);
      && ix.totalFrames == |ix.frames|
      && (target >= 0 ==> ix.totalFrames <= target)
      && ix.speakerAnalysis.totalSpeakers == |ix.speakerAnalysis.speakers|
      && ix.speakerAnalysis.totalTurns == |Metrics.Turns(segs)|
      && ShowsMerged(segs, MergeFrames(baseline, scenes, MinGapMs), ix.frames)
  {
    var segs := Dispatch.ParseTranscript(content, ext);
    var merged := MergeFrames(baseline, scenes, MinGapMs);
    var m := Metrics.ComputeSpeakerMetrics(segs);
    DownsampleKeeps(merged, target);
    AssembleSpec(segs, m, merged, target, durationMs);
  }

  lemma AssembleSpec(segs: seq<Segment>, m: (seq<Metrics.SpeakerMetrics>, seq<Metrics.Turn>, nat), merged: seq<Frame>, target: int, durationMs: int)
    requires m.2 == |Metrics.Turns(segs)|
    requires Downsample(merged, target).Returns?
    requires forall f :: f in Downsample(merged, target).value ==> f in merged
    requires target >= 0 ==> |Downsample(merged, target).value| <= target || |merged| <= target
    ensures var ix := Assemble(segs, m, Downsample(merged, target), durationMs).value;
      && ix.totalFrames == |ix.frames|
      && (target >= 0 ==> ix.totalFrames <= target)
      && ix.speakerAnalysis.totalSpeakers == |ix.speakerAnalysis.speakers|
      && ix.speakerAnalysis.totalTurns == |Metrics.Turns(segs)|
      && ShowsMerged(segs, merged, ix.frames)
  {
    var frames := Downsample(merged, target).value;
    if |merged| <= target {
      assert frames == merged;
    }
    RecordsShowMerged(segs, merged, frames);
  }

  lemma RecordsShowMerged(segs: seq<Segment>, merged: seq<Frame>, frames: seq<Frame>)
    requires forall f :: f in frames ==> f in merged
    ensures ShowsMerged(segs, merged, Records(segs, frames))
  {
    var records := Records(segs, frames);
    forall r | r in records ensures r in Records(segs, merged) {
      var i :| 0 <= i < |records| && records[i] == r;
      assert frames[i] in merged;
      var j :| 0 <= j < |merged| && merged[j] == frames[i];
      assert Records(segs, merged)[j] == r;
    }
  }

  /** A zero frame target with frames to thin makes the run fail. */
  lemma ZeroTargetRaises(content: string, ext: string, baseline: seq<Frame>, scenes: seq<Frame>, durationMs: int)
    requires MergeFrames(baseline, scenes, MinGapMs) != []
    ensures ProcessVideo(content, ext, baseline, scenes, 0, durationMs).Raises?
  {
  }
}

=== FILE: vtt.dfy ===
/** The WebVTT reader: `extract_speaker_from_vtt_line` and `parse_vtt`.

    The content is stripped and split into lines; lines up to the first one
    opening with `\d{2}:\d{2}` are the header. Every timing line opens a cue
    whose body runs up to the next blank or timing line; numeric identifiers
    and NOTE lines in the body are skipped, the others give a speaker and a
    cleaned text. A cue with no text is dropped. */
module Vtt {
  import opened Wrappers
  import opened Text
  import opened LineSyntax
  import opened Timestamps
  import opened Speakers
  import opened CueTiming

  /** `re.match(r'\d{2}:\d{2}', line)`. */
  predicate OpensWithClock(line: string) {
    |line| >= 5 && IsDigit(line[0]) && IsDigit(line[1]) && line[2] == ':'
    && IsDigit(line[3]) && IsDigit(line[4])
  }

  /** The header skip: the lines from the first one opening with a clock on. */
  function DropHeader(lines: seq<string>): (r: seq<string>)
    ensures |r| <= |lines| && r == lines[|lines| - |r|..]
    ensures r != [] ==> OpensWithClock(r[0])
    ensures forall k :: 0 <= k < |lines| - |r| ==> !OpensWithClock(lines[k])
    decreases |lines|
  {
    if lines == [] || OpensWithClock(lines[0]) then lines else DropHeader(lines[1..])
  }

  /** The voice tag `<v\s+([^>]+)>(.*)` at the head of a line, giving the name
      group and the text group. The name group starts after the whitespace run
      and ends at the first '>'; when that '>' follows the run at once, the run
      gives its last character back to the name, which needs a run of two. */
  function VoiceTag(line: string): (r: Option<(string, string)>)
    ensures r.Some? ==> StartsWith(line, "<v") && |r.value.1| < |line|
  {
    if |line| < 3 || line[0] != '<' || line[1] != 'v' then None
    else
      var w := SpaceRun(line, 2);
      if w == 0 then None
      else
        match FindFrom(line, '>', 2 + w)
        case None => None
        case Some(c) =>
          if c > 2 + w || w >= 2 then Some((line[2..c], line[c + 1..])) else None
  }

  /** `extract_speaker_from_vtt_line`: a voice tag gives its stripped name and
      its stripped, tag-free text; otherwise a `Name: text` line whose name
      passes the heuristic gives both parts stripped (tags are kept); otherwise
      there is no speaker and the text is the line without tags. */
  function ExtractSpeaker(line: string): (Option<string>, string) {
    match VoiceTag(line)
    case Some((name, text)) => (Some(Strip(name)), RemoveTags(Strip(text)))
    case None =>
      match ColonSplit(line)
      case Some((before, after)) =>
        if LooksLikeName(Strip(before)) then (Some(Strip(before)), Strip(after))
        else (None, RemoveTags(line))
      case None => (None, RemoveTags(line))
  }

  /** The speaker found is stripped; without a voice tag it passes the name
      heuristic and the line holds a ':'; a voice tag always gives a speaker
      and a text without tags; without a speaker the text is the line without
      its tags. */
  lemma ExtractSpeakerSpec(line: string)
    ensures var r := ExtractSpeaker(line);
      && (r.0.Some? ==> Strip(r.0.value) == r.0.value)
      && (r.0.Some? && VoiceTag(line).None? ==> LooksLikeName(r.0.value) && ':' in line)
      && (VoiceTag(line).Some? ==> r.0.Some? && TagFree(r.1))
      && (r.0.None? ==> r.1 == RemoveTags(line))
  {
    match VoiceTag(line)
    case Some((name, text)) =>
      VoiceCaseSpec(line, name, text);
    case None =>
      match ColonSplit(line)
      case Some((before, after)) =>
        if LooksLikeName(Strip(before)) {
          ColonCaseSpec(line, before, after);
        }
      case None =>
  }

  lemma VoiceCaseSpec(line: string, name: string, text: string)
    requires VoiceTag(line) == Some((name, text))
    ensures ExtractSpeaker(line) == (Some(Strip(name)), RemoveTags(Strip(text)))
    ensures Strip(Strip(name)) == Strip(name) && TagFree(RemoveTags(Strip(text)))
  {
    RemoveTagsTagFree(Strip(text));
    StripIdempotent(name);
  }

  lemma ColonCaseSpec(line: string, before: string, after: string)
    requires VoiceTag(line).None? && ColonSplit(line) == Some((before, after))
    requires LooksLikeName(Strip(before))
    ensures ExtractSpeaker(line) == (Some(Strip(before)), Strip(after))
    ensures Strip(Strip(before)) == Strip(before) && ':' in line
  {
    StripIdempotent(before);
    assert line[|before|] == ':';
  }

  // ---------------------------------------------------------------------------
  // Cues

  /** A line that closes a cue body: blank, or itself a timing line. */
  predicate EndsCue(line: string) {
    var t := Strip(line);
    t == [] || Arrow(t).Some?
  }

  /** `^\d+$` or `startswith('NOTE')` on a stripped body line. */
  predicate IsCueIdentifier(t: string) {
    (t != [] && AllDigits(t)) || StartsWith(t, "NOTE")
  }

  /** What one body line gives: nothing for an identifier or NOTE line,
      otherwise its speaker and cleaned text. */
  function BodyLine(line: string): (Option<string>, string) {
    var t := Strip(line);
    if IsCueIdentifier(t) then (None, []) else ExtractSpeaker(t)
  }

  /** The times of a timing line, read with `parse_timestamp`. */
  function Timing(line: string): Option<(int, int)> {
    match Arrow(Strip(line))
    case None => None
    case Some((a, b)) => Some((ParseTimestamp(a), ParseTimestamp(b)))
  }

  /** Everything the cue loop asks of one line: its times if it is a timing
      line, whether it closes a cue body, and what it gives as a body line. */
  datatype LineView = LineView(timing: Option<(int, int)>, ends: bool, speaker: Option<string>, text: string)

  function ViewOf(line: string): LineView {
    LineView(Timing(line), EndsCue(line), BodyLine(line).0, BodyLine(line).1)
  }

  function Views(lines: seq<string>): (vs: seq<LineView>)
    ensures |vs| == |lines|
  {
    seq(|lines|, i requires 0 <= i < |lines| => ViewOf(lines[i]))
  }

  /** Number of body lines: the lines before the first one that ends the cue. */
  function BodyLen(body: seq<LineView>): (n: nat)
    ensures n <= |body|
    decreases |body|
  {
    if body == [] || body[0].ends then 0 else 1 + BodyLen(body[1..])
  }

  /** The body stops exactly at the first blank or timing line. */
  lemma {:induction false} BodyLenFirstEnd(body: seq<LineView>)
    ensures forall k :: 0 <= k < BodyLen(body) ==> !body[k].ends
    ensures BodyLen(body) < |body| ==> body[BodyLen(body)].ends
    decreases |body|
  {
    if body != [] && !body[0].ends {
      BodyLenFirstEnd(body[1..]);
      forall k | 0 <= k < BodyLen(body) ensures !body[k].ends {
        if k > 0 {
          assert body[k] == body[1..][k - 1];
        }
      }
    }
  }

  /** The cleaned texts of a cue body, in order; empty ones are dropped. */
  function CueTexts(body: seq<LineView>): (r: seq<string>)
    ensures |r| <= |body|
    ensures forall k :: 0 <= k < |r| ==> r[k] != []
    decreases |body|
  {
    if body == [] then []
    else
      var rest := CueTexts(body[1..]);
      if body[0].text == [] then rest else [body[0].text] + rest
  }

  /** The first non-empty speaker name of a cue body. */
  function CueSpeaker(body: seq<LineView>): (r: Option<string>)
    ensures r.None? || Named(r)
    decreases |body|
  {
    if body == [] then None
    else if Named(body[0].speaker) then body[0].speaker
    else CueSpeaker(body[1..])
  }

  /** One step of the main loop of `parse_vtt` at the first line: a timing
      line opens a cue that takes the body lines after it and gives a segment
      when the body has text; any other line is passed over. Returns the
      segment, if any, and the number of lines consumed. */
  function Step(vs: seq<LineView>): (r: (Option<RawSegment>, nat))
    requires vs != []
    ensures 1 <= r.1 <= |vs|
    ensures r.0.Some? ==> CueOk(r.0.value)
  {
    match vs[0].timing
    case None => (None, 1)
    case Some((start, end)) =>
      var n := BodyLen(vs[1..]);
      var body := vs[1..1 + n];
      var texts := CueTexts(body);
      if texts == [] then (None, 1 + n)
      else
        JoinNonEmpty(texts, " ");
        (Some(RawSegment(start, end, Join(texts, " "), CueSpeaker(body))), 1 + n)
  }

  /** The main loop of `parse_vtt`, step after step until the lines run out.
      Every segment has text, and a speaker name only when it is non-empty. */
  function ParseViews(vs: seq<LineView>): (r: seq<RawSegment>)
    ensures |r| <= |vs|
    ensures forall k :: 0 <= k < |r| ==> CueOk(r[k])
    decreases |vs|
  {
    if vs == [] then []
    else
      var step := Step(vs);
      var rest := ParseViews(vs[step.1..]);
      if step.0.Some? then [step.0.value] + rest else rest
  }

  /** Every segment the reader emits has text, and a name only when it is
      non-empty. */
  predicate CueOk(seg: RawSegment) {
    seg.text != [] && (seg.name.None? || Named(seg.name))
  }

  /** `parse_vtt` before speaker ids are assigned. */
  function ParseVttRaw(content: string): seq<RawSegment> {
    ParseViews(Views(DropHeader(Split(Strip(content), '\n'))))
  }

  /** `parse_vtt`. */
  function ParseVtt(content: string): (r: seq<Segment>)
    ensures |r| == |ParseVttRaw(content)|
  {
    AssignIds(ParseVttRaw(content))
  }

  /** A line that is not a timing line yields nothing and is passed over. */
  lemma SkipsNonTiming(vs: seq<LineView>)
    requires vs != [] && vs[0].timing.None?
    ensures ParseViews(vs) == ParseViews(vs[1..])
  {
  }

  /** Without a timing line there are no cues. */
  lemma {:induction false} NoTimingNoCues(vs: seq<LineView>)
    requires forall k :: 0 <= k < |vs| ==> vs[k].timing.None?
    ensures ParseViews(vs) == []
    decreases |vs|
  {
    if vs != [] {
      NoTimingNoCues(vs[1..]);
    }
  }

  /** The views of a suffix are the suffix of the views. */
  lemma ViewsSuffix(lines: seq<string>, k: nat)
    requires k <= |lines|
    ensures Views(lines)[k..] == Views(lines[k..])
  {
  }

  // ---------------------------------------------------------------------------
  // Rendering, and reading a rendered document back

  predicate WellFormed(c: Cue) {
    c.start < 360000 && c.end < 360000
    && Bare(c.name) && '>' !in c.name
    && Bare(c.text) && '<' !in c.text
  }

  function VoiceLine(c: Cue): string {
    "<v " + c.name + ">" + c.text
  }

  /** Each cue preceded by a blank line: timing line, then voice line. */
  function CueBlocks(cues: seq<Cue>): string
    decreases |cues|
  {
    if cues == [] then []
    else "\n\n" + TimingLine(cues[0].start, cues[0].end) + "\n" + VoiceLine(cues[0]) + CueBlocks(cues[1..])
  }

  function Render(cues: seq<Cue>): string {
    "WEBVTT" + CueBlocks(cues)
  }

  /** The three lines of a rendered cue: a blank line, its timing line and
      its voice line. */
  function CueTriple(c: Cue): (string, string, string) {
    ("", TimingLine(c.start, c.end), VoiceLine(c))
  }

  /** The three items of each element, in order. */
  function FlatMap3<A, T>(f: A -> (T, T, T), xs: seq<A>): (r: seq<T>)
    ensures |r| == 3 * |xs|
    decreases |xs|
  {
    if xs == [] then [] else [f(xs[0]).0, f(xs[0]).1, f(xs[0]).2] + FlatMap3(f, xs[1..])
  }

  lemma {:induction false} FlatMap3At<A, T>(f: A -> (T, T, T), xs: seq<A>, k: nat)
    requires k < |xs|
    ensures |FlatMap3(f, xs)| == 3 * |xs|
    ensures FlatMap3(f, xs)[3 * k] == f(xs[k]).0
    ensures FlatMap3(f, xs)[3 * k + 1] == f(xs[k]).1
    ensures FlatMap3(f, xs)[3 * k + 2] == f(xs[k]).2
    decreases |xs|
  {
    if k > 0 {
      FlatMap3At(f, xs[1..], k - 1);
      assert xs[1..][k - 1] == xs[k];
    } else if xs[1..] != [] {
      FlatMap3At(f, xs[1..], 0);
    }
  }

  /** The lines of `CueBlocks(cues)` after its leading newline. */
  function CueLines(cues: seq<Cue>): seq<string> {
    FlatMap3(CueTriple, cues)
  }

  /** A line `<v` + space + name + `>` + text, the name opening with a
      non-space and holding no '>', is a voice tag with those groups. */
  lemma VoiceTagParts(line: string, name: string, text: string)
    requires name != [] && !IsSpace(name[0]) && '>' !in name
    requires |line| == |name| + |text| + 4
    requires line[0] == '<' && line[1] == 'v' && line[2] == ' ' && line[3 + |name|] == '>'
    requires line[3..3 + |name|] == name && line[4 + |name|..] == text
    ensures VoiceTag(line) == Some((line[2..3 + |name|], text))
  {
    var k := 3 + |name|;
    assert line[3] == name[0];
    SpaceRunExact(line, 2, 1);
    assert forall j :: 3 <= j < k ==> line[j] == name[j - 3];
    FindFromExact(line, '>', 3, k);
  }

  lemma ExtractVoice(line: string, name: string, text: string)
    requires VoiceTag(line) == Some((name, text))
    ensures ExtractSpeaker(line) == (Some(Strip(name)), RemoveTags(Strip(text)))
  {
  }

  /** A voice line reads back as its speaker and its text. */
  lemma VoiceLineRoundTrip(c: Cue)
    requires WellFormed(c)
    ensures ExtractSpeaker(VoiceLine(c)) == (Some(c.name), c.text)
  {
    CleanText(c.text);
    StripSpaceHead(c.name);
    VoiceLineTag(VoiceLine(c), c.name, c.text);
    ExtractVoice(VoiceLine(c), [' '] + c.name, c.text);
  }

  lemma VoiceLineTag(line: string, name: string, text: string)
    requires name != [] && !IsSpace(name[0]) && '>' !in name
    requires line == "<v " + name + ">" + text
    ensures VoiceTag(line) == Some(([' '] + name, text))
  {
    var k := 3 + |name|;
    assert line[0] == '<' && line[1] == 'v' && line[2] == ' ' && line[k] == '>';
    assert line[3..k] == name && line[k + 1..] == text;
    VoiceTagParts(line, name, text);
    assert line[2..k] == [' '] + name;
  }

  /** Stripping and tag removal leave a bare text without '<' alone. */
  lemma CleanText(t: string)
    requires Bare(t) && '<' !in t
    ensures RemoveTags(Strip(t)) == t
  {
    StripUnchanged(t);
    NoBracketTagFree(t);
    TagFreeUnchanged(t);
  }

  lemma ExtractColon(line: string, before: string, after: string)
    requires VoiceTag(line).None? && ColonSplit(line) == Some((before, after))
    requires LooksLikeName(Strip(before))
    ensures ExtractSpeaker(line) == (Some(Strip(before)), Strip(after))
  {
  }

  lemma ColonLineSplit(line: string, name: string, text: string)
    requires name != [] && ':' !in name && name[0] != '<' && text != []
    requires line == name + ": " + text
    ensures VoiceTag(line).None?
    ensures ColonSplit(line) == Some((name, [' '] + text))
  {
    assert line[0] == name[0];
    assert line[..|name|] == name && line[|name|] == ':' && line[|name| + 1] == ' ';
    assert line[|name| + 2..] == text;
    ColonParts(line, name, text);
  }

  /** A `Name: text` line whose name passes the heuristic, and which is not a
      voice tag, reads back as its name and its text. */
  lemma ColonLineRoundTrip(name: string, text: string)
    requires Bare(name) && ':' !in name && LooksLikeName(name) && name[0] != '<'
    requires Bare(text)
    ensures ExtractSpeaker(name + ": " + text) == (Some(name), text)
  {
    StripUnchanged(name);
    StripSpaceHead(text);
    ColonLineSplit(name + ": " + text, name, text);
    ExtractColon(name + ": " + text, name, [' '] + text);
  }

  /** A line with no voice tag and no ':' has no speaker: only its tags go. */
  lemma NoMarkerNoSpeaker(line: string)
    requires !StartsWith(line, "<v") && ':' !in line
    ensures ExtractSpeaker(line) == (None, RemoveTags(line))
    ensures TagFree(ExtractSpeaker(line).1)
  {
    RemoveTagsTagFree(line);
  }

  /** The voice line is one line. */
  lemma VoiceLineNoNewline(line: string, name: string, text: string)
    requires '\n' !in name && '\n' !in text
    requires line == "<v " + name + ">" + text
    ensures '\n' !in line
  {
    forall j | 0 <= j < |line| ensures line[j] != '\n' {
      if j >= 4 + |name| {
        assert line[j] == text[j - 4 - |name|];
      } else if 3 <= j < 3 + |name| {
        assert line[j] == name[j - 3];
      }
    }
  }

  /** A voice line is its own stripped form, is not a timing line and is not
      an identifier line. */
  lemma VoiceLineShape(v: string, name: string, text: string)
    requires Bare(text)
    requires v == "<v " + name + ">" + text
    ensures Strip(v) == v && !EndsCue(v) && !IsCueIdentifier(v)
  {
    assert v[0] == '<' && v[|v| - 1] == text[|text| - 1];
    StripUnchanged(v);
    StampRunExact(v, 0, 0);
    assert Arrow(v).None?;
    assert !IsDigit(v[0]);
    assert v[..4] != "NOTE";
  }

  /** A rendered voice line does not end the cue and gives the cue's speaker
      and text. */
  lemma VoiceBodyLine(c: Cue)
    requires WellFormed(c)
    ensures !EndsCue(VoiceLine(c))
    ensures BodyLine(VoiceLine(c)) == (Some(c.name), c.text)
  {
    VoiceLineShape(VoiceLine(c), c.name, c.text);
    VoiceLineRoundTrip(c);
  }

  /** The three views of rendered cue `c`: a blank line, a timing line with
      the cue's times, and a body line with its speaker and text. */
  predicate CueViews(c: Cue, blank: LineView, timing: LineView, voice: LineView) {
    && blank.timing.None? && blank.ends
    && timing.timing == Some((c.start * MsPerSecond, c.end * MsPerSecond)) && timing.ends
    && !voice.ends && voice.speaker == Some(c.name) && voice.text == c.text
  }

  /** The views of rendered cue lines: three for each cue, in order. */
  predicate RenderedViews(cues: seq<Cue>, vs: seq<LineView>) {
    && |vs| == 3 * |cues|
    && forall k :: 0 <= k < |cues| ==> CueViews(cues[k], vs[3 * k], vs[3 * k + 1], vs[3 * k + 2])
  }

  /** Dropping the first cue and its three views keeps the shape. */
  lemma RenderedViewsTail(cues: seq<Cue>, vs: seq<LineView>)
    requires cues != [] && RenderedViews(cues, vs)
    ensures RenderedViews(cues[1..], vs[3..])
  {
    forall k | 0 <= k < |cues| - 1
      ensures CueViews(cues[1..][k], vs[3..][3 * k], vs[3..][3 * k + 1], vs[3..][3 * k + 2])
    {
      assert CueViews(cues[k + 1], vs[3 * (k + 1)], vs[3 * (k + 1) + 1], vs[3 * (k + 1) + 2]);
    }
  }

  /** The timing line of a rendered cue and its one body line make a step
      that gives the cue and takes two lines. */
  lemma StepOnRenderedCue(cues: seq<Cue>, vs: seq<LineView>)
    requires cues != [] && WellFormed(cues[0]) && RenderedViews(cues, vs)
    ensures Step(vs[1..]) == (Some(Expected(cues)[0]), 2)
  {
    assert CueViews(cues[0], vs[0], vs[1], vs[2]);
    var m := vs[1..];
    assert BodyLen(m[1..]) == 1 by {
      assert m[1..][0] == vs[2];
      if |vs| > 3 {
        assert CueViews(cues[1], vs[3], vs[4], vs[5]);
        assert m[1..][1..][0] == vs[3];
      }
    }
    assert m[1..1 + 1] == [vs[2]];
    assert CueTexts([vs[2]]) == [cues[0].text];
  }

  /** Reading the views of rendered cues gives each cue back, in order. */
  lemma {:induction false} ParseRenderedViews(cues: seq<Cue>, vs: seq<LineView>)
    requires forall k :: 0 <= k < |cues| ==> WellFormed(cues[k])
    requires RenderedViews(cues, vs)
    ensures ParseViews(vs) == Expected(cues)
    decreases |cues|
  {
    if cues != [] {
      assert CueViews(cues[0], vs[0], vs[1], vs[2]);
      SkipsNonTiming(vs);
      StepOnRenderedCue(cues, vs);
      assert vs[1..][2..] == vs[3..];
      RenderedViewsTail(cues, vs);
      ParseRenderedViews(cues[1..], vs[3..]);
    }
  }

  lemma BlankView()
    ensures ViewOf([]).timing.None? && ViewOf([]).ends
  {
    assert Strip([]) == [];
    assert StampRun([], 0) == 0;
  }

  lemma TimingView(c: Cue)
    requires WellFormed(c)
    ensures ViewOf(TimingLine(c.start, c.end)).timing == Some((c.start * MsPerSecond, c.end * MsPerSecond))
    ensures ViewOf(TimingLine(c.start, c.end)).ends
  {
    TimingLineRoundTrip(c.start, c.end);
  }

  lemma VoiceView(c: Cue)
    requires WellFormed(c)
    ensures !ViewOf(VoiceLine(c)).ends
    ensures ViewOf(VoiceLine(c)).speaker == Some(c.name) && ViewOf(VoiceLine(c)).text == c.text
  {
    VoiceBodyLine(c);
  }

  /** The three lines of rendered cue `k`. */
  lemma CueLinesAt(cues: seq<Cue>, k: nat)
    requires k < |cues|
    ensures |CueLines(cues)| == 3 * |cues|
    ensures CueLines(cues)[3 * k] == []
    ensures CueLines(cues)[3 * k + 1] == TimingLine(cues[k].start, cues[k].end)
    ensures CueLines(cues)[3 * k + 2] == VoiceLine(cues[k])
  {
    FlatMap3At(CueTriple, cues, k);
  }

  /** The views of the three lines of a rendered cue. */
  lemma CueViewsOfLines(lines: seq<string>, i: nat, c: Cue)
    requires WellFormed(c) && i + 3 <= |lines|
    requires lines[i] == [] && lines[i + 1] == TimingLine(c.start, c.end) && lines[i + 2] == VoiceLine(c)
    ensures CueViews(c, Views(lines)[i], Views(lines)[i + 1], Views(lines)[i + 2])
  {
    BlankView();
    TimingView(c);
    VoiceView(c);
  }

  /** Lines laid out as rendered cues: three for each cue, in order. */
  predicate RenderedLines(cues: seq<Cue>, lines: seq<string>) {
    && |lines| == 3 * |cues|
    && forall k :: 0 <= k < |cues| ==>
         && lines[3 * k] == []
         && lines[3 * k + 1] == TimingLine(cues[k].start, cues[k].end)
         && lines[3 * k + 2] == VoiceLine(cues[k])
  }

  lemma CueLinesRendered(cues: seq<Cue>)
    ensures RenderedLines(cues, CueLines(cues))
  {
    forall k | 0 <= k < |cues|
      ensures CueLines(cues)[3 * k] == []
      ensures CueLines(cues)[3 * k + 1] == TimingLine(cues[k].start, cues[k].end)
      ensures CueLines(cues)[3 * k + 2] == VoiceLine(cues[k])
    {
      CueLinesAt(cues, k);
    }
  }

  /** Lines laid out as rendered cues have the views of rendered cues. */
  lemma ViewsOfRenderedLines(cues: seq<Cue>, lines: seq<string>)
    requires forall k :: 0 <= k < |cues| ==> WellFormed(cues[k])
    requires RenderedLines(cues, lines)
    ensures RenderedViews(cues, Views(lines))
  {
    forall k | 0 <= k < |cues|
      ensures CueViews(cues[k], Views(lines)[3 * k], Views(lines)[3 * k + 1], Views(lines)[3 * k + 2])
    {
      CueViewsOfLines(lines, 3 * k, cues[k]);
    }
  }

  /** Splitting `x`, a blank line, `t`, then the rest. */
  lemma SplitBlankThenLine(x: string, t: string, y: string)
    requires '\n' !in x && '\n' !in t
    ensures Split(x + ['\n'] + (['\n'] + (t + ['\n'] + y)), '\n') == [x, [], t] + Split(y, '\n')
  {
    var z := t + ['\n'] + y;
    SplitConcat(x, ['\n'] + z, '\n');
    SplitNoSeparator(x, '\n');
    assert [] + ['\n'] + z == ['\n'] + z;
    SplitConcat([], z, '\n');
    SplitNoSeparator([], '\n');
    SplitConcat(t, y, '\n');
    SplitNoSeparator(t, '\n');
  }

  lemma CueBlocksUnfold(x: string, cues: seq<Cue>)
    requires cues != []
    ensures x + CueBlocks(cues)
            == x + ['\n'] + (['\n'] + (TimingLine(cues[0].start, cues[0].end) + ['\n']
               + (VoiceLine(cues[0]) + CueBlocks(cues[1..]))))
  {
    var t := TimingLine(cues[0].start, cues[0].end);
    var v := VoiceLine(cues[0]);
    var r := CueBlocks(cues[1..]);
    assert CueBlocks(cues) == "\n\n" + t + "\n" + v + r;
    Regather(x, t, v, r);
  }

  lemma Regather(x: string, t: string, v: string, r: string)
    ensures x + ("\n\n" + t + "\n" + v + r) == x + ['\n'] + (['\n'] + (t + ['\n'] + (v + r)))
  {
    assert "\n\n" == ['\n'] + ['\n'];
  }

  /** Neither line of a well-formed cue holds a newline. */
  lemma CueNoNewline(c: Cue)
    requires WellFormed(c)
    ensures '\n' !in TimingLine(c.start, c.end) && '\n' !in VoiceLine(c)
  {
    TimingLineRoundTrip(c.start, c.end);
    VoiceLineNoNewline(VoiceLine(c), c.name, c.text);
  }

  lemma CueLinesUnfold(cues: seq<Cue>)
    requires cues != []
    ensures CueLines(cues)
            == [[], TimingLine(cues[0].start, cues[0].end), VoiceLine(cues[0])] + CueLines(cues[1..])
  {
  }

  /** One cue block in front of text whose split is known. */
  lemma SplitCueStep(x: string, t: string, v: string, rest: string, restLines: seq<string>)
    requires '\n' !in x && '\n' !in t
    requires Split(v + rest, '\n') == [v] + restLines
    ensures Split(x + ['\n'] + (['\n'] + (t + ['\n'] + (v + rest))), '\n')
            == [x] + ([[], t, v] + restLines)
  {
    SplitBlankThenLine(x, t, v + rest);
    Regroup(x, [], t, v, restLines);
  }

  lemma {:induction false} SplitCueBlocks(x: string, cues: seq<Cue>)
    requires '\n' !in x
    requires forall k :: 0 <= k < |cues| ==> WellFormed(cues[k])
    ensures Split(x + CueBlocks(cues), '\n') == [x] + CueLines(cues)
    decreases |cues|
  {
    if cues == [] {
      assert x + CueBlocks(cues) == x;
      SplitNoSeparator(x, '\n');
    } else {
      var c := cues[0];
      CueNoNewline(c);
      CueBlocksUnfold(x, cues);
      SplitCueBlocks(VoiceLine(c), cues[1..]);
      SplitCueStep(x, TimingLine(c.start, c.end), VoiceLine(c), CueBlocks(cues[1..]), CueLines(cues[1..]));
      CueLinesUnfold(cues);
    }
  }

  lemma Regroup<T>(x: T, a: T, b: T, c: T, r: seq<T>)
    ensures [x, a, b] + ([c] + r) == [x] + ([a, b, c] + r)
  {
  }

  lemma {:induction false} CueBlocksEnd(cues: seq<Cue>)
    requires forall k :: 0 <= k < |cues| ==> WellFormed(cues[k])
    ensures cues != [] ==> CueBlocks(cues) != [] && !IsSpace(CueBlocks(cues)[|CueBlocks(cues)| - 1])
    decreases |cues|
  {
    if cues != [] {
      var c := cues[0];
      CueBlocksEnd(cues[1..]);
      var head := "\n\n" + TimingLine(c.start, c.end) + "\n" + VoiceLine(c);
      assert CueBlocks(cues) == head + CueBlocks(cues[1..]);
      if cues[1..] == [] {
        assert CueBlocks(cues)[|CueBlocks(cues)| - 1] == c.text[|c.text| - 1];
      }
    }
  }

  /** A rendered document has no whitespace at either end. */
  lemma RenderStripped(cues: seq<Cue>)
    requires forall k :: 0 <= k < |cues| ==> WellFormed(cues[k])
    ensures Strip(Render(cues)) == Render(cues)
  {
    var doc := Render(cues);
    CueBlocksEnd(cues);
    assert doc[0] == 'W';
    assert !IsSpace(doc[|doc| - 1]) by {
      if cues == [] { assert doc == "WEBVTT"; }
    }
    StripUnchanged(doc);
  }

  lemma TimingOpensWithClock(c: Cue)
    requires WellFormed(c)
    ensures OpensWithClock(TimingLine(c.start, c.end))
  {
    TimingLineRoundTrip(c.start, c.end);
    var t := TimingLine(c.start, c.end);
    assert t[..8][0] == t[0] && t[..8][1] == t[1] && t[..8][2] == t[2];
    assert t[..8][3] == t[3] && t[..8][4] == t[4];
  }

  /** Rendered cue lines open with a blank line and a timing line. */
  lemma CueLinesHead(cues: seq<Cue>)
    requires cues != [] && WellFormed(cues[0])
    ensures |CueLines(cues)| >= 2 && CueLines(cues)[0] == [] && OpensWithClock(CueLines(cues)[1])
  {
    CueLinesUnfold(cues);
    TimingOpensWithClock(cues[0]);
  }

  /** The header skip on a `WEBVTT` line followed by lines that open with a
      blank line and a timing line keeps everything from the timing line on. */
  lemma DropWebVttHeader(lines: seq<string>, rest: seq<string>)
    requires lines == ["WEBVTT"] + rest
    requires rest == [] || (|rest| >= 2 && rest[0] == [] && OpensWithClock(rest[1]))
    ensures DropHeader(lines) == (if rest == [] then [] else rest[1..])
  {
    assert !OpensWithClock("WEBVTT");
    if rest != [] {
      assert lines[1..] == rest && rest[1..][0] == rest[1];
      assert !OpensWithClock(rest[0]);
    }
  }

  /** The header skip drops the `WEBVTT` line, and the blank line after it
      yields nothing: the rendered cues come back. */
  lemma HeaderOfRendered(cues: seq<Cue>)
    requires forall k :: 0 <= k < |cues| ==> WellFormed(cues[k])
    ensures ParseViews(Views(DropHeader(["WEBVTT"] + CueLines(cues)))) == Expected(cues)
  {
    var rest := CueLines(cues);
    if cues != [] {
      CueLinesHead(cues);
      ViewsSuffix(rest, 1);
      CueLinesRendered(cues);
      ViewsOfRenderedLines(cues, rest);
      SkipsNonTiming(Views(rest));
      ParseRenderedViews(cues, Views(rest));
    }
    DropWebVttHeader(["WEBVTT"] + rest, rest);
  }

  /** Rendering cues as a WebVTT document and reading it back gives each
      cue's times, text and speaker, in order. */
  lemma RenderParse(cues: seq<Cue>)
    requires forall k :: 0 <= k < |cues| ==> WellFormed(cues[k])
    ensures ParseVttRaw(Render(cues)) == Expected(cues)
  {
    RenderLines(cues);
    ParseVttRawOfLines(Render(cues), ["WEBVTT"] + CueLines(cues));
    HeaderOfRendered(cues);
  }

  lemma HeaderLine()
    ensures '\n' !in "WEBVTT"
  {
    var h := "WEBVTT";
    assert h == ['W'] + "EBVTT";
  }

  /** A rendered document splits into its header line and the cue lines. */
  lemma RenderLines(cues: seq<Cue>)
    requires forall k :: 0 <= k < |cues| ==> WellFormed(cues[k])
    ensures Split(Strip(Render(cues)), '\n') == ["WEBVTT"] + CueLines(cues)
  {
    HeaderLine();
    SplitCueBlocks("WEBVTT", cues);
    RenderStripped(cues);
  }

  lemma ParseVttRawOfLines(content: string, lines: seq<string>)
    requires Split(Strip(content), '\n') == lines
    ensures ParseVttRaw(content) == ParseViews(Views(DropHeader(lines)))
  {
  }
}

=== FILE: wrappers.dfy ===
/** The optional and exception-carrying values the model uses. */
module Wrappers {

  /** Python's `Optional[...]`: a value or `None`. */
  datatype Option<+T> = None | Some(value: T)

  /** A call that either returns a value or raises the named exception. */
  datatype Outcome<+T> = Returns(value: T) | Raises(exception: string)
}
